=== FILE: README.md ===
# A verified model of a Go GraphQL client

This project models, in Dafny, the core of a small Go GraphQL client library.
The library has two HTTP clients and a websocket subscription client:

- graphql.go: a client that posts a query as one JSON document or as a
  multipart form, and a websocket subscription client that speaks the
  `graphql-ws` protocol.
- client.go: an older, context-driven client.
- request.go, json.go, multipart.go, error.go: the request type and the two
  request builders of a retrying variant, plus its error helpers.
- field.go, generate.go: a generator that turns a decoded JSON object into the
  body of a Go struct.

Go calls that can fail return `Result<T>`, defined in `Common`. It has three
cases: `Ok`, `Err(message)` and `Panic(message)`. A `Panic` stands for a nil
dereference, a failed type assertion or an index out of range. Error texts are
the source's own, including the `errors.Wrap` prefixes (`"encode body: …"`).
A run's `Outcome` records a panic in its error field, by the panic's run-time
message.

Modules, one per source file or concern:

| module | models |
|---|---|
| `Common` | results, string order, decimal text of numbers, substring search, `errors.Wrap` |
| `Json` | the JSON values the client exchanges, and the parts of encoding/json its output depends on |
| `Http` | `http.Header` (`Add`, `Set`, `Get`), form parts, copying one header into another |
| `Wire` | the `{"query":…,"variables":…}` document, and a reader that parses it back |
| `Graphql` | graphql.go: `Request`, `Client`, options, `Run`, the JSON and multipart bodies, error resolution |
| `Subscriptions` | graphql.go: the subscription client's handshake, `Subscribe`, `Unsubscribe`, `Close`, and the worker loop |
| `Requests` | request.go: `OperationName`, `OperationsJSON`, `FileMap`, `CopyHeaders` |
| `JsonRun` | json.go: `runWithJSON` |
| `Multipart` | multipart.go: `runWithPostFields` |
| `Errors` | error.go: `shouldRetry`, `getAggrErr` |
| `ContextClient` | client.go: `Request`, `Do` |
| `Fields` | field.go: `goField`, `goTag`, `NewField`, the field order |
| `Generate` | generate.go: `xreflect`, `sliceType` |

Behaviours of the code a reader might not expect:

- The subscription client's "complete" frame type is the literal
  `"GQL_COMPLETE"`, where the `graphql-ws` protocol names it `complete`.
- A data, error or complete frame whose id is not registered makes the worker
  panic: the registry lookup yields nil, and the type assertion on it fails.
- A reply body that is exactly `null` makes the graphql.go client panic.
  It decodes into a pointer to the response pointer, so `null` sets that
  pointer to nil, and reading its errors dereferences it. The client.go
  client decodes into a struct value and returns nil for the same body.
- `Unsubscribe` only writes a `stop` frame. It does not remove the id from the
  registry. The worker removes it when the server's `complete` frame arrives.
- The deferred teardown closes every registered channel but leaves the
  registry as it is.
- `connection_init`, which the `graphql-ws` protocol has the client send
  first, is never sent. The handshake reads the first frame directly.
- A read error during the handshake returns the error without closing the
  connection.
- A worker read error other than end of stream calls `log.Fatalf`. The model
  records this as the `Exited` phase, in which no deferred teardown runs. A
  close frame from the server is such an error (`websocket: close 1000
  (normal)`). Only a connection dropped without a close frame, whose error
  text ends in `unexpected EOF`, ends the worker normally.
- `SubscriptionClient` with a nil header panics at its first `header.Set`,
  an assignment into a nil map, before anything is dialled.
- json.go's `runWithJSON` builds the same request as graphql.go's. This is
  proved as `JsonRun.SameAsGraphqlClient`.
- `http.Header`'s `Add`, `Set` and `Get` store and look up a name in the
  canonical form `textproto.CanonicalMIMEHeaderKey` gives it. So the
  subscription handshake's `Sec-WebSocket-Protocol` is stored as
  `Sec-Websocket-Protocol`. A caller header filled directly, with two names
  that differ only in case, has both sets of values merged under one name,
  in the order the map iteration visits them.

Inputs from outside the program are parameters:

- the HTTP reply, given as a `Reply`;
- the websocket frames read, given as a sequence of `Read`;
- the outcome of each write;
- the multipart boundary;
- whether the context is done;
- the order in which Go's map iteration visits keys, where that order can
  change the output. This includes the order in which a caller's header is
  copied onto a request.

## Model

| member | source | states |
|---|---|---|
| `Graphql.NewRequest` | graphql.go:282-288 | A new request holds the query. It has no variable map (nil), no files and an empty header. |
| `Graphql.Var` | graphql.go:291-296 | After `Var` the variable map exists and maps the key to the value. Every other variable keeps its value. The key set grows by exactly that key. Query, files and header are untouched. |
| `Graphql.VarOverwrites` | graphql.go:291-296 | Setting a key twice leaves the same request as setting it once to the second value. |
| `Graphql.VarCommutes` | graphql.go:291-296 | Setting two different keys gives the same request in either order. |
| `Graphql.AttachFile` | graphql.go:316-322 | `File` appends exactly one file with the given field, name and reader, after the earlier files, which are unchanged. |
| `Graphql.ApplyOptions` | graphql.go:232-251 | After the options run, the client uses multipart forms iff it already did or `UseMultipartForm` is among them. The same holds for `ImmediatelyCloseReqBody`. The endpoint is kept. |
| `Graphql.NewClient` | graphql.go:66-78 | A new client keeps the endpoint. It posts forms exactly when `UseMultipartForm` was passed, and closes request bodies exactly when `ImmediatelyCloseReqBody` was passed, whatever the order or repetition of options. |
| `Graphql.GraphErrText` | graphql.go:261-263 | A server error's text is `graphql: ` followed by its message unchanged. |
| `Graphql.Resolve` | graphql.go:136-155 | There is no error exactly when the body decodes and lists no errors. A body that is the JSON literal `null` sets the response pointer to nil, and reading its errors panics with the nil-dereference message, whatever the status. A transport error passes through unchanged. A body read failure is wrapped as `reading body`. An undecodable body reports the status code when it is not 200, and is otherwise wrapped as `decoding response`. A decoded error list reports its first entry. |
| `Graphql.NonOkNamesStatus` | graphql.go:145-148 | For an undecodable body with a non-200 status, the text after the fixed prefix is all digits and reads back as the status code. |
| `Graphql.DecodedIgnoresStatusAndLaterErrors` | graphql.go:150-153 | Once the body decodes with errors, the status code and every error after the first make no difference. |
| `Graphql.InternalServerErrorExample` | graphql_json_test.go:105-118 | A 500 answer whose body does not decode gives `graphql: server returned a non-200 status code: 500`. |
| `Graphql.JsonDefaults` | graphql.go:126-127 | The JSON request starts with exactly the `Content-Type` and `Accept` headers, each holding `application/json; charset=utf-8` once. |
| `Graphql.FormDefaults` | graphql.go:197-198 | The form request starts with exactly `Content-Type` (the writer's form-data type with its boundary) and `Accept` (JSON). |
| `Graphql.WithCallerHeader` | graphql.go:128-132 | Copying the caller's header onto the defaults gives, under each name, the defaults' values followed by what the visited caller keys with that canonical form hold, in visiting order. A name is present iff the defaults have it or some caller key gives it values. With canonical caller keys, each name holds the defaults' values followed by the caller's. |
| `Graphql.JsonRequest` | graphql.go:104-132 | The JSON request exists iff the variables can be encoded. Otherwise the error is an `encode body` wrap of encoding/json's refusal. The body is the `{query, variables}` document. Method, URL and the close flag come from the client. Under each canonical name, the header holds the JSON defaults' values, then the values of every caller key with that canonical form, in the order the map iteration visits them. When the caller's keys are canonical, that is simply the defaults followed by the caller's values. |
| `Graphql.JsonDefaultsComeFirst` | graphql.go:126-132 | A caller's own `Content-Type` or `Accept` cannot displace the JSON defaults as the first value of those headers. |
| `Graphql.VariablesPart` | graphql.go:164-173 | The `variables` field is present iff at least one variable is set; client.go:31-39 writes the same field, so both clients share this member. It holds the encoded map and a newline. Its only failure is an `encode variables` wrap. |
| `Graphql.FormParts` | graphql.go:158-185 | The form is the `query` field, then the optional `variables` field, then one file part per file, in order, under the file's field and name. It fails exactly when the variables fail or a reader fails. The first failing reader is the one reported, wrapped as `preparing file`. |
| `Graphql.FormWithOneVariable` | graphql_multipart_test.go:201-212 | A request with one string variable posts `query` and then `variables` holding `{"name":"value"}` and a newline. |
| `Graphql.FormRequest` | graphql.go:186-202 | The form request exists iff the form parts do, and carries them as its body. Under each canonical name, its header holds the form defaults' values, then the values of every caller key with that canonical form, in visiting order. With canonical caller keys, that is the defaults followed by the caller's values. |
| `Graphql.Send` | graphql.go:132-155 | A built request is sent and its reply resolved. A build error is returned without sending anything. |
| `Graphql.Run` | graphql.go:89-102 | A done context stops `Run` first. Files without the multipart option are refused before anything is built. A request is sent as a form exactly when the client uses multipart forms. Otherwise it is sent as JSON. |
| `Graphql.BadRequestExample` | graphql_json_test.go:121-147 | A 400 answer whose body lists an error with message `m` makes `Run` return `graphql: m`. |
| `Wire.EncodeVariables` | graphql.go:106-113 | The variables encode iff no value is refused. A nil map encodes as `null`, and only a nil map does. |
| `Wire.QueryBody` | graphql.go:106-115 | The request document exists iff its variables encode. Failure is encoding/json's refusal and never a panic. |
| `Wire.QueryBodyReadsBack` | graphql.go:106-115 | Reading the document back yields the original query text and the encoded variables. |
| `Wire.QueryBodyInjective` | graphql.go:106-115 | Two requests produce the same document only if their queries and encoded variables are equal. |
| `Wire.LiteralEndEscapeBody` | graphql.go:113 | In an escaped string, the first unescaped quote is the one that closes it. |
| `Wire.ReadQueryBodyOf` | graphql.go:106-115 | The document built from any query text and variables text parses back into exactly those two. |
| `Wire.QueryBodyWithoutVariables` | graphql_json_test.go:31 | A query without variables is sent as `{"query":"…","variables":null}` and a newline. |
| `Wire.QueryBodyWithOneVariable` | graphql_json_test.go:158-169 | A query with one string variable is sent with `"variables":{"name":"value"}`. |
| `Json.Encode` | graphql.go:113-115 | A value encodes iff no part of it is refused. A refusal is reported with encoding/json's `unsupported type` text and never panics. |
| `Json.EncodeMap` | request.go:83-89 | A map encodes iff all its values do, and the encoding is an object text from `{` to `}`. |
| `Json.EncodeSingletonMap` | graphql_multipart_test.go:201 | A one-entry map encodes as `{` + quoted key + `:` + encoded value + `}`. |
| `Json.QuoteRoundTrip` | graphql.go:113 | Unescaping an escaped string gives the string back, HTML characters and control characters included. |
| `Json.QuoteInjective` | graphql.go:113 | Different strings have different quoted forms. |
| `Json.HexRoundTrip` | graphql.go:113 | Each hexadecimal digit written in a `\u` escape reads back as its value. |
| `Json.UnescapeEscapeChar` | graphql.go:113 | The unescaper undoes one escaped character and continues with the rest. |
| `Json.CompactIdempotent` | graphql.go:389-391 | Re-marshalling a raw error payload that was already compact changes nothing. |
| `Json.CompactFromAppend` | graphql.go:389-391 | Compaction works piecewise: compacting a concatenation equals compacting the first piece, then the second from the state the first left. |
| `Http.Add` | graphql.go:128-131 | `Add` stores under the key's canonical form: the value is appended to that name's list. Every other name keeps its values, and the set of names gains exactly the canonical name. |
| `Http.Set` | graphql.go:126-127 | `Set` replaces the list under the key's canonical form by the single value. Every other name is left alone, and the set of names gains exactly the canonical name. |
| `Http.Get` | graphql.go:126-127 | `Get` looks up the key's canonical form. It yields the first value there, or the empty string when there is none. |
| `Http.CanonicalIdempotent` | graphql.go:126-131 | Canonicalizing a name twice is the same as canonicalizing it once, so a name `Add` or `Set` stored is found again under itself. |
| `Http.CanonicalIgnoresCase` | graphql.go:128-131 | Two token names that differ only in the case of ASCII letters share one canonical form. |
| `Http.AddSetKeepCanonicalKeys` | graphql.go:126-131 | A header whose names are all canonical stays so after `Add` and `Set`. |
| `Http.AddValuesAppends` | graphql.go:129-131 | Adding a list of values one by one appends them in order. |
| `Http.AddKeysValues` | graphql.go:128-132 | Copying the keys in a given visiting order appends, under each canonical name, the values of every visited key with that canonical form, in visiting order. A name is present afterwards iff it was before or something was appended to it. |
| `Http.CopyPlacesEachKey` | request.go:103-109 | When no two source keys share a canonical form, each key's values land whole under its canonical form, after the target's values. Every other name is left as the target had it. |
| `Http.CopyCanonicalKeys` | request.go:103-109 | A source header whose names are all canonical is copied name by name, whatever the visiting order: each name holds the target's values followed by the source's. |
| `Http.CopyOrderIrrelevant` | request.go:103-109 | When no two source keys share a canonical form, every order in which map iteration visits the keys gives the same copied header. |
| `Http.CopyOrderMatters` | request.go:103-109 | Two source keys that share a canonical form (`x-a` and `X-A`) have their values merged under `X-A` in visiting order, so the two orders give different headers. |
| `Http.FileParts` | graphql.go:174-182 | One part per reader, in order, with the reader's bytes. The parts exist iff no reader fails. Otherwise the first failing reader's error is returned. |
| `Requests.CopyHeaders` | request.go:103-109 | After the copy, each canonical name holds the target's values, then the values of every request key with that canonical form, in visiting order. With canonical request keys, that is the target's values followed by the request's. No target value is lost. |
| `Requests.KeywordEnd` | request.go:34 | The alternation `(mutation\|query)` matches at a position iff the text there starts with one of the two keywords, and it ends after the keyword. |
| `Requests.SpaceEnd` | request.go:34 | `\s*` consumes exactly the maximal run of RE2 white space. |
| `Requests.ParenAt` | request.go:34 | The lazy `(.*?)\(` stops at the first `(` on the same line. It fails when a newline comes first. |
| `Requests.MatchAtSound` | request.go:34-35 | The scanner matches at a position iff the regular expression does. Its captured name is the leftmost and shortest that the lazy group allows. |
| `Requests.Search` | request.go:34-35 | `FindStringSubmatch` returns the match at the leftmost position where one exists, and nothing when none exists. |
| `Requests.OperationName` | request.go:33-38 | `OperationName` never returns an error value. It either returns a name or panics. |
| `Requests.OperationNameIsChosenMatch` | request.go:33-38 | A returned name is the second capture group of the leftmost match. |
| `Requests.OperationNamePanicsIffNoMatch` | request.go:33-38 | `OperationName` panics exactly when the pattern matches nowhere in the query. The panic comes from indexing a nil slice. |
| `Requests.OperationNameExamples` | multipart_test.go:47-48 | `mutation test()` names `test`. `query {}` has no `(` and panics. |
| `Requests.OperationsJSON` | request.go:76-90 | The operations document panics iff `OperationName` does. It fails iff the name exists but the variables are refused. Otherwise it is a JSON object starting with `{"operationName":`. |
| `Requests.EscapeBodyQuotesEscaped` | request.go:89 | Every quote inside an escaped string is escaped. |
| `Requests.ReadOperationsOf` | request.go:77-89 | The operations document of any name, variables text and query parses back into exactly those three. |
| `Requests.OperationsJSONReadsBack` | request.go:76-90 | Reading back `OperationsJSON` yields the operation name, the encoded variables and the query. |
| `Requests.OperationsWithoutVariables` | multipart_test.go:47-48 | A request without variables sends `"variables":null` in its operations document. |
| `Requests.FileMapIsConcat` | request.go:93-100 | The file map is the concatenation of one `{"<i+1>": ["<field>"]}` entry per file, in order. |
| `Requests.FileMapGrows` | request.go:93-100 | Attaching one more file appends exactly that file's entry to the map. |
| `Requests.FileMapBackToBack` | request.go:93-100 | The entries are written back to back with no separator, so two files start the map with `{"1": […]}{"2": […]}`. |
| `JsonRun.RunWithJSON` | json.go:12-44 | The request exists iff the variables encode. The body is the query document. `Content-Type` and `Accept` are JSON first. Under each canonical name, the header holds the defaults, then the values of the request keys with that canonical form, in visiting order. With canonical request keys, that is the defaults followed by the request's values. |
| `JsonRun.SameAsGraphqlClient` | json.go:12-44 | json.go builds exactly the request graphql.go builds for the same client and request. |
| `Multipart.RunWithPostFields` | multipart.go:14-69 | The operations document's panic or error comes first and is returned as it is. Next come the numbered file parts, `"1"`, `"2"` and so on, each with its file's name and bytes; the first failing reader stops the body. Then come `operations` and `map`, in either order. The caller's header gains the form content type under `Content-Type` and keeps every other name. Under each canonical name, the outgoing header holds the form defaults, then the values of the caller keys with that canonical form, in visiting order. With canonical caller keys, that is the defaults followed by the caller's values. |
| `Multipart.PostForm` | multipart.go:50-69 | The caller's header gains the form content type and keeps every other name. The outgoing POST carries the parts and, under each canonical name, the form defaults' values followed by the values the caller's keys give it in visiting order. |
| `Multipart.ContentTypeTwice` | multipart.go:50-69 | With canonical caller keys, the outgoing request carries the form content type twice: once from the defaults and once from the caller's header. |
| `Multipart.AcceptAfterDefault` | multipart.go:66-69 | With canonical caller keys, the caller's `Accept` values follow the JSON default. |
| `Multipart.ConcatContains` | request.go:93-100 | Each entry of a concatenation occurs in it at the offset of the entries before it. |
| `Multipart.MapNamesEveryPart` | multipart.go:28-43 | For every attached file, the `map` field contains the entry keyed by that file's part name and listing its field. |
| `Multipart.OneFileExample` | multipart_test.go:265-268 | One attached file arrives as part `"1"` under its own file name. |
| `Errors.ShouldRetry` | error.go:54-62 | A retry is asked for iff some error has one of the four retryable names. Only non-retryable errors, or none, mean no retry. |
| `Errors.ShouldRetryOrderFree` | error.go:54-62 | The answer does not depend on the order of the errors. |
| `Errors.ShouldRetryAppend` | error.go:54-62 | For a concatenated list, retry iff either part asks for it. |
| `Errors.AggrErr` | error.go:44-52 | The aggregate text always starts with `graphql: `, and is exactly that for no errors. |
| `Errors.AggrErrAppend` | error.go:44-52 | One more error appends exactly one entry, numbered by its 0-based position. |
| `Errors.AggrErrIsConcat` | error.go:44-52 | The text is the prefix followed by one entry per error, in order. |
| `Errors.AggrErrMentionsEveryMessage` | error.go:44-52 | Every error's message occurs in the aggregate text. |
| `ContextClient.NewRequest` | client.go:113-118 | A new request holds the query, no variable map and no files. |
| `ContextClient.Var` | client.go:134-139 | Same as graphql.go's `Var`: the key is set, other variables are kept, and the map is created on first use. |
| `ContextClient.AttachFile` | client.go:142-147 | One attachment is appended after the earlier ones. |
| `ContextClient.FilePartNamesDistinct` | client.go:40-53 | Attachments are sent under `file`, `file-2`, `file-3` and so on, and no two share a name. |
| `ContextClient.FormParts` | client.go:28-53 | The form is `query`, the optional `variables` and then the numbered file parts. It fails on the first refused variable map or failing reader. |
| `ContextClient.Resolve` | client.go:79-89 | Any undecodable body is a `decoding response` error whatever the status. There is no error exactly when the body decodes and lists no errors, or is `null`, which leaves the response struct as it was. Otherwise the first decoded error is reported. |
| `ContextClient.ResolveDifferences` | client.go:79-89 | The two clients report differently in exactly two cases. One is an undecodable body with a status other than 200. The other is a `null` body, on which the graphql.go client panics and this one returns nil. |
| `ContextClient.Do` | client.go:22-90 | A done context stops `Do` first. Otherwise a form is always posted, with the form content type and `Accept: application/json` and no other header. The reply is resolved by this client's rule. |
| `ContextClient.TwoFilesExample` | client.go:40-53 | Two attachments travel as `file` and `file-2` after the query. |
| `Subscriptions.InitialState` | graphql.go:376-379 | A new subscription client has no subscriptions, has written nothing, is running, and satisfies the state invariant. |
| `Subscriptions.Connect` | graphql.go:363-400 | A nil header panics with `assignment to entry in nil map`, before any connection exists. Otherwise: the dial URL is the endpoint with its first `http` turned into `ws`. The headers gain `Sec-Websocket-Protocol: graphql-ws`, the canonical name `Set` stores `Sec-WebSocket-Protocol` under, and `Content-Type: application/json`. Every other name is unchanged. The client exists iff the dial succeeds and the first frame is `connection_ack`. A dial error or a read error is returned as it is. A `connection_error` frame returns its compacted payload, or panics without one. Any other frame gives `server-did-not-acknowledge`. The connection is closed after those two frames, and left open after a read error. |
| `Subscriptions.ProtocolKeyCanonical` | graphql.go:365 | `Set` stores `Sec-WebSocket-Protocol` under `Sec-Websocket-Protocol`, which differs from the name as written. |
| `Subscriptions.DialUrlScheme` | graphql.go:368 | An `http…` endpoint is dialled as `ws…` with the rest unchanged. |
| `Subscriptions.Subscribe` | graphql.go:471-503 | An unencodable request returns an `encode body` error and changes nothing. Otherwise the next id, in decimal, is registered to a fresh open channel and the counter advances. A `start` frame with the id and the query document is written, unless the write fails, in which case its error is returned. |
| `Subscriptions.SubscribeKeepsInv` | graphql.go:485-496 | Subscribing keeps the state invariant, and the new id was never registered before. |
| `Subscriptions.IdsNeverRepeat` | graphql.go:485-486 | Two subscriptions in a row register two different ids. |
| `Subscriptions.CloseRegisteredFlags` | graphql.go:429-432 | Closing the registered channels closes exactly those. Deliveries are left as they were. |
| `Subscriptions.CloseRegisteredLog` | graphql.go:429-432 | The channels are closed in the order their ids are visited. |
| `Subscriptions.HandlesDistinct` | graphql.go:429-432 | Different registered ids lead to different channels. |
| `Subscriptions.TeardownClosesAll` | graphql.go:429-432 | After the deferred teardown every channel ever handed out is closed, and nothing delivered is lost. |
| `Subscriptions.TeardownHandlesFresh` | graphql.go:429-432 | None of the channels the teardown closes was closed before. |
| `Subscriptions.TeardownClosesOnce` | graphql.go:429-432 | The teardown closes no channel twice, which in Go would panic. |
| `Subscriptions.TeardownKeepsInv` | graphql.go:426-432 | Stopping the worker keeps the state invariant. |
| `Subscriptions.CompleteKeepsInv` | graphql.go:460-464 | The channel a registered id leads to is open. Closing it and removing the id keeps the invariant. |
| `Subscriptions.DeliverKeepsInv` | graphql.go:452-459 | Delivering a payload to a channel keeps the invariant. |
| `Subscriptions.Dispatch` | graphql.go:451-465 | Handling a data, error or complete frame never writes a frame, never hands out an id, loses no channel and never adds an id to the registry. |
| `Subscriptions.Step` | graphql.go:434-468 | One worker step never writes, never hands out an id, loses no channel and never adds an id to the registry. Once the worker has stopped, nothing changes. |
| `Subscriptions.StepKeepsInv` | graphql.go:434-468 | Every step keeps the invariant: one channel per id handed out, a channel is closed exactly when it is logged, nothing is closed twice, and while running every registered channel is open. |
| `Subscriptions.Work` | graphql.go:434-468 | The worker loop never writes and never hands out an id. |
| `Subscriptions.WorkKeepsInv` | graphql.go:434-468 | Any sequence of reads keeps the invariant. |
| `Subscriptions.EndClosesEverySink` | graphql.go:438-445 | End of stream, or a read error whose text ends in `unexpected EOF` (a connection the peer drops without a close frame), ends the worker and closes every channel. |
| `Subscriptions.OtherErrorExits` | graphql.go:438-448 | A read error ends the worker normally exactly when its text ends in `unexpected EOF`. Any other error exits through `log.Fatalf` with the error's text, and nothing else changes: no channel is closed. |
| `Subscriptions.CloseFrameExits` | graphql.go:436-448 | A close frame from the peer (`websocket: close 1000 (normal)`) exits through `log.Fatalf`. A dropped connection (`websocket: close 1006 (abnormal closure): unexpected EOF`) ends the worker. |
| `Subscriptions.DeliveredInOrder` | graphql.go:452-459 | A data or error frame for a registered id is appended to that channel only, in arrival order. The channel stays open. |
| `Subscriptions.OtherFramesIgnored` | graphql.go:451-467 | Frames of any other type change nothing. |
| `Subscriptions.RegisteredFramesNeverCrash` | graphql.go:452-464 | A frame whose id is registered never makes the worker panic. |
| `Subscriptions.CompleteClosesOwnSink` | graphql.go:460-464 | A `complete` frame for a registered id closes exactly that open channel and removes exactly that id. Its deliveries and every other channel are untouched, the close is logged, and the worker keeps running. |
| `Subscriptions.UnregisteredFrameCrashes` | graphql.go:451-464 | A data, error or complete frame with a nil id panics on the dereference. One whose id is not registered panics on the type assertion. Either way the deferred teardown then closes every channel, keeping what was delivered and leaving the registry as it is. |
| `Subscriptions.Unsubscribe` | graphql.go:505-514 | `Unsubscribe` writes one `stop` frame carrying a registered id of that channel, and nothing when no id maps to it. A failed write is dropped and records nothing. The registry and the channels are unchanged. |
| `Subscriptions.UnsubscribeStopsOwnId` | graphql.go:505-514 | Under the invariant, a successful `stop` frame carries the channel's own decimal id. An unregistered channel changes nothing. |
| `Subscriptions.Close` | graphql.go:402-417 | An unconnected client closes without error. A failed `connection_terminate` write is returned, and nothing more happens. Otherwise the terminate frame is written and the worker reads the frames that follow. If the worker has ended, the close error is returned. If it is still reading, or has died, `Close` has not returned. |
| `Subscriptions.CloseAfterStreamEnds` | graphql.go:402-417 | When the peer ends the stream after `connection_terminate`, `Close` returns the close error and every channel is closed. |
| `Subscriptions.SubscriptionTestExchange` | graphql_subscription_test.go:19-87 | The test's exchange: the first subscription gets id `0`; its data arrives on its channel; `Unsubscribe` writes `stop`; `complete` closes the channel; and `Close` writes `connection_terminate`. |
| `Fields.ToUpper` | field.go:40 | Upper-casing maps each ASCII lower-case letter to its capital and leaves every other character alone. |
| `Fields.GoField` | field.go:35-54 | A Go field name has no `_` or `-`, is shorter than the JSON name by the number of separators, and does not start with a lower-case letter. |
| `Fields.GoFieldBySegments` | field.go:35-54 | The Go name is the JSON name's separator-delimited segments, each capitalised, joined together. |
| `Fields.GoFieldFromSegments` | field.go:35-54 | The loop, from either state of its upper-case flag, equals the segment description. |
| `Fields.GoFieldIdempotent` | field.go:35-54 | Converting a Go name again changes nothing. |
| `Fields.GoFieldExamples` | field.go:35-54 | `user_name` and `user-name` both become `UserName`. |
| `Fields.GoTagNamesKey` | field.go:57-59 | The struct tag names exactly the original JSON key. |
| `Fields.NewField` | field.go:16-21 | A field's name is the Go name of the key, and its tag names the key. A `struct` type is wrapped around the nested body. Any other type is kept. |
| `Fields.FieldLessStrictOrder` | field.go:30-32 | Ordering fields by name is irreflexive and transitive, and total on different names. |
| `Fields.Insert` | field.go:30-32 | Inserting into a name-sorted list keeps it sorted and adds exactly that field. |
| `Fields.SortFields` | generate.go:107 | Sorting yields a name-sorted arrangement of the same fields. |
| `Fields.SortedArrangementUnique` | generate.go:107 | When names determine fields, there is only one sorted arrangement, so an unstable sort's output is fixed. |
| `Generate.SliceKind` | generate.go:120-137 | The element kind is defined iff all elements are strings, all numbers or all objects. It is then that kind's slice type. |
| `Generate.XReflect` | generate.go:69-112 | Only an object has a struct body. Any other root fails with its Go type name followed by `: unexpected type`. |
| `Generate.FieldFor` | generate.go:76-101 | A null member gives no field. Any other member gives a field with the Go name of its key and a tag naming the key. |
| `Generate.FieldForTypes` | generate.go:82-100 | A number member is declared `int`, a string `string` and a boolean `bool`. An object is declared as the struct of its own body, an array as `sliceType` answers, and anything else by its `%T` name. |
| `Generate.SliceType` | generate.go:115-149 | An empty, mixed or unsupported array is `[]interface{}`. Strings give `[]string`, and numbers give `[]int`. Objects give `[]struct {…}` holding the first element's body. |
| `Generate.ObjectFieldsCollects` | generate.go:76-102 | Walking the members collects, in visiting order, the field of every member that is not null. |
| `Generate.MemberFieldsCover` | generate.go:76-102 | Every member that is not null contributes a field whose tag names it. |
| `Generate.MemberFieldsPermutation` | generate.go:76 | Visiting the same keys in another order collects the same fields, as a multiset. |
| `Generate.StructFields` | generate.go:69-112 | An object's body is the rendering of a name-sorted list of fields. Each field comes from a member, and every non-null member has one. |
| `Generate.IterationOrderIrrelevant` | generate.go:76-110 | When the Go names of non-null members are distinct, any map iteration order and any sorted arrangement of the collected fields give the same body. |
| `Common.NatToStringRoundTrip` | request.go:96 | The decimal text `%d` writes for a number reads back as that number. |

## Left out

- The retrying transport, which `runWithJSON` and `runWithPostFields` of the retrying variant hand their request to, is not part of this model. Those two are modelled up to the request they build.
- HTTP transport, websocket I/O and goroutines: replies, frames read and write outcomes are parameters. The worker goroutine is a sequence of steps.
- The context helpers that client.go's `Request.Run` uses (`fromContext`) are not part of this model. Neither is `Request.Run` itself.
- Logging (`logf`, `log.Println`) has no effect on results and is left out.
- The bytes of the multipart encoding, and the random boundary, are left out. Forms are sequences of parts, and the boundary is a parameter.
- generate.go's `read`, which reads input, decodes it and runs `gofmt`, is left out. `xreflect` is modelled on the decoded value.
- `http.NewRequest` URL parse errors, and errors from the multipart writer's `CreateFormField`, `CreateFormFile` and `Close`, are left out. These writes go to a memory buffer.
- Float formatting: a JSON number carries the literal text encoding/json prints.
- `WithHTTPClient` only swaps the transport and is left out.
- `Subscribe` and `Unsubscribe` on a client that was never connected are left out. They dereference a nil connection.
- The richer fields of a server error (time, path and locations) are left out. The model keeps its message and name. `data` is carried as the text `%+v` prints for it, and that rendering is not modelled.
- Graphql.Send: a panic, from building the request or from a `null` reply body, is recorded as the outcome's error text. In Go it unwinds the caller instead of returning.
- Fields.ToUpper: covers ASCII only. `unicode.ToUpper` on other letters is not modelled.
- Generate.XReflect: Go's random map iteration order is fixed to ascending keys. Generate.IterationOrderIrrelevant shows the order does not matter when Go names are distinct. The output order among members whose Go names collide (such as `a_b` and `aB`) is not modelled.
- Subscriptions.Unsubscribe: among several ids mapped to one channel, any may be chosen. Under the state invariant there is exactly one.
- Json.Encode: follows encoding/json before Go 1.22, which writes U+0008 and U+000C as `\u0008` and `\u000c`. Go 1.22 and later write `\b` and `\f`. A number is kept as the literal text encoding/json prints, so its refusal of NaN and ±Inf (`json: unsupported value: NaN`) is not modelled.
- Subscriptions.Close: in Go the worker's sends on the unbuffered subscription channels (graphql.go:455, 459) block until someone receives, so `Close` can hang on a channel nobody reads. The model delivers without blocking. `subWait.Add(1)` runs inside the worker goroutine (graphql.go:427), so `Wait` (graphql.go:411) can return before the worker has started. The model assumes the worker has started before `Close` waits.
- Subscriptions.Step: a delivery never blocks in the model. In Go an unbuffered send (graphql.go:455, 459) waits for a receiver.

=== FILE: common.dfy ===
/**
 * Shared vocabulary of the model: the outcome of a Go call, bytes, Go's
 * ordering of strings, decimal rendering of integers and a few string
 * searches that several source files rely on.
 */
module Common {

  /** The outcome of a Go call: a value, an error value it returned, or a
      run-time panic (nil dereference, failed type assertion, ...). */
  datatype Result<T> = Ok(value: T) | Err(error: string) | Panic(reason: string)

  datatype Option<T> = None | Some(value: T)

  /** The run-time error of dereferencing a nil pointer. */
  const NilDereference := "invalid memory address or nil pointer dereference"

  type byte = x: int | 0 <= x < 256

  /* ---------------------------------------------------------------------- */
  /* Go's `<` on strings                                                     */
  /* ---------------------------------------------------------------------- */

  /** Go compares strings byte by byte; on UTF-8 text that is the same as
      comparing code points one by one, with a proper prefix ordered first. */
  predicate Less(a: string, b: string)
  {
    if |a| == 0 then |b| > 0
    else if |b| == 0 then false
    else if a[0] != b[0] then a[0] < b[0]
    else Less(a[1..], b[1..])
  }

  lemma {:induction false} LessIrreflexive(a: string)
    ensures !Less(a, a)
  {
    if |a| > 0 {
      LessIrreflexive(a[1..]);
    }
  }

  lemma {:induction false} LessAsymmetric(a: string, b: string)
    ensures !(Less(a, b) && Less(b, a))
  {
    if |a| > 0 && |b| > 0 && a[0] == b[0] {
      LessAsymmetric(a[1..], b[1..]);
    }
  }

  lemma {:induction false} LessTransitive(a: string, b: string, c: string)
    requires Less(a, b) && Less(b, c)
    ensures Less(a, c)
  {
    if |a| > 0 && |b| > 0 && |c| > 0 && a[0] == b[0] && b[0] == c[0] {
      LessTransitive(a[1..], b[1..], c[1..]);
    }
  }

  /** Any two distinct strings are ordered one way or the other. */
  lemma {:induction false} LessTotal(a: string, b: string)
    ensures a == b || Less(a, b) || Less(b, a)
  {
    if |a| > 0 && |b| > 0 && a[0] == b[0] {
      LessTotal(a[1..], b[1..]);
      assert a == [a[0]] + a[1..];
      assert b == [b[0]] + b[1..];
    }
  }

  /** `k` is the least element of `s` in Go's string order. */
  predicate IsLeast(k: string, s: set<string>)
  {
    k in s && forall k' | k' in s :: k == k' || Less(k, k')
  }

  lemma {:induction false} LeastExists(s: set<string>)
    requires s != {}
    ensures exists k :: IsLeast(k, s)
    decreases |s|
  {
    var x :| x in s;
    if s == {x} {
      assert IsLeast(x, s);
    } else {
      LeastExists(s - {x});
      var m :| IsLeast(m, s - {x});
      LessTotal(x, m);
      if Less(x, m) {
        forall k' | k' in s
          ensures x == k' || Less(x, k')
        {
          if k' != x && k' != m {
            LessTransitive(x, m, k');
          }
        }
        assert IsLeast(x, s);
      } else {
        assert IsLeast(m, s);
      }
    }
  }

  lemma LeastUnique(s: set<string>)
    ensures forall a, b :: IsLeast(a, s) && IsLeast(b, s) ==> a == b
  {
    forall a, b | IsLeast(a, s) && IsLeast(b, s)
      ensures a == b
    {
      LessAsymmetric(a, b);
    }
  }

  /** The keys of a Go map in the order encoding/json writes them: ascending. */
  function SortedKeys(s: set<string>): (r: seq<string>)
    ensures forall i, j :: 0 <= i < j < |r| ==> Less(r[i], r[j])
    ensures forall k :: k in r <==> k in s
    ensures |r| == |s|
    decreases |s|
  {
    if s == {} then []
    else
      LeastExists(s);
      LeastUnique(s);
      var k :| IsLeast(k, s);
      var rest := SortedKeys(s - {k});
      assert forall j :: 0 <= j < |rest| ==> Less(k, rest[j]) by {
        forall j | 0 <= j < |rest|
          ensures Less(k, rest[j])
        {
          assert rest[j] in s - {k};
        }
      }
      [k] + rest
  }

  /** An order a `range` over a Go map with the key set `s` may visit the
      keys in: each key exactly once. */
  predicate IterationOrder<K>(keys: seq<K>, s: set<K>)
  {
    (forall i :: 0 <= i < |keys| ==> keys[i] in s)
    && (forall k :: k in s ==> k in keys)
    && forall i, j :: 0 <= i < j < |keys| ==> keys[i] != keys[j]
  }

  lemma AppendAssoc<T>(a: seq<T>, b: seq<T>, c: seq<T>)
    ensures (a + b) + c == a + (b + c)
  {
  }

  /* ---------------------------------------------------------------------- */
  /* Decimal rendering: strconv.Itoa, fmt's %d and %v on integers            */
  /* ---------------------------------------------------------------------- */

  predicate IsDigit(c: char)
  {
    '0' <= c <= '9'
  }

  predicate AllDigits(s: string)
  {
    forall i :: 0 <= i < |s| ==> IsDigit(s[i])
  }

  function DigitChar(d: nat): (c: char)
    requires d < 10
    ensures IsDigit(c) && (c as int) - ('0' as int) == d
  {
    "0123456789"[d]
  }

  /** Decimal text of a natural number, without leading zeros. */
  function NatToString(n: nat): (r: string)
    ensures |r| > 0 && AllDigits(r)
    ensures r[0] == '0' ==> n == 0
    ensures n == 0 ==> r == "0"
  {
    if n < 10 then [DigitChar(n)] else NatToString(n / 10) + [DigitChar(n % 10)]
  }

  /** The value a string of decimal digits denotes (the reading side of NatToString). */
  function DigitsValue(s: string): nat
    requires AllDigits(s)
  {
    if s == [] then 0
    else DigitsValue(s[..|s| - 1]) * 10 + ((s[|s| - 1] as int) - ('0' as int))
  }

  lemma {:induction false} NatToStringRoundTrip(n: nat)
    ensures DigitsValue(NatToString(n)) == n
  {
    if n >= 10 {
      var r := NatToString(n);
      NatToStringRoundTrip(n / 10);
      assert r[..|r| - 1] == NatToString(n / 10);
    }
  }

  /** Different numbers are rendered differently. */
  lemma NatToStringInjective(m: nat, n: nat)
    requires NatToString(m) == NatToString(n)
    ensures m == n
  {
    NatToStringRoundTrip(m);
    NatToStringRoundTrip(n);
  }

  /** Go's decimal rendering of an int, with a leading '-' when negative. */
  function IntToString(i: int): (r: string)
    ensures i >= 0 ==> r == NatToString(i)
    ensures i < 0 ==> r == "-" + NatToString(-i)
  {
    if i < 0 then "-" + NatToString(-i) else NatToString(i)
  }

  /* ---------------------------------------------------------------------- */
  /* String searches                                                         */
  /* ---------------------------------------------------------------------- */

  predicate OccursAt(s: string, t: string, i: int)
  {
    0 <= i && i + |t| <= |s| && s[i..i + |t|] == t
  }

  predicate Contains(s: string, t: string)
  {
    exists i | 0 <= i <= |s| :: OccursAt(s, t, i)
  }

  predicate HasSuffix(s: string, suffix: string)
  {
    |suffix| <= |s| && s[|s| - |suffix|..] == suffix
  }

  /** strings.Index: the first position where `t` occurs in `s`. */
  function IndexOf(s: string, t: string): (r: Option<nat>)
    ensures r.Some? ==> OccursAt(s, t, r.value) && forall j :: 0 <= j < r.value ==> !OccursAt(s, t, j)
    ensures r.None? ==> !Contains(s, t)
    decreases |s|
  {
    if |t| <= |s| && s[..|t|] == t then Some(0)
    else if |s| <= |t| then
      assert forall j :: !OccursAt(s, t, j) by {
        if |s| == |t| {
          assert s[..|t|] == s;
        }
      }
      None
    else
      match IndexOf(s[1..], t)
      case None =>
        assert forall j :: !OccursAt(s, t, j) by {
          forall j | OccursAt(s, t, j)
            ensures false
          {
            OccursShift(s, t, j);
          }
        }
        None
      case Some(k) =>
        OccursShift(s, t, k + 1);
        assert forall j :: 0 <= j < k + 1 ==> !OccursAt(s, t, j) by {
          forall j | 0 < j < k + 1
            ensures !OccursAt(s, t, j)
          {
            OccursShift(s, t, j);
          }
        }
        Some(k + 1)
  }

  /** An occurrence after the first character is an occurrence in the
      rest of the string, one position earlier. */
  lemma OccursShift(s: string, t: string, j: int)
    requires 1 <= j && 1 <= |s|
    ensures OccursAt(s, t, j) <==> OccursAt(s[1..], t, j - 1)
  {
    if j + |t| <= |s| {
      assert s[1..][j - 1..j - 1 + |t|] == s[j..j + |t|];
    }
  }

  /** strings.Replace(s, old, new, 1): only the first occurrence of `old` is replaced. */
  function ReplaceFirst(s: string, target: string, replacement: string): (r: string)
  {
    match IndexOf(s, target)
    case None => s
    case Some(i) => s[..i] + replacement + s[i + |target|..]
  }

  /** errors.Wrap(cause, msg) from github.com/pkg/errors, rendered as text. */
  function Wrap(msg: string, cause: string): string
  {
    msg + ": " + cause
  }

  /** Concatenation of a list of strings. */
  function Concat(ss: seq<string>): (r: string)
    ensures |ss| == 0 ==> r == ""
  {
    if ss == [] then "" else ss[0] + Concat(ss[1..])
  }

  lemma {:induction false} ConcatAppend(ss: seq<string>, s: string)
    ensures Concat(ss + [s]) == Concat(ss) + s
  {
    if ss != [] {
      ConcatAppend(ss[1..], s);
      assert (ss + [s])[1..] == ss[1..] + [s];
    }
  }

  /** A text made of an opening, a body, one separator character and a
      tail gives each piece back. */
  lemma SplitAtSeparator(open: string, body: string, sep: char, tail: string)
    ensures var t := open + body + [sep] + tail;
            var rest := body + [sep] + tail;
            && open <= t && t[|open|..] == rest
            && rest[..|body|] == body && rest[|body|] == sep && rest[|body| + 1..] == tail
  {
    var t := open + body + [sep] + tail;
    assert t == open + (body + [sep] + tail);
  }
}

=== FILE: contextclient.dfy ===
/**
 * client.go: the older client variant, whose requests carry their own
 * attachments without field names, which always posts a multipart form,
 * takes its http.Client from the context, and has no status-code rule
 * when the answer does not decode.
 */
module ContextClient {
  import opened Common
  import opened Json
  import opened Http
  import opened Wire
  import Graphql

  /** An attachment: only a file name and a reader. */
  datatype Attachment = Attachment(name: string, reader: Stream)

  /** A request: no header map of its own. `vars` is None while the Go map
      is still nil. */
  datatype Request = Request(q: string, vars: Option<map<string, Value>>, files: seq<Attachment>)

  function Vars(req: Request): map<string, Value>
  {
    Graphql.VarMap(req.vars)
  }

  /** NewRequest: the query, no variable map and no attachments. */
  function NewRequest(q: string): (r: Request)
    ensures r.q == q && r.vars.None? && r.files == []
  {
    Request(q, None, [])
  }

  /** Request.Var: the map is created on first use; the key is set or
      overwritten and every other variable is kept. */
  function Var(req: Request, key: string, value: Value): (r: Request)
    ensures r.vars.Some? && key in Vars(r) && Vars(r)[key] == value
    ensures Vars(r).Keys == Vars(req).Keys + {key}
    ensures forall k :: k in Vars(req) && k != key ==> Vars(r)[k] == Vars(req)[k]
    ensures r.q == req.q && r.files == req.files
  {
    req.(vars := Some(Vars(req)[key := value]))
  }

  /** Request.File: one attachment appended after the earlier ones. */
  function AttachFile(req: Request, name: string, reader: Stream): (r: Request)
    ensures |r.files| == |req.files| + 1 && r.files[..|req.files|] == req.files
    ensures r.files[|req.files|] == Attachment(name, reader)
    ensures r.q == req.q && r.vars == req.vars
  {
    req.(files := req.files + [Attachment(name, reader)])
  }

  /** The form field the attachment at 0-based position `i` is sent under:
      "file" for the first, "file-2", "file-3", ... after it. */
  function FilePartName(i: nat): string
  {
    if i == 0 then "file" else "file-" + NatToString(i + 1)
  }

  /** No two attachments share a field name. */
  lemma FilePartNamesDistinct(i: nat, j: nat)
    requires i != j
    ensures FilePartName(i) != FilePartName(j)
  {
    if i > 0 && j > 0 && FilePartName(i) == FilePartName(j) {
      assert FilePartName(i)[5..] == NatToString(i + 1);
      assert FilePartName(j)[5..] == NatToString(j + 1);
      NatToStringInjective(i + 1, j + 1);
    }
  }

  function FilePartNames(n: nat): (r: seq<string>)
    ensures |r| == n && forall i :: 0 <= i < n ==> r[i] == FilePartName(i)
  {
    seq(n, i requires 0 <= i < n => FilePartName(i))
  }

  function AttachmentNames(files: seq<Attachment>): (r: seq<string>)
    ensures |r| == |files| && forall i :: 0 <= i < |files| ==> r[i] == files[i].name
  {
    seq(|files|, i requires 0 <= i < |files| => files[i].name)
  }

  function AttachmentReaders(files: seq<Attachment>): (r: seq<Stream>)
    ensures |r| == |files| && forall i :: 0 <= i < |files| ==> r[i] == files[i].reader
  {
    seq(|files|, i requires 0 <= i < |files| => files[i].reader)
  }

  /** The form Do writes, in order: `query`, then `variables` only when
      some variable is set, then the attachments as "file", "file-2", ...
      The first failure stops the body. */
  function FormParts(req: Request): (r: Result<seq<Part>>)
    ensures r.Ok? <==> Graphql.VariablesPart(req.vars).Ok? && forall i :: 0 <= i < |req.files| ==> req.files[i].reader.failure.None?
    ensures !r.Panic?
    ensures Graphql.VariablesPart(req.vars).Err? ==> r == Err(Graphql.VariablesPart(req.vars).error)
    ensures r.Err? && Graphql.VariablesPart(req.vars).Ok? ==>
              exists i | 0 <= i < |req.files| :: req.files[i].reader.failure.Some?
                && r.error == Wrap("preparing file", req.files[i].reader.failure.value)
                && forall j :: 0 <= j < i ==> req.files[j].reader.failure.None?
    ensures r.Ok? ==>
              var n := 1 + |Graphql.VariablesPart(req.vars).value|;
              |r.value| == n + |req.files|
              && forall i :: 0 <= i < |req.files| ==>
                   r.value[n + i] == FormFile(FilePartName(i), req.files[i].name, req.files[i].reader.data)
    ensures r.Ok? ==> r.value[..1 + |Graphql.VariablesPart(req.vars).value|] == [FormField("query", req.q)] + Graphql.VariablesPart(req.vars).value
  {
    var variables := Graphql.VariablesPart(req.vars);
    if !variables.Ok? then Err(variables.error)
    else
      FieldsThenFiles([FormField("query", req.q)] + variables.value, FilePartNames(|req.files|), AttachmentNames(req.files), AttachmentReaders(req.files))
  }

  /** The error Do returns for what the transport and the server produced:
      any body that does not decode is a decoding error, whatever the
      status; a decoded errors list reports its first entry only. The
      response is a struct value, so a `null` body leaves it as it was and
      is no error. */
  function Resolve(reply: Reply): (r: Option<string>)
    ensures r.None? <==> reply.Answered? && (reply.envelope == Decoded([]) || reply.envelope.NullBody?)
    ensures reply.TransportFailure? ==> r == Some(reply.reason)
    ensures reply.BodyUnreadable? ==> r == Some(Wrap("reading body", reply.reason))
    ensures reply.Answered? && reply.envelope.Undecodable? ==> r == Some(Wrap("decoding response", reply.envelope.reason))
    ensures reply.Answered? && reply.envelope.Decoded? && reply.envelope.errors != [] ==>
              r == Some("graphql: " + reply.envelope.errors[0])
  {
    match reply
    case TransportFailure(e) => Some(e)
    case BodyUnreadable(e) => Some(Wrap("reading body", e))
    case Answered(_, Undecodable(reason)) => Some(Wrap("decoding response", reason))
    case Answered(_, NullBody) => None
    case Answered(_, Decoded(errors)) => if errors == [] then None else Some("graphql: " + errors[0])
  }

  /** The two clients resolve every answer alike except two: an
      undecodable body with a status other than 200, which graphql.go
      reports by its status and this client by the decoder's reason; and a
      `null` body, on which graphql.go panics and this client returns nil. */
  lemma ResolveDifferences(reply: Reply)
    ensures Resolve(reply) != Graphql.Resolve(reply)
            <==> reply.Answered? && ((reply.envelope.Undecodable? && reply.status != 200) || reply.envelope.NullBody?)
  {
    match reply
    case TransportFailure(_) =>
    case BodyUnreadable(_) =>
    case Answered(status, Undecodable(reason)) =>
      if status != 200 {
        var a := Resolve(reply).value;
        var b := Graphql.Resolve(reply).value;
        assert a[0] == 'd' by {
          assert a == "decoding response" + ": " + reason;
        }
        assert b[0] == 'g' by {
          assert b == Graphql.GraphqlPrefix + "server returned a non-200 status code: " + IntToString(status);
        }
      }
    case Answered(_, NullBody) =>
    case Answered(_, Decoded(errors)) =>
  }

  /** Do: a context that is already done stops everything; otherwise the
      form is posted to the endpoint with the form content type and
      `Accept: application/json`, and the answer resolved. `boundary` is
      the multipart writer's random boundary and `reply` what the
      transport and the server produce if a request is sent. */
  function Do(ctx: Context, endpoint: string, req: Request, boundary: string, reply: Reply): (o: Graphql.Outcome)
    ensures ctx.Done() ==> o == Graphql.Outcome(None, Some(ctx.Err()))
    ensures !ctx.Done() && FormParts(req).Err? ==> o == Graphql.Outcome(None, Some(FormParts(req).error))
    ensures o.sent.Some? <==> !ctx.Done() && FormParts(req).Ok?
    ensures o.sent.Some? ==> o.err == Resolve(reply)
    ensures o.sent.Some? ==>
              var out := o.sent.value;
              out.methodName == "POST" && out.url == endpoint && !out.close
              && out.body == Form(FormParts(req).value)
              && Values(out.header, "Content-Type") == [FormDataContentType(boundary)]
              && Values(out.header, "Accept") == ["application/json"]
              && out.header.Keys == {"Content-Type", "Accept"}
  {
    ContentTypeCanonical();
    AcceptCanonical();
    if ctx.Done() then Graphql.Outcome(None, Some(ctx.Err()))
    else
      match FormParts(req)
      case Ok(parts) =>
        var header := Set(Set(map[], "Content-Type", FormDataContentType(boundary)), "Accept", "application/json");
        Graphql.Outcome(Some(Outgoing("POST", endpoint, header, Form(parts), false)), Resolve(reply))
      case Err(e) => Graphql.Outcome(None, Some(e))
      case Panic(p) => Graphql.Outcome(None, Some(p))
  }

  /** Two attachments travel as "file" and "file-2". */
  lemma TwoFilesExample(ctx: Context, endpoint: string, q: string, boundary: string, a: string, b: string,
                        da: seq<byte>, db: seq<byte>, reply: Reply)
    requires !ctx.Done()
    ensures Do(ctx, endpoint, AttachFile(AttachFile(NewRequest(q), a, Stream(da, None)), b, Stream(db, None)), boundary, reply).sent
            == Some(Outgoing("POST", endpoint,
                             map["Content-Type" := [FormDataContentType(boundary)], "Accept" := ["application/json"]],
                             Form([FormField("query", q), FormFile("file", a, da), FormFile("file-2", b, db)]), false))
  {
    var req := AttachFile(AttachFile(NewRequest(q), a, Stream(da, None)), b, Stream(db, None));
    assert FilePartName(1) == "file-2" by {
      assert NatToString(2) == "2";
    }
    var parts := FormParts(req).value;
    assert parts == [FormField("query", q), FormFile("file", a, da), FormFile("file-2", b, db)];
    FormHeaderLiteral(Do(ctx, endpoint, req, boundary, reply).sent.value.header, boundary);
  }

  lemma FormHeaderLiteral(h: Header, boundary: string)
    requires Values(h, "Content-Type") == [FormDataContentType(boundary)]
    requires Values(h, "Accept") == ["application/json"]
    requires h.Keys == {"Content-Type", "Accept"}
    ensures h == map["Content-Type" := [FormDataContentType(boundary)], "Accept" := ["application/json"]]
  {
    MapExtensional(h, map["Content-Type" := [FormDataContentType(boundary)], "Accept" := ["application/json"]]);
  }
}

=== FILE: errors.dfy ===
/**
 * error.go: the richer server error of the retrying client variant, the
 * names a server gives its errors, which of them are worth retrying, and
 * the single error that aggregates a whole list.
 */
module Errors {
  import opened Common

  const NotFound := "not_found"
  const NotAllowed := "not_allowed"
  const InvalidInput := "invalid_input"
  const CapacityExceeded := "capacity_exceeded"
  const Authentication := "authentication_error"
  const NotImplemented := "not_implemented"
  const ServiceUnavailable := "service_unavailable"
  const ServiceFailure := "service_failure"
  const Internal := "internal_error"

  /** A server error: its message, its name and its `data` member as fmt's
      `%+v` renders it. Time, path and locations play no part here. */
  datatype GraphErr = GraphErr(message: string, name: string, data: string)

  /** The names that signal a passing condition on the server's side. */
  predicate Retryable(name: string)
  {
    name == CapacityExceeded || name == ServiceUnavailable || name == ServiceFailure || name == Internal
  }

  /** The declared names that describe a fault of the request itself. */
  predicate Permanent(name: string)
  {
    name == NotFound || name == NotAllowed || name == InvalidInput || name == Authentication || name == NotImplemented
  }

  /** shouldRetry: whether some error in the list carries a retryable name.
      An empty list, or one holding only the declared non-retryable names,
      is never retried. */
  function ShouldRetry(errs: seq<GraphErr>): (r: bool)
    ensures r <==> exists i :: 0 <= i < |errs| && Retryable(errs[i].name)
    ensures errs == [] ==> !r
    ensures (forall i :: 0 <= i < |errs| ==> Permanent(errs[i].name)) ==> !r
    decreases |errs|
  {
    if errs == [] then false
    else if Retryable(errs[0].name) then true
    else
      assert forall i :: 1 <= i < |errs| ==> errs[i] == errs[1..][i - 1];
      ShouldRetry(errs[1..])
  }

  /** The order of the list does not matter. */
  lemma ShouldRetryOrderFree(xs: seq<GraphErr>, ys: seq<GraphErr>)
    requires multiset(xs) == multiset(ys)
    ensures ShouldRetry(xs) == ShouldRetry(ys)
  {
    if ShouldRetry(xs) {
      var i :| 0 <= i < |xs| && Retryable(xs[i].name);
      assert xs[i] in multiset(ys);
      var j :| 0 <= j < |ys| && ys[j] == xs[i];
    }
    if ShouldRetry(ys) {
      var j :| 0 <= j < |ys| && Retryable(ys[j].name);
      assert ys[j] in multiset(xs);
      var i :| 0 <= i < |xs| && xs[i] == ys[j];
    }
  }

  /** Joining two lists retries when either list would; in particular more
      errors can turn a "no" into a "yes" but never the other way. */
  lemma ShouldRetryAppend(xs: seq<GraphErr>, ys: seq<GraphErr>)
    ensures ShouldRetry(xs + ys) == (ShouldRetry(xs) || ShouldRetry(ys))
  {
    var zs := xs + ys;
    if ShouldRetry(xs) {
      var i :| 0 <= i < |xs| && Retryable(xs[i].name);
      assert zs[i] == xs[i];
    }
    if ShouldRetry(ys) {
      var i :| 0 <= i < |ys| && Retryable(ys[i].name);
      assert zs[|xs| + i] == ys[i];
    }
    if ShouldRetry(zs) {
      var i :| 0 <= i < |zs| && Retryable(zs[i].name);
      if i >= |xs| {
        assert ys[i - |xs|] == zs[i];
      }
    }
  }

  const AggrPrefix := "graphql: "

  /** The text getAggrErr writes for the error at 0-based position `idx`. */
  function AggrEntry(idx: nat, e: GraphErr): string
  {
    "error " + NatToString(idx) + ": message (" + e.message + "), data (" + e.data + "). "
  }

  /** getAggrErr: the prefix followed by one entry per error, in order. */
  function AggrErr(errs: seq<GraphErr>): (r: string)
    ensures AggrPrefix <= r
    ensures errs == [] ==> r == AggrPrefix
    decreases |errs|
  {
    if errs == [] then AggrPrefix
    else
      var n := |errs| - 1;
      AggrErr(errs[..n]) + AggrEntry(n, errs[n])
  }

  /** One more error adds its entry, numbered by its position, after the
      text of the earlier ones. */
  lemma AggrErrAppend(errs: seq<GraphErr>, e: GraphErr)
    ensures AggrErr(errs + [e]) == AggrErr(errs) + AggrEntry(|errs|, e)
  {
    var es := errs + [e];
    assert es[..|errs|] == errs;
    assert es[|errs|] == e;
  }

  function AggrEntries(errs: seq<GraphErr>): (r: seq<string>)
    ensures |r| == |errs| && forall i :: 0 <= i < |errs| ==> r[i] == AggrEntry(i, errs[i])
  {
    seq(|errs|, i requires 0 <= i < |errs| => AggrEntry(i, errs[i]))
  }

  /** The aggregated text is the prefix and the entries of all errors, the
      entry of each depending only on its position and the error. */
  lemma {:induction false} AggrErrIsConcat(errs: seq<GraphErr>)
    ensures AggrErr(errs) == AggrPrefix + Concat(AggrEntries(errs))
    decreases |errs|
  {
    if errs != [] {
      var n := |errs| - 1;
      AggrErrIsConcat(errs[..n]);
      assert AggrEntries(errs) == AggrEntries(errs[..n]) + [AggrEntry(n, errs[n])];
      ConcatAppend(AggrEntries(errs[..n]), AggrEntry(n, errs[n]));
    }
  }

  lemma ContainsInPrefix(s: string, t: string, x: string)
    requires Contains(s, x)
    ensures Contains(s + t, x)
  {
    var i :| 0 <= i <= |s| && OccursAt(s, x, i);
    assert (s + t)[i..i + |x|] == s[i..i + |x|];
    assert OccursAt(s + t, x, i);
  }

  /** Every error's message appears in the aggregated text. */
  lemma {:induction false} AggrErrMentionsEveryMessage(errs: seq<GraphErr>)
    ensures forall i :: 0 <= i < |errs| ==> Contains(AggrErr(errs), errs[i].message)
    decreases |errs|
  {
    if errs != [] {
      var n := |errs| - 1;
      var before := AggrErr(errs[..n]);
      var entry := AggrEntry(n, errs[n]);
      AggrErrMentionsEveryMessage(errs[..n]);
      forall i | 0 <= i < |errs|
        ensures Contains(before + entry, errs[i].message)
      {
        if i < n {
          assert errs[..n][i] == errs[i];
          ContainsInPrefix(before, entry, errs[i].message);
        } else {
          var m := errs[n].message;
          var head := before + "error " + NatToString(n) + ": message (";
          assert before + entry == head + m + "), data (" + errs[n].data + "). ";
          assert (before + entry)[|head|..|head| + |m|] == m;
          assert OccursAt(before + entry, m, |head|);
        }
      }
    }
  }
}

=== FILE: fields.dfy ===
/**
 * field.go: the struct fields the JSON-to-Go generator writes, with a
 * camel-cased Go name, a Go type and a `json:"..."` tag naming the key,
 * and their ordering by Go name.
 */
module Fields {
  import opened Common

  /** A generated struct field: Go name, Go type and struct tag. */
  datatype Field = Field(name: string, gtype: string, tag: string)

  predicate IsSeparator(c: char)
  {
    c == '_' || c == '-'
  }

  predicate IsLower(c: char)
  {
    'a' <= c <= 'z'
  }

  /** unicode.ToUpper on ASCII letters; every other character is kept. */
  function ToUpper(c: char): (r: char)
    ensures IsLower(c) ==> r as int == c as int - 32
    ensures !IsLower(c) ==> r == c
    ensures !IsLower(r)
  {
    if IsLower(c) then (c as int - 32) as char else c
  }

  function SeparatorCount(s: string): nat
  {
    if s == [] then 0 else (if IsSeparator(s[0]) then 1 else 0) + SeparatorCount(s[1..])
  }

  /* ---------------------------------------------------------------------- */
  /* goField                                                                 */
  /* ---------------------------------------------------------------------- */

  /** The loop of goField over the rest of the key, `upper` saying whether
      the next character is to be upper-cased: separators are dropped and
      ask for the next character to be upper-cased; every other character
      is kept, in order. */
  function GoFieldFrom(s: string, upper: bool): (r: string)
    ensures forall i :: 0 <= i < |r| ==> !IsSeparator(r[i])
    ensures |r| == |s| - SeparatorCount(s)
    ensures upper && |r| > 0 ==> !IsLower(r[0])
  {
    if s == [] then []
    else
      var c := if upper then ToUpper(s[0]) else s[0];
      if IsSeparator(c) then GoFieldFrom(s[1..], true)
      else [c] + GoFieldFrom(s[1..], false)
  }

  /** goField: a JSON key as a Go field name. */
  function GoField(jf: string): (r: string)
    ensures forall i :: 0 <= i < |r| ==> !IsSeparator(r[i])
    ensures |r| == |jf| - SeparatorCount(jf)
    ensures |r| > 0 ==> !IsLower(r[0])
  {
    GoFieldFrom(jf, true)
  }

  /** The pieces of a key between its separators, empty ones included. */
  function Segments(s: string): (r: seq<string>)
    ensures |r| >= 1
    ensures forall i, j :: 0 <= i < |r| && 0 <= j < |r[i]| ==> !IsSeparator(r[i][j])
  {
    if s == [] then [[]]
    else
      var rest := Segments(s[1..]);
      if IsSeparator(s[0]) then [[]] + rest
      else
        assert forall i, j :: 0 <= i < |rest| && 0 <= j < |rest[i]| ==> !IsSeparator(rest[i][j]);
        [[s[0]] + rest[0]] + rest[1..]
  }

  function Capitalize(seg: string): string
  {
    if seg == [] then [] else [ToUpper(seg[0])] + seg[1..]
  }

  function CapitalizeAll(segs: seq<string>): string
  {
    if segs == [] then "" else Capitalize(segs[0]) + CapitalizeAll(segs[1..])
  }

  lemma {:induction false} GoFieldFromSegments(s: string)
    ensures GoFieldFrom(s, true) == CapitalizeAll(Segments(s))
    ensures GoFieldFrom(s, false) == Segments(s)[0] + CapitalizeAll(Segments(s)[1..])
  {
    if s != [] {
      GoFieldFromSegments(s[1..]);
      if IsSeparator(s[0]) {
        SeparatorStep(s);
      } else {
        LetterStep(s);
      }
    }
  }

  /** A separator in front starts a new, empty segment. */
  lemma SeparatorStep(s: string)
    requires s != [] && IsSeparator(s[0])
    requires GoFieldFrom(s[1..], true) == CapitalizeAll(Segments(s[1..]))
    ensures GoFieldFrom(s, true) == CapitalizeAll(Segments(s))
    ensures GoFieldFrom(s, false) == Segments(s)[0] + CapitalizeAll(Segments(s)[1..])
  {
    var rest := Segments(s[1..]);
    assert Segments(s) == [[]] + rest;
    assert Segments(s)[1..] == rest;
  }

  /** Any other character in front joins the first segment. */
  lemma LetterStep(s: string)
    requires s != [] && !IsSeparator(s[0])
    requires GoFieldFrom(s[1..], false) == Segments(s[1..])[0] + CapitalizeAll(Segments(s[1..])[1..])
    ensures GoFieldFrom(s, true) == CapitalizeAll(Segments(s))
    ensures GoFieldFrom(s, false) == Segments(s)[0] + CapitalizeAll(Segments(s)[1..])
  {
    var rest := Segments(s[1..]);
    SegmentsLetter(s);
    GoFieldFromLetter(s);
    JoinFront(s[0], rest[0], rest[1..]);
  }

  lemma SegmentsLetter(s: string)
    requires s != [] && !IsSeparator(s[0])
    ensures Segments(s) == [[s[0]] + Segments(s[1..])[0]] + Segments(s[1..])[1..]
  {
  }

  lemma GoFieldFromLetter(s: string)
    requires s != [] && !IsSeparator(s[0])
    ensures GoFieldFrom(s, true) == [ToUpper(s[0])] + GoFieldFrom(s[1..], false)
    ensures GoFieldFrom(s, false) == [s[0]] + GoFieldFrom(s[1..], false)
  {
  }

  /** A character put in front of the first of the segments `first` and
      `more`, seen from both sides of GoFieldFromSegments. */
  lemma JoinFront(c: char, first: string, more: seq<string>)
    ensures CapitalizeAll([[c] + first] + more) == [ToUpper(c)] + (first + CapitalizeAll(more))
    ensures ([[c] + first] + more)[0] + CapitalizeAll(([[c] + first] + more)[1..]) == [c] + (first + CapitalizeAll(more))
  {
    var seg := [c] + first;
    var segs := [seg] + more;
    assert segs[0] == seg && segs[1..] == more;
    assert seg[1..] == first;
  }

  /** goField is the key cut at its separators, each piece with its first
      character upper-cased and the rest as it was, put back together. */
  lemma GoFieldBySegments(jf: string)
    ensures GoField(jf) == CapitalizeAll(Segments(jf))
  {
    GoFieldFromSegments(jf);
  }

  lemma {:induction false} GoFieldFromPlain(s: string)
    requires forall i :: 0 <= i < |s| ==> !IsSeparator(s[i])
    ensures GoFieldFrom(s, false) == s
    ensures s != [] ==> GoFieldFrom(s, true) == [ToUpper(s[0])] + s[1..]
  {
    if s != [] {
      GoFieldFromPlain(s[1..]);
      assert [s[0]] + s[1..] == s;
    }
  }

  /** A name goField produced is left as it is by goField. */
  lemma GoFieldIdempotent(jf: string)
    ensures GoField(GoField(jf)) == GoField(jf)
  {
    var t := GoField(jf);
    GoFieldFromPlain(t);
    if t != [] {
      assert [t[0]] + t[1..] == t;
    }
  }

  lemma {:induction false} GoFieldFromAppend(p: string, t: string)
    requires forall i :: 0 <= i < |p| ==> !IsSeparator(p[i])
    ensures GoFieldFrom(p + t, false) == p + GoFieldFrom(t, false)
  {
    if p != [] {
      assert (p + t)[0] == p[0];
      assert (p + t)[1..] == p[1..] + t;
      GoFieldFromAppend(p[1..], t);
      assert GoFieldFrom(p + t, false) == [p[0]] + GoFieldFrom(p[1..] + t, false);
      assert [p[0]] + (p[1..] + GoFieldFrom(t, false)) == p + GoFieldFrom(t, false);
    } else {
      assert p + t == t;
    }
  }

  lemma CapitalizedAfterSeparator(sep: char, word: string)
    requires IsSeparator(sep) && word != []
    requires forall i :: 0 <= i < |word| ==> !IsSeparator(word[i])
    ensures GoFieldFrom([sep] + word, false) == [ToUpper(word[0])] + word[1..]
  {
    assert ([sep] + word)[1..] == word;
    GoFieldFromPlain(word);
  }

  /** Two separator-free words joined by one separator. */
  lemma TwoWords(c: char, rest: string, sep: char, word: string)
    requires !IsSeparator(c) && IsSeparator(sep) && word != []
    requires forall i :: 0 <= i < |rest| ==> !IsSeparator(rest[i])
    requires forall i :: 0 <= i < |word| ==> !IsSeparator(word[i])
    ensures GoField([c] + (rest + ([sep] + word))) == [ToUpper(c)] + rest + [ToUpper(word[0])] + word[1..]
  {
    CapitalizedAfterSeparator(sep, word);
    GoFieldFromAppend(rest, [sep] + word);
    GoFieldFromLetter([c] + (rest + ([sep] + word)));
    assert ([c] + (rest + ([sep] + word)))[1..] == rest + ([sep] + word);
  }

  /** `user_name` and `user-name` both give `UserName`. */
  lemma GoFieldExamples()
    ensures GoField("user_name") == "UserName"
    ensures GoField("user-name") == "UserName"
  {
    UserNameExample('_');
    UserNameExample('-');
  }

  lemma UserNameExample(sep: char)
    requires IsSeparator(sep)
    ensures GoField(['u', 's', 'e', 'r', sep, 'n', 'a', 'm', 'e']) == "UserName"
  {
    var ser, name := ['s', 'e', 'r'], ['n', 'a', 'm', 'e'];
    TwoWords('u', ser, sep, name);
    assert ['u', 's', 'e', 'r', sep, 'n', 'a', 'm', 'e'] == ['u'] + (ser + ([sep] + name));
    assert ToUpper('n') == 'N' && ToUpper('u') == 'U';
    assert [ToUpper('u')] + ser + [ToUpper(name[0])] + name[1..] == "UserName";
  }

  /* ---------------------------------------------------------------------- */
  /* goTag and NewField                                                      */
  /* ---------------------------------------------------------------------- */

  const TagOpen := "`json:\""
  const TagClose := "\"`"

  /** goTag: the struct tag naming the JSON key as it was given. */
  function GoTag(jf: string): string
  {
    TagOpen + jf + TagClose
  }

  /** The key a tag of goTag's shape names. */
  function TagKey(tag: string): Option<string>
  {
    if |tag| >= |TagOpen| + |TagClose| && tag[..|TagOpen|] == TagOpen && tag[|tag| - |TagClose|..] == TagClose
    then Some(tag[|TagOpen|..|tag| - |TagClose|])
    else None
  }

  /** The tag names the original key, untransformed. */
  lemma GoTagNamesKey(jf: string)
    ensures TagKey(GoTag(jf)) == Some(jf)
  {
    var t := GoTag(jf);
    assert t[..|TagOpen|] == TagOpen;
    assert t[|t| - |TagClose|..] == TagClose;
    assert t[|TagOpen|..|t| - |TagClose|] == jf;
  }

  /** The anonymous struct type with the given body. */
  function StructType(body: string): string
  {
    "struct {" + body + "}"
  }

  /** NewField: the Go name and the tag come from the key; a "struct" type
      encloses the body in braces and any other type ignores the body. */
  function NewField(name: string, gtype: string, body: string): (f: Field)
    ensures f.name == GoField(name)
    ensures TagKey(f.tag) == Some(name)
    ensures gtype == "struct" ==> f.gtype == StructType(body)
    ensures gtype != "struct" ==> f.gtype == gtype
  {
    GoTagNamesKey(name);
    Field(GoField(name), if gtype == "struct" then StructType(body) else gtype, GoTag(name))
  }

  /* ---------------------------------------------------------------------- */
  /* FieldSort                                                               */
  /* ---------------------------------------------------------------------- */

  /** FieldSort.Less: Go's string order on the Go names. */
  predicate FieldLess(a: Field, b: Field)
  {
    Less(a.name, b.name)
  }

  /** FieldSort.Less is a strict order on names: irreflexive and transitive,
      and of two fields with different names one is less. */
  lemma FieldLessStrictOrder(a: Field, b: Field, c: Field)
    ensures !FieldLess(a, a)
    ensures FieldLess(a, b) && FieldLess(b, c) ==> FieldLess(a, c)
    ensures a.name != b.name ==> FieldLess(a, b) || FieldLess(b, a)
  {
    LessIrreflexive(a.name);
    if FieldLess(a, b) && FieldLess(b, c) {
      LessTransitive(a.name, b.name, c.name);
    }
    LessTotal(a.name, b.name);
  }

  /** No field is less than one before it. */
  predicate SortedByName(fs: seq<Field>)
  {
    forall i, j :: 0 <= i < j < |fs| ==> !FieldLess(fs[j], fs[i])
  }

  /** Fields that share a name are the same field. */
  predicate NamesDetermineFields(fs: seq<Field>)
  {
    forall i, j :: 0 <= i < |fs| && 0 <= j < |fs| && fs[i].name == fs[j].name ==> fs[i] == fs[j]
  }

  function Insert(f: Field, fs: seq<Field>): (r: seq<Field>)
    requires SortedByName(fs)
    ensures SortedByName(r)
    ensures multiset(r) == multiset(fs) + multiset{f}
    ensures |r| == |fs| + 1
  {
    if fs == [] || !FieldLess(fs[0], f) then
      assert forall j :: 0 <= j < |fs| ==> !FieldLess(fs[j], f) by {
        forall j | 0 < j < |fs|
          ensures !FieldLess(fs[j], f)
        {
          LessTotal(fs[0].name, fs[j].name);
          if fs[0].name != fs[j].name && FieldLess(fs[j], f) {
            LessTransitive(fs[0].name, fs[j].name, f.name);
          }
        }
      }
      [f] + fs
    else
      var rest := Insert(f, fs[1..]);
      assert fs == [fs[0]] + fs[1..];
      assert forall j :: 0 <= j < |rest| ==> !FieldLess(rest[j], fs[0]) by {
        forall j | 0 <= j < |rest|
          ensures !FieldLess(rest[j], fs[0])
        {
          assert rest[j] in multiset(rest);
          if rest[j] == f {
            LessAsymmetric(fs[0].name, f.name);
          } else {
            assert rest[j] in multiset(fs[1..]);
            var k :| 0 <= k < |fs[1..]| && fs[1..][k] == rest[j];
            assert fs[k + 1] == rest[j];
          }
        }
      }
      [fs[0]] + rest
  }

  /** sort.Sort(FieldSort(fields)): the fields in ascending order of name,
      nothing lost and nothing added. */
  function SortFields(fs: seq<Field>): (r: seq<Field>)
    ensures SortedByName(r)
    ensures multiset(r) == multiset(fs)
    ensures |r| == |fs|
  {
    if fs == [] then []
    else
      assert fs == [fs[0]] + fs[1..];
      Insert(fs[0], SortFields(fs[1..]))
  }

  /** When no two different fields share a name there is only one sorted
      arrangement, so which one an unstable sort picks does not matter. */
  lemma {:induction false} SortedArrangementUnique(a: seq<Field>, b: seq<Field>)
    requires SortedByName(a) && SortedByName(b)
    requires multiset(a) == multiset(b)
    requires NamesDetermineFields(a)
    ensures a == b
  {
    assert |a| == |multiset(a)| == |multiset(b)| == |b|;
    if a != [] {
      assert b[0] == a[0] by {
        HeadsAgree(a, b);
      }
      assert multiset(a) == multiset{a[0]} + multiset(a[1..]) by {
        assert a == [a[0]] + a[1..];
      }
      assert multiset(b) == multiset{a[0]} + multiset(b[1..]) by {
        assert b == [b[0]] + b[1..];
      }
      assert multiset(a[1..]) == multiset(a) - multiset{a[0]};
      assert multiset(b[1..]) == multiset(b) - multiset{a[0]};
      assert SortedByName(a[1..]) && SortedByName(b[1..]) && NamesDetermineFields(a[1..]);
      SortedArrangementUnique(a[1..], b[1..]);
      assert a == [a[0]] + a[1..];
      assert b == [b[0]] + b[1..];
    }
  }

  lemma HeadsAgree(a: seq<Field>, b: seq<Field>)
    requires SortedByName(a) && SortedByName(b)
    requires multiset(a) == multiset(b)
    requires NamesDetermineFields(a)
    requires a != [] && b != []
    ensures b[0] == a[0]
  {
    assert a[0] in multiset(b);
    var j :| 0 <= j < |b| && b[j] == a[0];
    assert b[0] in multiset(a);
    var i :| 0 <= i < |a| && a[i] == b[0];
    assert !Less(b[0].name, a[0].name) by {
      LessIrreflexive(a[0].name);
    }
    assert !Less(a[0].name, b[0].name) by {
      LessIrreflexive(a[0].name);
    }
    LessTotal(a[0].name, b[0].name);
  }
}

=== FILE: generate.dfy ===
/**
 * generate.go: the JSON-to-Go reflector. A decoded JSON object becomes the
 * body of a Go struct, one field per member that is not null, nested
 * objects becoming nested structs and uniform arrays typed slices; the
 * lines are written in the order of the Go field names.
 */
module Generate {
  import opened Common
  import opened Json
  import opened Fields

  /** fmt's `%T` of a value encoding/json decoded into an interface{}. */
  function GoTypeName(v: Value): string
  {
    match v
    case Null => "<nil>"
    case Bool(_) => "bool"
    case Number(_) => "float64"
    case Str(_) => "string"
    case Array(_) => "[]interface {}"
    case Object(_) => "map[string]interface {}"
    case Unsupported(t) => t
  }

  const UnexpectedType := ": unexpected type"

  /** sliceType's answer when the array is empty or not uniform. */
  const DefaultSlice := "[]interface{}"

  /** The slice type one element asks for, None for a kind sliceType gives
      up on. */
  function ElemKind(v: Value): Option<string>
  {
    match v
    case Str(_) => Some("[]string")
    case Number(_) => Some("[]int")
    case Object(_) => Some("[]struct")
    case _ => None
  }

  /** Every element is of the first element's kind, and that kind is one
      sliceType names. */
  predicate Uniform(items: seq<Value>)
  {
    items != [] && ElemKind(items[0]).Some? && forall i :: 0 <= i < |items| ==> ElemKind(items[i]) == ElemKind(items[0])
  }

  /** The loop of sliceType from the current element on, `t` the kind seen
      so far ("" before the first): None when it returns the default early,
      otherwise the kind every element shares. */
  function SliceKind(items: seq<Value>, t: string): (r: Option<string>)
    ensures items == [] ==> r == Some(t)
    ensures items != [] ==>
              (r.Some? <==> Uniform(items) && (t == "" || t == ElemKind(items[0]).value))
    ensures items != [] && r.Some? ==> r.value == ElemKind(items[0]).value
  {
    if items == [] then Some(t)
    else
      var t2 := ElemKind(items[0]);
      if t2.None? then None
      else if t != "" && t != t2.value then None
      else
        var rest := SliceKind(items[1..], t2.value);
        assert forall i :: 1 <= i < |items| ==> items[i] == items[1..][i - 1];
        rest
  }

  /** xreflect: a JSON object as the lines of a Go struct body, in the
      order of the field names; any other root is refused with its Go
      type. Nested objects and arrays never fail. */
  function XReflect(v: Value): (r: Result<string>)
    ensures r.Ok? <==> v.Object?
    ensures !v.Object? ==> r == Err(GoTypeName(v) + UnexpectedType)
    decreases v, 3, 0
  {
    match v
    case Object(m) =>
      (match ObjectFields(v, m, SortedKeys(m.Keys))
       case Ok(fields) => Ok(Render(SortFields(fields)))
       case Err(e) => Err(e)
       case Panic(p) => Panic(p))
    case _ => Err(GoTypeName(v) + UnexpectedType)
  }

  /** The fields for the members named by `keys`, in that order: null
      members are skipped. `parent` is the object the map belongs to. */
  function ObjectFields(parent: Value, m: map<string, Value>, keys: seq<string>): (r: Result<seq<Field>>)
    requires forall k | k in m :: m[k] < parent
    requires forall i :: 0 <= i < |keys| ==> keys[i] in m
    ensures r.Ok?
    decreases parent, 2, |keys|
  {
    if keys == [] then Ok([])
    else
      var k := keys[0];
      match FieldFor(k, m[k])
      case Ok(f) =>
        (match ObjectFields(parent, m, keys[1..])
         case Ok(rest) => Ok(if f.Some? then [f.value] + rest else rest)
         case Err(e) => Err(e)
         case Panic(p) => Panic(p))
      case Err(e) => Err(e)
      case Panic(p) => Panic(p)
  }

  /** The field one member gives: none for null, "int" for a number, a
      nested struct for an object, sliceType's answer for an array and the
      Go type for anything else. */
  function FieldFor(key: string, val: Value): (r: Result<Option<Field>>)
    ensures r.Ok?
    ensures r.value.None? <==> val.Null?
    ensures r.value.Some? ==> r.value.value.name == GoField(key) && TagKey(r.value.value.tag) == Some(key)
    decreases val, 4, 0
  {
    match val
    case Null => Ok(None)
    case Number(_) => Ok(Some(NewField(key, "int", "")))
    case Object(_) =>
      (match XReflect(val)
       case Ok(o) => Ok(Some(NewField(key, "struct", o)))
       case Err(e) => Err(e)
       case Panic(p) => Panic(p))
    case Array(items) =>
      (match SliceType(val, items)
       case Ok(t) => Ok(Some(NewField(key, t, "")))
       case Err(e) => Err(e)
       case Panic(p) => Panic(p))
    case _ => Ok(Some(NewField(key, GoTypeName(val), "")))
  }

  /** The Go type of a member's field: a number is declared "int", a
      string "string", a boolean "bool", an object its nested struct, an
      array what sliceType answers, and anything else its `%T` name. */
  lemma FieldForTypes(key: string, val: Value)
    requires !val.Null?
    ensures val.Number? ==> FieldFor(key, val).value.value.gtype == "int"
    ensures val.Str? ==> FieldFor(key, val).value.value.gtype == "string"
    ensures val.Bool? ==> FieldFor(key, val).value.value.gtype == "bool"
    ensures val.Object? ==> FieldFor(key, val).value.value.gtype == StructType(XReflect(val).value)
    ensures val.Array? ==> FieldFor(key, val).value.value.gtype == SliceType(val, val.items).value
    ensures val.Unsupported? && val.goType != "struct" ==> FieldFor(key, val).value.value.gtype == val.goType
  {
  }

  /** sliceType: the default for an empty or mixed array or one holding
      anything but strings, numbers and objects; otherwise the slice of the
      shared kind, objects becoming a slice of the first object's struct. */
  function SliceType(parent: Value, items: seq<Value>): (r: Result<string>)
    requires forall i :: 0 <= i < |items| ==> items[i] < parent
    ensures r.Ok?
    ensures !Uniform(items) ==> r.value == DefaultSlice
    ensures Uniform(items) && items[0].Str? ==> r.value == "[]string"
    ensures Uniform(items) && items[0].Number? ==> r.value == "[]int"
    ensures Uniform(items) && items[0].Object? ==> r.value == "[]" + StructType(XReflect(items[0]).value)
    decreases parent, 2, 0
  {
    if |items| == 0 then Ok(DefaultSlice)
    else
      var t := SliceKind(items, "");
      if t.None? then Ok(DefaultSlice)
      else if t.value == "[]struct" then
        match XReflect(items[0])
        case Ok(o) => Ok("[]" + NewField("", "struct", o).gtype)
        case Err(e) => Err(e)
        case Panic(p) => Panic(p)
      else Ok(t.value)
  }

  /** One line of the struct body. */
  function Line(f: Field): string
  {
    f.name + " " + f.gtype + " " + f.tag + "\n"
  }

  function Lines(fields: seq<Field>): (r: seq<string>)
    ensures |r| == |fields| && forall i :: 0 <= i < |fields| ==> r[i] == Line(fields[i])
  {
    seq(|fields|, i requires 0 <= i < |fields| => Line(fields[i]))
  }

  function Render(fields: seq<Field>): string
  {
    Concat(Lines(fields))
  }

  /* ---------------------------------------------------------------------- */
  /* What the struct body holds                                              */
  /* ---------------------------------------------------------------------- */

  /** The field is the one FieldFor gives for the member its tag names. */
  predicate FromMember(f: Field, m: map<string, Value>)
  {
    TagKey(f.tag).Some? && TagKey(f.tag).value in m && FieldFor(TagKey(f.tag).value, m[TagKey(f.tag).value]).value == Some(f)
  }

  /** The field a member contributes: none when it is null. */
  function MemberField(m: map<string, Value>, k: string): (r: seq<Field>)
    requires k in m
    ensures |r| <= 1 && (|r| == 1 <==> !m[k].Null?)
    ensures forall i :: 0 <= i < |r| ==> TagKey(r[i].tag) == Some(k) && FromMember(r[i], m)
  {
    if m[k].Null? then [] else [FieldFor(k, m[k]).value.value]
  }

  /** The fields of the members `keys` names, in that order. */
  function MemberFields(m: map<string, Value>, keys: seq<string>): seq<Field>
    requires forall i :: 0 <= i < |keys| ==> keys[i] in m
  {
    if keys == [] then [] else MemberField(m, keys[0]) + MemberFields(m, keys[1..])
  }

  /** ObjectFields collects, in the order of the keys, the field of every
      member that is not null. */
  lemma {:induction false} ObjectFieldsCollects(parent: Value, m: map<string, Value>, keys: seq<string>)
    requires forall k | k in m :: m[k] < parent
    requires forall i :: 0 <= i < |keys| ==> keys[i] in m
    ensures ObjectFields(parent, m, keys).value == MemberFields(m, keys)
  {
    if keys != [] {
      ObjectFieldsCollects(parent, m, keys[1..]);
    }
  }

  /** Every field collected is the field of the member its tag names. */
  lemma {:induction false} MemberFieldsFromMembers(m: map<string, Value>, keys: seq<string>)
    requires forall i :: 0 <= i < |keys| ==> keys[i] in m
    ensures forall i :: 0 <= i < |MemberFields(m, keys)| ==> FromMember(MemberFields(m, keys)[i], m)
  {
    if keys != [] {
      var head, rest := MemberField(m, keys[0]), MemberFields(m, keys[1..]);
      MemberFieldsFromMembers(m, keys[1..]);
      assert MemberFields(m, keys) == head + rest;
      ConcatFromMember(head, rest, m);
    }
  }

  lemma ConcatFromMember(head: seq<Field>, rest: seq<Field>, m: map<string, Value>)
    requires forall i :: 0 <= i < |head| ==> FromMember(head[i], m)
    requires forall i :: 0 <= i < |rest| ==> FromMember(rest[i], m)
    ensures forall i :: 0 <= i < |head + rest| ==> FromMember((head + rest)[i], m)
  {
    forall i | 0 <= i < |head + rest|
      ensures FromMember((head + rest)[i], m)
    {
      if i >= |head| {
        assert (head + rest)[i] == rest[i - |head|];
      }
    }
  }

  /** Every member among `keys` that is not null has a field. */
  lemma {:induction false} MemberFieldsCover(m: map<string, Value>, keys: seq<string>)
    requires forall i :: 0 <= i < |keys| ==> keys[i] in m
    ensures forall k :: k in keys && !m[k].Null? ==>
              exists i :: 0 <= i < |MemberFields(m, keys)| && TagKey(MemberFields(m, keys)[i].tag) == Some(k)
  {
    if keys != [] {
      var head, rest := MemberField(m, keys[0]), MemberFields(m, keys[1..]);
      MemberFieldsCover(m, keys[1..]);
      var fs := head + rest;
      assert MemberFields(m, keys) == fs;
      forall k | k in keys && !m[k].Null?
        ensures exists i :: 0 <= i < |fs| && TagKey(fs[i].tag) == Some(k)
      {
        if k == keys[0] {
          assert TagKey(fs[0].tag) == Some(k);
        } else {
          assert k in keys[1..];
          var i :| 0 <= i < |rest| && TagKey(rest[i].tag) == Some(k);
          assert fs[|head| + i] == rest[i];
        }
      }
    }
  }

  /** Visiting keys one after the other gives their fields one after the
      other. */
  lemma {:induction false} MemberFieldsAppend(m: map<string, Value>, a: seq<string>, b: seq<string>)
    requires forall i :: 0 <= i < |a| ==> a[i] in m
    requires forall i :: 0 <= i < |b| ==> b[i] in m
    ensures MemberFields(m, a + b) == MemberFields(m, a) + MemberFields(m, b)
  {
    if a != [] {
      assert (a + b)[0] == a[0];
      assert (a + b)[1..] == a[1..] + b;
      MemberFieldsAppend(m, a[1..], b);
      AppendAssoc(MemberField(m, a[0]), MemberFields(m, a[1..]), MemberFields(m, b));
    } else {
      assert a + b == b;
    }
  }

  lemma RemoveFirst(a: seq<string>, b: seq<string>, j: nat)
    requires a != [] && multiset(a) == multiset(b)
    requires j < |b| && b[j] == a[0]
    ensures multiset(a[1..]) == multiset(b[..j] + b[j + 1..])
  {
    assert b == b[..j] + [a[0]] + b[j + 1..];
    assert multiset(b) == multiset(b[..j]) + multiset{a[0]} + multiset(b[j + 1..]);
    assert multiset(b[..j] + b[j + 1..]) == multiset(b[..j]) + multiset(b[j + 1..]);
    assert a == [a[0]] + a[1..];
    assert multiset(a[1..]) == multiset(a) - multiset{a[0]};
  }

  /** The fields of `b` around the key at `j`. */
  lemma MemberFieldsSplit(m: map<string, Value>, b: seq<string>, j: nat)
    requires forall i :: 0 <= i < |b| ==> b[i] in m
    requires j < |b|
    ensures MemberFields(m, b) == MemberFields(m, b[..j]) + MemberField(m, b[j]) + MemberFields(m, b[j + 1..])
    ensures MemberFields(m, b[..j] + b[j + 1..]) == MemberFields(m, b[..j]) + MemberFields(m, b[j + 1..])
  {
    var front, back := b[..j], b[j + 1..];
    var mid := [b[j]] + back;
    assert b == front + mid;
    assert mid[0] == b[j] && mid[1..] == back;
    assert MemberFields(m, mid) == MemberField(m, b[j]) + MemberFields(m, back);
    MemberFieldsAppend(m, front, mid);
    MemberFieldsAppend(m, front, back);
    AppendAssoc(MemberFields(m, front), MemberField(m, b[j]), MemberFields(m, back));
  }

  /** Visiting the same keys in another order gives the same fields in
      another order. */
  lemma {:induction false} MemberFieldsPermutation(m: map<string, Value>, a: seq<string>, b: seq<string>)
    requires forall i :: 0 <= i < |a| ==> a[i] in m
    requires multiset(a) == multiset(b)
    ensures forall i :: 0 <= i < |b| ==> b[i] in m
    ensures multiset(MemberFields(m, a)) == multiset(MemberFields(m, b))
    decreases |a|
  {
    forall i | 0 <= i < |b|
      ensures b[i] in m
    {
      assert b[i] in multiset(a);
    }
    if a != [] {
      var x := a[0];
      assert x in multiset(b);
      var j :| 0 <= j < |b| && b[j] == x;
      RemoveFirst(a, b, j);
      MemberFieldsPermutation(m, a[1..], b[..j] + b[j + 1..]);
      MemberFieldsSplit(m, b, j);
      assert MemberFields(m, a) == MemberField(m, x) + MemberFields(m, a[1..]);
    } else {
      assert |b| == |multiset(b)| == 0;
    }
  }

  /** What holds of every field, and which members are covered, carries
      over to any rearrangement of the fields. */
  lemma RearrangedFields(m: map<string, Value>, fields: seq<Field>, fs: seq<Field>)
    requires multiset(fs) == multiset(fields)
    requires forall i :: 0 <= i < |fields| ==> FromMember(fields[i], m)
    requires forall k :: k in m && !m[k].Null? ==> exists i :: 0 <= i < |fields| && TagKey(fields[i].tag) == Some(k)
    ensures forall i :: 0 <= i < |fs| ==> FromMember(fs[i], m)
    ensures forall k :: k in m && !m[k].Null? ==> exists i :: 0 <= i < |fs| && TagKey(fs[i].tag) == Some(k)
  {
    forall i | 0 <= i < |fs|
      ensures FromMember(fs[i], m)
    {
      assert fs[i] in multiset(fields);
      var j :| 0 <= j < |fields| && fields[j] == fs[i];
    }
    forall k | k in m && !m[k].Null?
      ensures exists i :: 0 <= i < |fs| && TagKey(fs[i].tag) == Some(k)
    {
      var j :| 0 <= j < |fields| && TagKey(fields[j].tag) == Some(k);
      assert fields[j] in multiset(fs);
      var i :| 0 <= i < |fs| && fs[i] == fields[j];
    }
  }

  /** The body xreflect writes for an object: its fields in the order of
      their names, one for every member that is not null, each the field
      of the member its tag names. */
  function StructFields(m: map<string, Value>): (fs: seq<Field>)
    ensures XReflect(Object(m)) == Ok(Render(fs))
    ensures SortedByName(fs)
    ensures forall i :: 0 <= i < |fs| ==> FromMember(fs[i], m)
    ensures forall k :: k in m && !m[k].Null? ==> exists i :: 0 <= i < |fs| && TagKey(fs[i].tag) == Some(k)
  {
    var keys := SortedKeys(m.Keys);
    ObjectFieldsCollects(Object(m), m, keys);
    MemberFieldsFromMembers(m, keys);
    MemberFieldsCover(m, keys);
    var fields := MemberFields(m, keys);
    RearrangedFields(m, fields, SortFields(fields));
    SortFields(fields)
  }

  /** No two members that get a field share a Go name. */
  predicate GoNamesDistinct(m: map<string, Value>)
  {
    forall k1, k2 :: k1 in m && k2 in m && !m[k1].Null? && !m[k2].Null? && GoField(k1) == GoField(k2) ==> k1 == k2
  }

  lemma {:induction false} DistinctCounts(s: seq<string>)
    requires forall i, j :: 0 <= i < j < |s| ==> s[i] != s[j]
    ensures forall x :: multiset(s)[x] == if x in s then 1 else 0
  {
    if s != [] {
      DistinctCounts(s[1..]);
      assert s == [s[0]] + s[1..];
      assert multiset(s) == multiset{s[0]} + multiset(s[1..]);
    }
  }

  lemma SameKeysSameMultiset(a: seq<string>, b: seq<string>, m: map<string, Value>)
    requires IterationOrder(a, m.Keys) && IterationOrder(b, m.Keys)
    ensures multiset(a) == multiset(b)
  {
    DistinctCounts(a);
    DistinctCounts(b);
    assert forall x :: multiset(a)[x] == multiset(b)[x];
  }

  lemma FromMemberNamesDetermine(m: map<string, Value>, fs: seq<Field>)
    requires GoNamesDistinct(m)
    requires forall i :: 0 <= i < |fs| ==> FromMember(fs[i], m)
    ensures NamesDetermineFields(fs)
  {
  }

  /** Go visits a map in an unpredictable order and sorts with an unstable
      sort; when no two members that get a field share a Go name, neither
      shows in the result: any order of visiting and any sorted arrangement
      of the fields so collected renders the same body. */
  lemma IterationOrderIrrelevant(m: map<string, Value>, keys: seq<string>, fs: seq<Field>)
    requires IterationOrder(keys, m.Keys)
    requires GoNamesDistinct(m)
    requires SortedByName(fs) && multiset(fs) == multiset(MemberFields(m, keys))
    ensures XReflect(Object(m)) == Ok(Render(fs))
  {
    var sorted := SortedKeys(m.Keys);
    SortedKeysIterationOrder(m);
    SameKeysSameMultiset(keys, sorted, m);
    MemberFieldsPermutation(m, keys, sorted);
    StructFieldsArrangement(m);
    var a := StructFields(m);
    FromMemberNamesDetermine(m, a);
    SortedArrangementUnique(a, fs);
  }

  /** The sorted keys are one order of visiting the map. */
  lemma SortedKeysIterationOrder(m: map<string, Value>)
    ensures IterationOrder(SortedKeys(m.Keys), m.Keys)
  {
    var sorted := SortedKeys(m.Keys);
    forall i, j | 0 <= i < j < |sorted|
      ensures sorted[i] != sorted[j]
    {
      LessIrreflexive(sorted[i]);
    }
  }

  /** The fields generate.go renders are the members' fields, sorted. */
  lemma StructFieldsArrangement(m: map<string, Value>)
    ensures StructFields(m) == SortFields(MemberFields(m, SortedKeys(m.Keys)))
  {
    ObjectFieldsCollects(Object(m), m, SortedKeys(m.Keys));
  }
}

=== FILE: graphql.dfy ===
/**
 * The HTTP side of graphql.go: requests with variables and attachments,
 * client options, the choice between a JSON body and a multipart form, the
 * request handed to the transport, and how the server's answer becomes the
 * error Run returns.
 */
module Graphql {
  import opened Common
  import opened Json
  import opened Http
  import opened Wire

  /* ---------------------------------------------------------------------- */
  /* Requests                                                                */
  /* ---------------------------------------------------------------------- */

  /** An attachment: the form field it is sent under, its file name and its reader. */
  datatype File = File(field: string, name: string, reader: Stream)

  /** A GraphQL request. `vars` is None while the Go map is still nil. */
  datatype Request = Request(q: string, vars: Option<map<string, Value>>, files: seq<File>, header: Header)

  /** A variable map as Go's len and indexing see it: a nil map is empty. */
  function VarMap(vars: Option<map<string, Value>>): map<string, Value>
  {
    if vars.None? then map[] else vars.value
  }

  function Vars(req: Request): map<string, Value>
  {
    VarMap(req.vars)
  }

  /** NewRequest: the query, no variable map yet, no attachments and an
      empty (non-nil) header map. */
  function NewRequest(q: string): (r: Request)
    ensures r.q == q && r.vars.None? && r.files == [] && r.header == map[]
  {
    Request(q, None, [], map[])
  }

  /** Request.Var: the map is created on first use; the key is set or
      overwritten and every other variable is kept. */
  function Var(req: Request, key: string, value: Value): (r: Request)
    ensures r.vars.Some? && key in Vars(r) && Vars(r)[key] == value
    ensures Vars(r).Keys == Vars(req).Keys + {key}
    ensures forall k :: k in Vars(req) && k != key ==> Vars(r)[k] == Vars(req)[k]
    ensures r.q == req.q && r.files == req.files && r.header == req.header
  {
    req.(vars := Some(Vars(req)[key := value]))
  }

  /** Setting a key twice keeps only the second value. */
  lemma VarOverwrites(req: Request, key: string, v1: Value, v2: Value)
    ensures Var(Var(req, key, v1), key, v2) == Var(req, key, v2)
  {
    assert Vars(req)[key := v1][key := v2] == Vars(req)[key := v2];
  }

  /** Setting different keys does not depend on the order of the calls. */
  lemma VarCommutes(req: Request, k1: string, v1: Value, k2: string, v2: Value)
    requires k1 != k2
    ensures Var(Var(req, k1, v1), k2, v2) == Var(Var(req, k2, v2), k1, v1)
  {
    var a := Var(Var(req, k1, v1), k2, v2);
    var b := Var(Var(req, k2, v2), k1, v1);
    assert Vars(a) == Vars(b);
  }

  /** Request.File: one attachment appended after the earlier ones. */
  function AttachFile(req: Request, field: string, name: string, reader: Stream): (r: Request)
    ensures |r.files| == |req.files| + 1 && r.files[..|req.files|] == req.files
    ensures r.files[|req.files|] == File(field, name, reader)
    ensures r.q == req.q && r.vars == req.vars && r.header == req.header
  {
    req.(files := req.files + [File(field, name, reader)])
  }

  /* ---------------------------------------------------------------------- */
  /* Clients                                                                 */
  /* ---------------------------------------------------------------------- */

  /** A Client as far as it shapes a request; the http.Client it sends
      through and its Log function are not part of the model. */
  datatype Client = Client(endpoint: string, useMultipartForm: bool, closeReq: bool)

  datatype ClientOption = WithHTTPClient | UseMultipartForm | ImmediatelyCloseReqBody

  function ApplyOptions(c: Client, opts: seq<ClientOption>): (r: Client)
    ensures r.endpoint == c.endpoint
    ensures r.useMultipartForm <==> c.useMultipartForm || UseMultipartForm in opts
    ensures r.closeReq <==> c.closeReq || ImmediatelyCloseReqBody in opts
    decreases |opts|
  {
    if opts == [] then c
    else
      var c' := match opts[0]
        case WithHTTPClient => c
        case UseMultipartForm => c.(useMultipartForm := true)
        case ImmediatelyCloseReqBody => c.(closeReq := true);
      assert forall o :: o in opts <==> o == opts[0] || o in opts[1..];
      ApplyOptions(c', opts[1..])
  }

  /** NewClient: each option switches its feature on, whatever its position
      and however often it is given. */
  function NewClient(endpoint: string, opts: seq<ClientOption>): (c: Client)
    ensures c.endpoint == endpoint
    ensures c.useMultipartForm <==> UseMultipartForm in opts
    ensures c.closeReq <==> ImmediatelyCloseReqBody in opts
  {
    ApplyOptions(Client(endpoint, false, false), opts)
  }

  /* ---------------------------------------------------------------------- */
  /* Resolving the server's answer                                           */
  /* ---------------------------------------------------------------------- */

  /** graphErr.Error. */
  function GraphErrText(message: string): (r: string)
    ensures GraphqlPrefix <= r && r[|GraphqlPrefix|..] == message
  {
    GraphqlPrefix + message
  }

  const GraphqlPrefix := "graphql: "
  const NonOkPrefix := GraphqlPrefix + "server returned a non-200 status code: "

  /** The error Run returns for what the transport and the server produced:
      a decoding failure is reported by status first (a non-200 status wins
      over the decoder's reason), a decoded errors list by its first entry
      only, and nil exactly when the body decoded without errors, whatever
      the status. A `null` body decodes by setting the response pointer
      to nil, and reading its errors then panics; the panic is reported
      by its run-time message, as Send reports a panic. */
  function Resolve(reply: Reply): (r: Option<string>)
    ensures r.None? <==> reply.Answered? && reply.envelope == Decoded([])
    ensures reply.Answered? && reply.envelope.NullBody? ==> r == Some(NilDereference)
    ensures reply.TransportFailure? ==> r == Some(reply.reason)
    ensures reply.BodyUnreadable? ==> r == Some(Wrap("reading body", reply.reason))
    ensures reply.Answered? && reply.envelope.Undecodable? ==>
              r == Some(if reply.status != 200 then NonOkPrefix + IntToString(reply.status)
                        else Wrap("decoding response", reply.envelope.reason))
    ensures reply.Answered? && reply.envelope.Decoded? && reply.envelope.errors != [] ==>
              r == Some(GraphErrText(reply.envelope.errors[0]))
  {
    match reply
    case TransportFailure(e) => Some(e)
    case BodyUnreadable(e) => Some(Wrap("reading body", e))
    case Answered(status, Undecodable(e)) =>
      if status != 200 then Some(NonOkPrefix + IntToString(status))
      else Some(Wrap("decoding response", e))
    case Answered(_, NullBody) => Some(NilDereference)
    case Answered(_, Decoded(errors)) =>
      if |errors| > 0 then Some(GraphErrText(errors[0])) else None
  }

  /** The non-200 message names the status: its decimal tail reads back as
      the status code. */
  lemma NonOkNamesStatus(status: nat, reason: string)
    requires status != 200
    ensures var r := Resolve(Answered(status, Undecodable(reason))).value;
            NonOkPrefix <= r && AllDigits(r[|NonOkPrefix|..]) && DigitsValue(r[|NonOkPrefix|..]) == status
  {
    var r := Resolve(Answered(status, Undecodable(reason))).value;
    assert r[|NonOkPrefix|..] == NatToString(status);
    NatToStringRoundTrip(status);
  }

  /** Once the body decodes, the status plays no part and only the first
      error is reported. */
  lemma DecodedIgnoresStatusAndLaterErrors(s1: int, s2: int, errors: seq<string>, more: seq<string>)
    requires errors != []
    ensures Resolve(Answered(s1, Decoded(errors + more))) == Resolve(Answered(s2, Decoded(errors)))
  {
    assert (errors + more)[0] == errors[0];
  }

  /** A 500 answer with a body that is not JSON (graphql_json_test.go). */
  lemma InternalServerErrorExample(reason: string)
    ensures Resolve(Answered(500, Undecodable(reason))) == Some(NonOkPrefix + "500")
  {
    assert DigitChar(5) == '5' && DigitChar(0) == '0';
    assert NatToString(5) == "5";
    assert NatToString(50) == "50";
    assert NatToString(500) == "500";
    assert IntToString(500) == "500";
  }

  /* ---------------------------------------------------------------------- */
  /* Building the request                                                    */
  /* ---------------------------------------------------------------------- */

  /** The header runWithJSON starts from before copying the caller's. */
  function JsonDefaults(): (h: Header)
    ensures Values(h, "Content-Type") == [JsonContentType] && Values(h, "Accept") == [JsonContentType]
    ensures h.Keys == {"Content-Type", "Accept"}
  {
    ContentTypeCanonical();
    AcceptCanonical();
    Set(Set(map[], "Content-Type", JsonContentType), "Accept", JsonContentType)
  }

  /** The header runWithPostFields starts from before copying the caller's. */
  function FormDefaults(boundary: string): (h: Header)
    ensures Values(h, "Content-Type") == [FormDataContentType(boundary)] && Values(h, "Accept") == [JsonContentType]
    ensures h.Keys == {"Content-Type", "Accept"}
  {
    ContentTypeCanonical();
    AcceptCanonical();
    Set(Set(map[], "Content-Type", FormDataContentType(boundary)), "Accept", JsonContentType)
  }

  /** The caller's header copied onto `defaults` with Header.Add, its keys
      visited in the order `order` Go's map iteration picks: under each
      canonical name, the defaults' values, then the values of every
      caller key with that canonical form in visiting order. When the
      caller's keys are canonical, as Add and Set leave them, that is just
      the caller's values under the same name. */
  function WithCallerHeader(defaults: Header, header: Header, order: seq<string>): (h: Header)
    requires IterationOrder(order, header.Keys)
    ensures forall k :: Values(h, k) == Values(defaults, k) + Gathered(header, order, k)
    ensures forall k :: k in h <==> k in defaults || Gathered(header, order, k) != []
    ensures CanonicalKeys(header) ==> forall k :: Values(h, k) == Values(defaults, k) + Values(header, k)
  {
    AddKeysValues(defaults, header, order);
    if CanonicalKeys(header) then
      CopyCanonicalKeys(defaults, header, order);
      AddKeys(defaults, header, order)
    else AddKeys(defaults, header, order)
  }

  /** The request runWithJSON hands to the transport: a POST of the query
      body to the endpoint, with the JSON defaults followed by the caller's
      headers, or the "encode body" error. */
  function JsonRequest(c: Client, req: Request, order: seq<string>): (r: Result<Outgoing>)
    requires IterationOrder(order, req.header.Keys)
    ensures r.Ok? <==> VariablesEncodable(req.vars)
    ensures r.Err? ==> Wrap("encode body", UnsupportedPrefix) <= r.error
    ensures !r.Panic?
    ensures r.Ok? ==> r.value.methodName == "POST" && r.value.url == c.endpoint && r.value.close == c.closeReq
    ensures r.Ok? ==> r.value.body.Text? && QueryBody(req.q, req.vars) == Ok(r.value.body.text)
    ensures r.Ok? ==> forall k :: Values(r.value.header, k) == Values(JsonDefaults(), k) + Gathered(req.header, order, k)
    ensures r.Ok? && CanonicalKeys(req.header) ==>
              forall k :: Values(r.value.header, k) == Values(JsonDefaults(), k) + Values(req.header, k)
  {
    var body := QueryBody(req.q, req.vars);
    if body.Ok? then Ok(Outgoing("POST", c.endpoint, WithCallerHeader(JsonDefaults(), req.header, order), Text(body.value), c.closeReq))
    else Err(Wrap("encode body", body.error))
  }

  /** The caller's headers are appended after the defaults, so they can add
      values but never displace the JSON content type. */
  lemma JsonDefaultsComeFirst(c: Client, req: Request, order: seq<string>)
    requires IterationOrder(order, req.header.Keys)
    requires VariablesEncodable(req.vars)
    ensures Get(JsonRequest(c, req, order).value.header, "Content-Type") == JsonContentType
    ensures Get(JsonRequest(c, req, order).value.header, "Accept") == JsonContentType
  {
    ContentTypeCanonical();
    AcceptCanonical();
    var h := JsonRequest(c, req, order).value.header;
    assert Values(h, "Content-Type")[0] == JsonContentType;
    assert Values(h, "Accept")[0] == JsonContentType;
  }

  /** The `variables` field both clients write before the files: none when
      no variable is set, otherwise the encoded map and a newline. */
  function VariablesPart(vars: Option<map<string, Value>>): (r: Result<seq<Part>>)
    ensures r.Ok? <==> (|VarMap(vars)| > 0 ==> VariablesEncodable(vars))
    ensures !r.Panic?
    ensures r.Err? ==> Wrap("encode variables", UnsupportedPrefix) <= r.error
    ensures r.Ok? ==> (|r.value| == 1 <==> |VarMap(vars)| > 0) && |r.value| <= 1
    ensures r.Ok? && |VarMap(vars)| > 0 ==> r.value[0] == FormField("variables", EncodeMap(VarMap(vars)).value + "\n")
  {
    if |VarMap(vars)| == 0 then Ok([])
    else
      var v := EncodeMap(VarMap(vars));
      if v.Ok? then Ok([FormField("variables", v.value + "\n")]) else Err(Wrap("encode variables", v.error))
  }

  /** The form fields runWithPostFields writes, in order: `query`, then
      `variables` only when some variable is set, then one file part per
      attachment named after its field. The first failure stops the body. */
  function FormParts(req: Request): (r: Result<seq<Part>>)
    ensures r.Ok? <==> VariablesPart(req.vars).Ok? && forall i :: 0 <= i < |req.files| ==> req.files[i].reader.failure.None?
    ensures !r.Panic?
    ensures VariablesPart(req.vars).Err? ==> r == Err(VariablesPart(req.vars).error)
    ensures r.Err? && VariablesPart(req.vars).Ok? ==>
              exists i | 0 <= i < |req.files| :: req.files[i].reader.failure.Some?
                && r.error == Wrap("preparing file", req.files[i].reader.failure.value)
                && forall j :: 0 <= j < i ==> req.files[j].reader.failure.None?
    ensures r.Ok? ==>
              var n := 1 + |VariablesPart(req.vars).value|;
              |r.value| == n + |req.files|
              && forall i :: 0 <= i < |req.files| ==>
                   r.value[n + i] == FormFile(req.files[i].field, req.files[i].name, req.files[i].reader.data)
    ensures r.Ok? ==> r.value[..1 + |VariablesPart(req.vars).value|] == [FormField("query", req.q)] + VariablesPart(req.vars).value
  {
    var variables := VariablesPart(req.vars);
    if !variables.Ok? then Err(variables.error)
    else
      FieldsThenFiles([FormField("query", req.q)] + variables.value, FieldNames(req.files), FileNames(req.files), Readers(req.files))
  }

  /** One string variable set on a new request gives the form the fields
      `query` and `variables` (`{"username":"matryer"}` and a newline in
      graphql_multipart_test.go). */
  lemma FormWithOneVariable(q: string, name: string, value: string)
    requires Plain(name) && Plain(value)
    ensures FormParts(Var(NewRequest(q), name, Str(value)))
            == Ok([FormField("query", q), FormField("variables", "{\"" + name + "\":\"" + value + "\"}\n")])
  {
    var req := Var(NewRequest(q), name, Str(value));
    assert Vars(req) == map[name := Str(value)];
    OneStringVariable(name, value);
    var text := "{\"" + name + "\":\"" + value + "\"}";
    assert EncodeMap(Vars(req)) == Ok(text);
    assert VariablesPart(req.vars) == Ok([FormField("variables", text + "\n")]);
    assert text + "\n" == "{\"" + name + "\":\"" + value + "\"}\n";
    assert FileParts(FieldNames(req.files), FileNames(req.files), Readers(req.files)) == Ok([]);
    var parts := [FormField("query", q)] + [FormField("variables", text + "\n")] + [];
    assert FormParts(req) == Ok(parts);
    assert parts == [FormField("query", q), FormField("variables", text + "\n")];
  }

  function FieldNames(files: seq<File>): (r: seq<string>)
    ensures |r| == |files| && forall i :: 0 <= i < |files| ==> r[i] == files[i].field
  {
    seq(|files|, i requires 0 <= i < |files| => files[i].field)
  }

  function FileNames(files: seq<File>): (r: seq<string>)
    ensures |r| == |files| && forall i :: 0 <= i < |files| ==> r[i] == files[i].name
  {
    seq(|files|, i requires 0 <= i < |files| => files[i].name)
  }

  function Readers(files: seq<File>): (r: seq<Stream>)
    ensures |r| == |files| && forall i :: 0 <= i < |files| ==> r[i] == files[i].reader
  {
    seq(|files|, i requires 0 <= i < |files| => files[i].reader)
  }

  /** The request runWithPostFields hands to the transport, or the error
      that stopped building its body. */
  function FormRequest(c: Client, req: Request, boundary: string, order: seq<string>): (r: Result<Outgoing>)
    requires IterationOrder(order, req.header.Keys)
    ensures r.Ok? <==> FormParts(req).Ok?
    ensures r.Err? ==> r.error == FormParts(req).error
    ensures !r.Panic?
    ensures r.Ok? ==> r.value.methodName == "POST" && r.value.url == c.endpoint && r.value.close == c.closeReq
    ensures r.Ok? ==> r.value.body == Form(FormParts(req).value)
    ensures r.Ok? ==> forall k :: Values(r.value.header, k) == Values(FormDefaults(boundary), k) + Gathered(req.header, order, k)
    ensures r.Ok? && CanonicalKeys(req.header) ==>
              forall k :: Values(r.value.header, k) == Values(FormDefaults(boundary), k) + Values(req.header, k)
  {
    var parts := FormParts(req);
    if parts.Ok? then Ok(Outgoing("POST", c.endpoint, WithCallerHeader(FormDefaults(boundary), req.header, order), Form(parts.value), c.closeReq))
    else Err(parts.error)
  }

  /* ---------------------------------------------------------------------- */
  /* Run                                                                     */
  /* ---------------------------------------------------------------------- */

  const FilesNeedForm := "cannot send files with PostFields option"

  /** What one Run call does: the request it hands to the transport, if it
      gets that far, and the error it returns (None for nil). */
  datatype Outcome = Outcome(sent: Option<Outgoing>, err: Option<string>)

  function Send(built: Result<Outgoing>, reply: Reply): (o: Outcome)
    ensures built.Ok? ==> o == Outcome(Some(built.value), Resolve(reply))
    ensures built.Err? ==> o == Outcome(None, Some(built.error))
    ensures built.Panic? ==> o.sent.None? && o.err.Some?
  {
    match built
    case Ok(out) => Outcome(Some(out), Resolve(reply))
    case Err(e) => Outcome(None, Some(e))
    case Panic(p) => Outcome(None, Some(p))
  }

  /** Run: a context that is already done stops everything, attachments
      need the multipart client, and otherwise the client's form setting
      picks the body. `boundary` is the multipart writer's random boundary,
      `order` the order Go's map iteration visits the caller's header keys
      in, and `reply` what the transport and the server produce if a
      request is sent. */
  function Run(ctx: Context, c: Client, req: Request, boundary: string, order: seq<string>, reply: Reply): (o: Outcome)
    requires IterationOrder(order, req.header.Keys)
    ensures ctx.Done() ==> o == Outcome(None, Some(ctx.Err()))
    ensures !ctx.Done() && |req.files| > 0 && !c.useMultipartForm ==> o == Outcome(None, Some(FilesNeedForm))
    ensures o.sent.Some? ==> !ctx.Done() && o.err == Resolve(reply)
    ensures o.sent.Some? ==> (o.sent.value.body.Form? <==> c.useMultipartForm)
    ensures !ctx.Done() && !c.useMultipartForm && req.files == [] ==> o == Send(JsonRequest(c, req, order), reply)
    ensures !ctx.Done() && c.useMultipartForm ==> o == Send(FormRequest(c, req, boundary, order), reply)
  {
    if ctx.Done() then Outcome(None, Some(ctx.Err()))
    else if |req.files| > 0 && !c.useMultipartForm then Outcome(None, Some(FilesNeedForm))
    else if c.useMultipartForm then Send(FormRequest(c, req, boundary, order), reply)
    else Send(JsonRequest(c, req, order), reply)
  }

  /** A JSON request answered 400 with one error in its body reports that
      error's message, as for `query {}` in graphql_json_test.go. */
  lemma BadRequestExample(c: Client, q: string, boundary: string, message: string)
    requires !c.useMultipartForm
    ensures Run(Background, c, NewRequest(q), boundary, [], Answered(400, Decoded([message]))).err
            == Some("graphql: " + message)
  {
    assert VariablesEncodable(NewRequest(q).vars);
  }
}

=== FILE: http.dfy ===
/**
 * The part of net/http, mime/multipart, io and context the client relies
 * on: header maps, cancellation, readers attached as files, multipart form
 * bodies as ordered lists of parts, the request handed to the transport,
 * and what a server can answer.
 */
module Http {
  import opened Common

  /* ---------------------------------------------------------------------- */
  /* Headers                                                                 */
  /* ---------------------------------------------------------------------- */

  /** http.Header: each header name with its values in order. */
  type Header = map<string, seq<string>>

  /** The values stored under exactly `key`, as indexing the Go map does. */
  function Values(h: Header, key: string): seq<string>
  {
    if key in h then h[key] else []
  }

  /** A character of an RFC 7230 token, the only characters a header name
      textproto canonicalizes may contain. */
  predicate TokenChar(c: char)
  {
    ('0' <= c <= '9') || ('a' <= c <= 'z') || ('A' <= c <= 'Z')
    || c in {'!', '#', '$', '%', '&', '\'', '*', '+', '-', '.', '^', '_', '`', '|', '~'}
  }

  predicate IsToken(s: string)
  {
    forall i :: 0 <= i < |s| ==> TokenChar(s[i])
  }

  /** One character of a canonical key: a letter at the start of a word is
      upper-cased, any other letter lower-cased. */
  function FoldChar(c: char, wordStart: bool): char
  {
    if wordStart && 'a' <= c <= 'z' then (c as int - 32) as char
    else if !wordStart && 'A' <= c <= 'Z' then (c as int + 32) as char
    else c
  }

  /** Every letter folded to the case its position asks for. A word starts
      at the beginning and after a '-'; folding never creates or removes a
      '-', so the flag of Go's scan can be read off the input. */
  function FoldCase(s: string): (r: string)
  {
    seq(|s|, i requires 0 <= i < |s| => FoldAt(s, i))
  }

  /** Position `i` of FoldCase(s). */
  function FoldAt(s: string, i: int): char
    requires 0 <= i < |s|
  {
    FoldChar(s[i], i == 0 || s[i - 1] == '-')
  }

  /** textproto.CanonicalMIMEHeaderKey, which Header.Add, Set and Get apply
      to their key: a key made only of token characters has the first
      letter of each '-'-separated word upper-cased and every other letter
      lower-cased; any other key is used as it is. */
  function Canonical(key: string): string
  {
    if IsToken(key) then FoldCase(key) else key
  }

  lemma FoldCharFacts(c: char, wordStart: bool)
    requires TokenChar(c)
    ensures TokenChar(FoldChar(c, wordStart))
    ensures FoldChar(c, wordStart) == '-' <==> c == '-'
    ensures FoldChar(FoldChar(c, wordStart), wordStart) == FoldChar(c, wordStart)
  {
  }

  /** Canonicalizing twice is canonicalizing once. */
  lemma CanonicalIdempotent(key: string)
    ensures Canonical(Canonical(key)) == Canonical(key)
  {
    if IsToken(key) {
      var c := FoldCase(key);
      forall i | 0 <= i < |key|
        ensures TokenChar(c[i])
        ensures FoldChar(c[i], i == 0 || c[i - 1] == '-') == c[i]
      {
        FoldCaseStableAt(key, c, i);
      }
      assert IsToken(c);
      assert FoldCase(c) == c;
    }
  }

  /** One position of a folded token key folds to itself again. */
  lemma FoldCaseStableAt(key: string, c: string, i: int)
    requires IsToken(key) && c == FoldCase(key) && 0 <= i < |key|
    ensures TokenChar(c[i])
    ensures FoldChar(c[i], i == 0 || c[i - 1] == '-') == c[i]
  {
    assert c[i] == FoldAt(key, i);
    if i == 0 {
      FoldTwice(key[0], key[0], c[0], c[0], true, true);
    } else {
      assert c[i - 1] == FoldAt(key, i - 1);
      FoldTwice(key[i], key[i - 1], c[i], c[i - 1], false, i - 1 == 0 || key[i - 2] == '-');
    }
  }

  /** A folded character, at a position whose word start is read off the
      folded previous character, folds to itself. */
  lemma FoldTwice(k: char, p: char, fk: char, fp: char, first: bool, pstart: bool)
    requires TokenChar(k) && TokenChar(p)
    requires fk == FoldChar(k, first || p == '-') && fp == FoldChar(p, pstart)
    ensures TokenChar(fk) && FoldChar(fk, first || fp == '-') == fk
  {
    FoldCharFacts(k, first || p == '-');
    FoldCharFacts(p, pstart);
  }

  /** An ASCII letter in lower case; every other character as it is. */
  function Lower(c: char): char
  {
    if 'A' <= c <= 'Z' then (c as int + 32) as char else c
  }

  lemma FoldCharIgnoresCase(a: char, b: char, wordStart: bool)
    requires TokenChar(a) && Lower(a) == Lower(b)
    ensures TokenChar(b) && (a == '-' <==> b == '-')
    ensures FoldChar(a, wordStart) == FoldChar(b, wordStart)
  {
  }

  /** ASCII letter case does not survive canonicalization: two token keys
      that differ only in the case of their letters share a canonical form. */
  lemma CanonicalIgnoresCase(a: string, b: string)
    requires IsToken(a) && |a| == |b|
    requires forall i :: 0 <= i < |a| ==> Lower(a[i]) == Lower(b[i])
    ensures Canonical(a) == Canonical(b)
  {
    forall i | 0 <= i < |a|
      ensures TokenChar(b[i]) && (a[i] == '-' <==> b[i] == '-')
      ensures FoldChar(a[i], i == 0 || a[i - 1] == '-') == FoldChar(b[i], i == 0 || a[i - 1] == '-')
    {
      FoldCharIgnoresCase(a[i], b[i], i == 0 || a[i - 1] == '-');
    }
    assert IsToken(b);
    assert FoldCase(a) == FoldCase(b);
  }

  lemma TokenAppend(a: string, b: string)
    requires IsToken(a) && IsToken(b)
    ensures IsToken(a + b)
  {
    forall i | 0 <= i < |a + b|
      ensures TokenChar((a + b)[i])
    {
      if i >= |a| {
        assert (a + b)[i] == b[i - |a|];
      }
    }
  }

  /** A word boundary splits the folding: what follows a '-' is folded on
      its own. */
  lemma FoldCaseAfterDash(a: string, b: string)
    requires a != [] && a[|a| - 1] == '-'
    ensures FoldCase(a + b) == FoldCase(a) + FoldCase(b)
  {
    var ab := a + b;
    forall i | |a| <= i < |ab|
      ensures FoldCase(ab)[i] == FoldCase(b)[i - |a|]
    {
      assert ab[i] == b[i - |a|];
      if i > |a| {
        assert ab[i - 1] == b[i - 1 - |a|];
      }
    }
  }

  /** A three-word token key folds word by word. */
  lemma CanonicalWords(a: string, b: string, c: string)
    requires IsToken(a) && IsToken(b) && IsToken(c)
    requires a != [] && a[|a| - 1] == '-' && b != [] && b[|b| - 1] == '-'
    ensures Canonical(a + b + c) == FoldCase(a) + FoldCase(b) + FoldCase(c)
  {
    TokenAppend(b, c);
    TokenAppend(a, b + c);
    assert a + b + c == a + (b + c);
    FoldCaseAfterDash(a, b + c);
    FoldCaseAfterDash(b, c);
  }

  /** The names the client sets are already canonical. */
  lemma ContentTypeCanonical()
    ensures Canonical("Content-Type") == "Content-Type"
  {
    var s := "Content-Type";
    assert IsToken(s) by { LettersAndDashes(s); }
    forall i | 0 <= i < |s| ensures FoldCase(s)[i] == s[i] { }
  }

  lemma LettersAndDashes(s: string)
    requires forall i :: 0 <= i < |s| ==> 'a' <= s[i] <= 'z' || 'A' <= s[i] <= 'Z' || s[i] == '-'
    ensures IsToken(s)
  {
  }

  lemma AcceptCanonical()
    ensures Canonical("Accept") == "Accept"
  {
  }

  /** Header.Add: one more value at the end of the canonical key's list. */
  function Add(h: Header, key: string, value: string): (r: Header)
    ensures Values(r, Canonical(key)) == Values(h, Canonical(key)) + [value]
    ensures forall k :: k != Canonical(key) ==> Values(r, k) == Values(h, k)
    ensures r.Keys == h.Keys + {Canonical(key)}
  {
    var k := Canonical(key);
    h[k := Values(h, k) + [value]]
  }

  /** Header.Set: the canonical key's list replaced by the one value. */
  function Set(h: Header, key: string, value: string): (r: Header)
    ensures Values(r, Canonical(key)) == [value]
    ensures forall k :: k != Canonical(key) ==> Values(r, k) == Values(h, k)
    ensures r.Keys == h.Keys + {Canonical(key)}
  {
    h[Canonical(key) := [value]]
  }

  /** Header.Get: the first value under the canonical key, or "" when
      there is none. */
  function Get(h: Header, key: string): (r: string)
    ensures Values(h, Canonical(key)) != [] ==> r == Values(h, Canonical(key))[0]
    ensures Values(h, Canonical(key)) == [] ==> r == ""
  {
    var vs := Values(h, Canonical(key));
    if vs == [] then "" else vs[0]
  }

  /** A header filled only through Add and Set: every key is canonical. */
  predicate CanonicalKeys(h: Header)
  {
    forall k :: k in h ==> Canonical(k) == k
  }

  /** Add and Set keep every key canonical. */
  lemma AddSetKeepCanonicalKeys(h: Header, key: string, value: string)
    ensures CanonicalKeys(h) ==> CanonicalKeys(Add(h, key, value)) && CanonicalKeys(Set(h, key, value))
  {
    CanonicalIdempotent(key);
  }

  /** `for _, v := range values { h.Add(key, v) }` */
  function AddValues(h: Header, key: string, values: seq<string>): (r: Header)
    ensures values == [] ==> r == h
    decreases |values|
  {
    if values == [] then h
    else AddValues(Add(h, key, values[0]), key, values[1..])
  }

  /** The nested copy loop of CopyHeaders and the run functions, visiting
      the keys of `src` in the order `keys`. */
  function AddKeys(target: Header, src: Header, keys: seq<string>): Header
    requires forall i :: 0 <= i < |keys| ==> keys[i] in src
    decreases |keys|
  {
    if keys == [] then target
    else AddKeys(AddValues(target, keys[0], src[keys[0]]), src, keys[1..])
  }

  /** What visiting `keys` of `src` contributes to the canonical key `c`:
      the values of every visited key whose canonical form is `c`, in
      visiting order. */
  function Gathered(src: Header, keys: seq<string>, c: string): seq<string>
    requires forall i :: 0 <= i < |keys| ==> keys[i] in src
    decreases |keys|
  {
    if keys == [] then []
    else (if Canonical(keys[0]) == c then src[keys[0]] else []) + Gathered(src, keys[1..], c)
  }

  lemma {:induction false} AddValuesAppends(h: Header, key: string, values: seq<string>)
    ensures Values(AddValues(h, key, values), Canonical(key)) == Values(h, Canonical(key)) + values
    ensures forall k :: k != Canonical(key) ==> Values(AddValues(h, key, values), k) == Values(h, k)
    ensures values != [] ==> AddValues(h, key, values).Keys == h.Keys + {Canonical(key)}
    ensures values == [] ==> AddValues(h, key, values) == h
    decreases |values|
  {
    if values != [] {
      AddValuesAppends(Add(h, key, values[0]), key, values[1..]);
      assert [values[0]] + values[1..] == values;
    }
  }

  /** Copying `keys` of `src` onto `target` appends to each canonical key
      what the visited keys gather for it, and creates a key exactly when
      something is gathered for it. */
  lemma {:induction false} AddKeysValues(target: Header, src: Header, keys: seq<string>)
    requires forall i :: 0 <= i < |keys| ==> keys[i] in src
    ensures forall c :: Values(AddKeys(target, src, keys), c) == Values(target, c) + Gathered(src, keys, c)
    ensures forall c :: c in AddKeys(target, src, keys) <==> c in target || Gathered(src, keys, c) != []
    decreases |keys|
  {
    if keys != [] {
      var k0 := keys[0];
      var t' := AddValues(target, k0, src[k0]);
      AddValuesAppends(target, k0, src[k0]);
      AddKeysValues(t', src, keys[1..]);
    }
  }

  /** No two keys of the header share a canonical form. */
  predicate CanonicallyDistinct(src: Header)
  {
    forall a, b :: a in src && b in src && Canonical(a) == Canonical(b) ==> a == b
  }

  /** With no two keys sharing a canonical form, what a visit gathers for
      the canonical form of a visited key is that key's values, and nothing
      is gathered for any other name. */
  lemma {:induction false} GatheredDistinct(src: Header, keys: seq<string>)
    requires forall i :: 0 <= i < |keys| ==> keys[i] in src
    requires forall i, j :: 0 <= i < j < |keys| ==> keys[i] != keys[j]
    requires CanonicallyDistinct(src)
    ensures forall i :: 0 <= i < |keys| ==> Gathered(src, keys, Canonical(keys[i])) == src[keys[i]]
    ensures forall c :: (forall i :: 0 <= i < |keys| ==> Canonical(keys[i]) != c) ==> Gathered(src, keys, c) == []
    decreases |keys|
  {
    if keys != [] {
      GatheredDistinct(src, keys[1..]);
      forall i | 0 <= i < |keys|
        ensures Gathered(src, keys, Canonical(keys[i])) == src[keys[i]]
      {
        if i == 0 {
          assert forall j :: 0 <= j < |keys[1..]| ==> Canonical(keys[1..][j]) != Canonical(keys[0]) by {
            forall j | 0 <= j < |keys[1..]|
              ensures Canonical(keys[1..][j]) != Canonical(keys[0])
            {
              assert keys[1..][j] == keys[j + 1];
            }
          }
        } else {
          assert keys[1..][i - 1] == keys[i];
          assert keys[0] != keys[i];
        }
      }
      forall c | forall i :: 0 <= i < |keys| ==> Canonical(keys[i]) != c
        ensures Gathered(src, keys, c) == []
      {
        assert forall j :: 0 <= j < |keys[1..]| ==> Canonical(keys[1..][j]) != c by {
          forall j | 0 <= j < |keys[1..]|
            ensures Canonical(keys[1..][j]) != c
          {
            assert keys[1..][j] == keys[j + 1];
          }
        }
      }
    }
  }

  /** When no two keys of `src` share a canonical form, copying it puts
      each key's values, whole, under its canonical form after the
      target's, and leaves every other name as the target had it. */
  lemma CopyPlacesEachKey(target: Header, src: Header, keys: seq<string>)
    requires IterationOrder(keys, src.Keys)
    requires CanonicallyDistinct(src)
    ensures forall k :: k in src ==> Values(AddKeys(target, src, keys), Canonical(k)) == Values(target, Canonical(k)) + src[k]
    ensures forall c :: (forall k :: k in src ==> Canonical(k) != c) ==> Values(AddKeys(target, src, keys), c) == Values(target, c)
  {
    AddKeysValues(target, src, keys);
    GatheredDistinct(src, keys);
    forall k | k in src
      ensures Gathered(src, keys, Canonical(k)) == src[k]
    {
      var i :| 0 <= i < |keys| && keys[i] == k;
    }
  }

  /** A header whose keys are all canonical is copied key by key, whatever
      the visiting order. */
  lemma CopyCanonicalKeys(target: Header, src: Header, keys: seq<string>)
    requires IterationOrder(keys, src.Keys)
    requires CanonicalKeys(src)
    ensures forall c :: Values(AddKeys(target, src, keys), c) == Values(target, c) + Values(src, c)
  {
    CopyPlacesEachKey(target, src, keys);
  }

  /** The copy loop's outcome does not depend on the order Go's map
      iteration visits the keys in, as long as no two keys share a
      canonical form. */
  lemma CopyOrderIrrelevant(target: Header, src: Header, a: seq<string>, b: seq<string>)
    requires IterationOrder(a, src.Keys) && IterationOrder(b, src.Keys)
    requires CanonicallyDistinct(src)
    ensures AddKeys(target, src, a) == AddKeys(target, src, b)
  {
    AddKeysValues(target, src, a);
    AddKeysValues(target, src, b);
    forall c
      ensures Gathered(src, a, c) == Gathered(src, b, c)
    {
      GatheredOrderFree(src, a, b, c);
    }
    MapExtensional(AddKeys(target, src, a), AddKeys(target, src, b));
  }

  /** Two visiting orders gather the same values under any name. */
  lemma GatheredOrderFree(src: Header, a: seq<string>, b: seq<string>, c: string)
    requires IterationOrder(a, src.Keys) && IterationOrder(b, src.Keys)
    requires CanonicallyDistinct(src)
    ensures Gathered(src, a, c) == Gathered(src, b, c)
  {
    if i :| 0 <= i < |a| && Canonical(a[i]) == c {
      assert a[i] in src && a[i] in b;
      var j :| 0 <= j < |b| && b[j] == a[i];
      GatheredOf(src, a, i);
      GatheredOf(src, b, j);
    } else {
      GatheredNone(src, a, c);
      forall j | 0 <= j < |b|
        ensures Canonical(b[j]) != c
      {
        assert b[j] in src && b[j] in a;
        var i :| 0 <= i < |a| && a[i] == b[j];
      }
      GatheredNone(src, b, c);
    }
  }

  lemma GatheredOf(src: Header, keys: seq<string>, i: int)
    requires IterationOrder(keys, src.Keys) && CanonicallyDistinct(src)
    requires 0 <= i < |keys|
    ensures Gathered(src, keys, Canonical(keys[i])) == src[keys[i]]
  {
    GatheredDistinct(src, keys);
  }

  lemma GatheredNone(src: Header, keys: seq<string>, c: string)
    requires IterationOrder(keys, src.Keys) && CanonicallyDistinct(src)
    requires forall i :: 0 <= i < |keys| ==> Canonical(keys[i]) != c
    ensures Gathered(src, keys, c) == []
  {
    GatheredDistinct(src, keys);
  }

  /** Keys that share a canonical form make the order matter: the values
      of `x-a` and `X-A` both land under `X-A`, in visiting order. */
  lemma CopyOrderMatters(lower: string, upper: string)
    requires lower == "x-a" && upper == "X-A"
    ensures var src: Header := map[lower := ["1"], upper := ["2"]];
            Values(AddKeys(map[], src, [lower, upper]), upper) == ["1", "2"]
            && Values(AddKeys(map[], src, [upper, lower]), upper) == ["2", "1"]
  {
    var src: Header := map[lower := ["1"], upper := ["2"]];
    SmallKeyCanonical();
    CopyPair(src, lower, upper, upper);
    CopyPair(src, upper, lower, upper);
  }

  /** Two keys with one canonical form, copied onto an empty header. */
  lemma CopyPair(src: Header, x: string, y: string, c: string)
    requires x in src && y in src && Canonical(x) == c && Canonical(y) == c
    ensures Values(AddKeys(map[], src, [x, y]), c) == src[x] + src[y]
  {
    var keys := [x, y];
    AddKeysValues(map[], src, keys);
    assert Values(AddKeys(map[], src, keys), c) == Values(map[], c) + Gathered(src, keys, c);
    assert keys[1..] == [y];
    assert Gathered(src, [y], c) == src[y] + Gathered(src, [], c);
  }

  lemma SmallKeyCanonical()
    ensures Canonical("x-a") == "X-A" && Canonical("X-A") == "X-A"
  {
  }

  lemma MapExtensional(m: Header, n: Header)
    requires forall k :: k in m <==> k in n
    requires forall k :: Values(m, k) == Values(n, k)
    ensures m == n
  {
    forall k | k in m
      ensures m[k] == n[k]
    {
      assert Values(m, k) == Values(n, k);
    }
  }

  /* ---------------------------------------------------------------------- */
  /* Cancellation                                                            */
  /* ---------------------------------------------------------------------- */

  /** A context.Context as far as the client looks at it before sending. */
  datatype Context = Background | Canceled | DeadlineExceeded {
    predicate Done()
    {
      !Background?
    }

    /** ctx.Err() rendered as text. */
    function Err(): string
    {
      match this
      case Background => ""
      case Canceled => "context canceled"
      case DeadlineExceeded => "context deadline exceeded"
    }
  }

  /* ---------------------------------------------------------------------- */
  /* Attached readers and form bodies                                        */
  /* ---------------------------------------------------------------------- */

  /** An io.Reader attached to a request: the bytes it yields before it
      reports either io.EOF (failure == None) or a read error. */
  datatype Stream = Stream(data: seq<byte>, failure: Option<string>)

  /** One part of a multipart/form-data body: a plain field (WriteField,
      CreateFormField) or a file (CreateFormFile). */
  datatype Part =
    | FormField(name: string, value: string)
    | FormFile(name: string, filename: string, content: seq<byte>)

  /** Attaching files as form parts in order, each part named `names[i]`
      with file name `filenames[i]` and the bytes of `readers[i]`; the first
      reader that fails stops the body with its error. */
  function FileParts(names: seq<string>, filenames: seq<string>, readers: seq<Stream>): (r: Result<seq<Part>>)
    requires |names| == |filenames| == |readers|
    ensures r.Ok? <==> forall i :: 0 <= i < |readers| ==> readers[i].failure.None?
    ensures r.Ok? ==> |r.value| == |readers|
    ensures r.Ok? ==> forall i :: 0 <= i < |readers| ==> r.value[i] == FormFile(names[i], filenames[i], readers[i].data)
    ensures r.Err? ==> exists i | 0 <= i < |readers| ::
                         readers[i].failure == Some(r.error) && forall j :: 0 <= j < i ==> readers[j].failure.None?
    ensures !r.Panic?
  {
    if readers == [] then Ok([])
    else if readers[0].failure.Some? then Err(readers[0].failure.value)
    else
      var rest := FileParts(names[1..], filenames[1..], readers[1..]);
      if rest.Ok? then Ok([FormFile(names[0], filenames[0], readers[0].data)] + rest.value)
      else
        assert exists i | 0 <= i < |readers| ::
                 readers[i].failure == Some(rest.error) && forall j :: 0 <= j < i ==> readers[j].failure.None? by {
          var i :| 0 <= i < |readers| - 1 && readers[1..][i].failure == Some(rest.error)
                   && forall j :: 0 <= j < i ==> readers[1..][j].failure.None?;
          assert readers[i + 1].failure == Some(rest.error);
          forall j | 0 <= j < i + 1
            ensures readers[j].failure.None?
          {
            if j > 0 {
              assert readers[1..][j - 1] == readers[j];
            }
          }
        }
        rest
  }

  /** The parts of a form whose leading `fields` are followed by one part
      per attachment; a failing reader stops the body, its error wrapped
      as "preparing file". */
  function FieldsThenFiles(fields: seq<Part>, names: seq<string>, filenames: seq<string>, readers: seq<Stream>): (r: Result<seq<Part>>)
    requires |names| == |filenames| == |readers|
    ensures r.Ok? <==> forall i :: 0 <= i < |readers| ==> readers[i].failure.None?
    ensures !r.Panic?
    ensures r.Err? ==>
              exists i | 0 <= i < |readers| :: readers[i].failure.Some?
                && r.error == Wrap("preparing file", readers[i].failure.value)
                && forall j :: 0 <= j < i ==> readers[j].failure.None?
    ensures r.Ok? ==>
              |r.value| == |fields| + |readers| && r.value[..|fields|] == fields
              && forall i :: 0 <= i < |readers| ==> r.value[|fields| + i] == FormFile(names[i], filenames[i], readers[i].data)
  {
    var files := FileParts(names, filenames, readers);
    if files.Ok? then
      assert (fields + files.value)[..|fields|] == fields;
      Ok(fields + files.value)
    else Err(Wrap("preparing file", files.error))
  }

  /** The parts of a form with one part per attachment first and the
      `fields` after them; a failing reader stops the body, its error
      wrapped as "preparing file". */
  function FilesThenFields(names: seq<string>, filenames: seq<string>, readers: seq<Stream>, fields: seq<Part>): (r: Result<seq<Part>>)
    requires |names| == |filenames| == |readers|
    ensures r.Ok? <==> forall i :: 0 <= i < |readers| ==> readers[i].failure.None?
    ensures !r.Panic?
    ensures r.Err? ==>
              exists i | 0 <= i < |readers| :: readers[i].failure.Some?
                && r.error == Wrap("preparing file", readers[i].failure.value)
                && forall j :: 0 <= j < i ==> readers[j].failure.None?
    ensures r.Ok? ==>
              |r.value| == |readers| + |fields| && r.value[|readers|..] == fields
              && forall i :: 0 <= i < |readers| ==> r.value[i] == FormFile(names[i], filenames[i], readers[i].data)
  {
    var files := FileParts(names, filenames, readers);
    if files.Ok? then
      assert (files.value + fields)[|readers|..] == fields;
      Ok(files.value + fields)
    else Err(Wrap("preparing file", files.error))
  }

  /** multipart.Writer.FormDataContentType for the writer's boundary. */
  function FormDataContentType(boundary: string): string
  {
    "multipart/form-data; boundary=" + boundary
  }

  const JsonContentType := "application/json; charset=utf-8"

  datatype Body = Text(text: string) | Form(parts: seq<Part>)

  /** The *http.Request the client builds and hands to the transport. */
  datatype Outgoing = Outgoing(methodName: string, url: string, header: Header, body: Body, close: bool)

  /* ---------------------------------------------------------------------- */
  /* What the server answers                                                 */
  /* ---------------------------------------------------------------------- */

  /** Decoding the response body as `{data, errors}`: it fails; or the
      body is the JSON literal `null`, which decodes without error and
      yields no value; or it yields the messages of the `errors` array in
      order. */
  datatype Envelope = Undecodable(reason: string) | NullBody | Decoded(errors: seq<string>)

  /** The outcome of one HTTP exchange as the client sees it. */
  datatype Reply =
    | TransportFailure(reason: string)
    | BodyUnreadable(reason: string)
    | Answered(status: int, envelope: Envelope)
}

=== FILE: json.dfy ===
/**
 * The JSON values the client sends and receives, and the parts of Go's
 * encoding/json the client's output depends on: string quoting with HTML
 * escaping, map keys written in ascending order, refusal of values JSON
 * cannot represent, and compaction of raw JSON text.
 */
module Json {
  import opened Common

  /** A value held in a Go `interface{}` that encoding/json may be asked to
      encode or has decoded. A number carries the literal text encoding/json
      prints for its float64; an object is a Go map, so its keys are distinct
      and unordered. `Unsupported` stands for a Go value encoding/json refuses
      (a func, a chan, a complex number), named by its Go type. */
  datatype Value =
    | Null
    | Bool(b: bool)
    | Number(literal: string)
    | Str(s: string)
    | Array(items: seq<Value>)
    | Object(members: map<string, Value>)
    | Unsupported(goType: string)

  /** No part of `v` is refused by encoding/json. */
  predicate Encodable(v: Value)
  {
    match v
    case Unsupported(_) => false
    case Array(items) => forall i :: 0 <= i < |items| ==> Encodable(items[i])
    case Object(m) => forall k :: k in m ==> Encodable(m[k])
    case _ => true
  }

  /* ---------------------------------------------------------------------- */
  /* String literals                                                         */
  /* ---------------------------------------------------------------------- */

  function HexDigit(d: nat): (c: char)
    requires d < 16
  {
    if d < 10 then (('0' as int) + d) as char else (('a' as int) + d - 10) as char
  }

  function HexValue(c: char): (r: Option<nat>)
    ensures r.Some? ==> r.value < 16
  {
    if '0' <= c <= '9' then Some((c as int) - ('0' as int))
    else if 'a' <= c <= 'f' then Some((c as int) - ('a' as int) + 10)
    else if 'A' <= c <= 'F' then Some((c as int) - ('A' as int) + 10)
    else None
  }

  lemma HexRoundTrip(d: nat)
    requires d < 16
    ensures HexValue(HexDigit(d)) == Some(d)
  {
  }

  /** Characters that encoding/json writes as a \u escape when HTML
      escaping is on (it is for json.Marshal and json.Encoder). */
  predicate HtmlSensitive(c: char)
  {
    c == '<' || c == '>' || c == '&' || c as int == 0x2028 || c as int == 0x2029
  }

  /** How encoding/json writes one character inside a string literal. */
  function EscapeChar(c: char): (r: string)
    ensures |r| > 0
  {
    if c == '"' then "\\\""
    else if c == '\\' then "\\\\"
    else if c == '\n' then "\\n"
    else if c == '\r' then "\\r"
    else if c == '\t' then "\\t"
    else if c < ' ' || c == '<' || c == '>' || c == '&' then
      "\\u00" + [HexDigit(c as int / 16), HexDigit(c as int % 16)]
    else if c as int == 0x2028 || c as int == 0x2029 then
      "\\u202" + [HexDigit(c as int % 16)]
    else [c]
  }

  function EscapeBody(s: string): string
  {
    if s == [] then [] else EscapeChar(s[0]) + EscapeBody(s[1..])
  }

  /** Escaping the first character, then the rest, before any suffix. */
  lemma EscapeBodyCons(s: string, u: string)
    requires s != []
    ensures EscapeBody(s) + u == EscapeChar(s[0]) + (EscapeBody(s[1..]) + u)
  {
  }

  lemma EscapeBodyLength(s: string)
    requires s != []
    ensures |EscapeBody(s)| == |EscapeChar(s[0])| + |EscapeBody(s[1..])|
  {
  }

  /** A Go string as a JSON string literal. */
  function Quote(s: string): (r: string)
    ensures |r| >= 2 && r[0] == '"' && r[|r| - 1] == '"'
  {
    "\"" + EscapeBody(s) + "\""
  }

  function Prepend(c: char, r: Option<string>): Option<string>
  {
    match r
    case None => None
    case Some(t) => Some([c] + t)
  }

  function Hex4(t: string): (r: Option<nat>)
    requires |t| == 4
    ensures r.Some? ==> r.value < 0x1_0000
  {
    match (HexValue(t[0]), HexValue(t[1]), HexValue(t[2]), HexValue(t[3]))
    case (Some(a), Some(b), Some(c), Some(d)) => Some(((a * 16 + b) * 16 + c) * 16 + d)
    case _ => None
  }

  /** The character a two-character escape `\e` stands for. */
  function ShortEscape(e: char): Option<char>
  {
    if e == '"' || e == '\\' || e == '/' then Some(e)
    else if e == 'n' then Some('\n')
    else if e == 'r' then Some('\r')
    else if e == 't' then Some('\t')
    else if e == 'b' then Some(8 as char)
    else if e == 'f' then Some(12 as char)
    else None
  }

  /** The character a `\uXXXX` escape stands for; a surrogate half is not
      a character on its own. */
  function UnicodeEscape(h: string): Option<char>
    requires |h| == 4
  {
    match Hex4(h)
    case Some(x) => if x < 0xD800 || 0xE000 <= x then Some(x as char) else None
    case None => None
  }

  /** The reading side of EscapeBody: the characters a JSON string literal's
      body (the text between its quotes) denotes, or None when it is not a
      well-formed body. Surrogate escapes are not decoded. */
  function Unescape(t: string): Option<string>
    decreases |t|
  {
    if t == [] then Some([])
    else if t[0] == '\\' then
      if |t| < 2 then None
      else if ShortEscape(t[1]).Some? then Prepend(ShortEscape(t[1]).value, Unescape(t[2..]))
      else if t[1] == 'u' && |t| >= 6 && UnicodeEscape(t[2..6]).Some? then
        Prepend(UnicodeEscape(t[2..6]).value, Unescape(t[6..]))
      else None
    else if t[0] == '"' || t[0] < ' ' then None
    else Prepend(t[0], Unescape(t[1..]))
  }

  lemma UnescapeShort(e: char, t: string)
    requires ShortEscape(e).Some?
    ensures Unescape(['\\', e] + t) == Prepend(ShortEscape(e).value, Unescape(t))
  {
    assert (['\\', e] + t)[2..] == t;
  }

  lemma UnescapeUnicode(h: string, t: string)
    requires |h| == 4 && UnicodeEscape(h).Some?
    ensures Unescape(['\\', 'u'] + h + t) == Prepend(UnicodeEscape(h).value, Unescape(t))
  {
    var w := ['\\', 'u'] + h + t;
    assert w[2..6] == h;
    assert w[6..] == t;
  }

  lemma UnescapePlain(c: char, t: string)
    requires c != '\\' && c != '"' && c >= ' '
    ensures Unescape([c] + t) == Prepend(c, Unescape(t))
  {
    assert ([c] + t)[1..] == t;
  }

  lemma UnescapeEscapeChar(c: char, t: string)
    ensures Unescape(EscapeChar(c) + t) == Prepend(c, Unescape(t))
  {
    if c == '"' || c == '\\' {
      UnescapeShort(c, t);
    } else if c == '\n' {
      UnescapeShort('n', t);
    } else if c == '\r' {
      UnescapeShort('r', t);
    } else if c == '\t' {
      UnescapeShort('t', t);
    } else if c < ' ' || c == '<' || c == '>' || c == '&' {
      var n := c as int;
      HexRoundTrip(n / 16);
      HexRoundTrip(n % 16);
      var h := ['0', '0', HexDigit(n / 16), HexDigit(n % 16)];
      assert Hex4(h) == Some(n);
      UnescapeUnicode(h, t);
      assert EscapeChar(c) == ['\\', 'u'] + h;
    } else if c as int == 0x2028 || c as int == 0x2029 {
      var n := c as int;
      HexRoundTrip(n % 16);
      var h := ['2', '0', '2', HexDigit(n % 16)];
      assert Hex4(h) == Some(n);
      UnescapeUnicode(h, t);
      assert EscapeChar(c) == ['\\', 'u'] + h;
    } else {
      UnescapePlain(c, t);
    }
  }

  /** Quoting loses nothing: the body of Quote(s) reads back as s. */
  lemma {:induction false} QuoteRoundTrip(s: string)
    ensures Unescape(EscapeBody(s)) == Some(s)
  {
    if s != [] {
      QuoteRoundTrip(s[1..]);
      UnescapeEscapeChar(s[0], EscapeBody(s[1..]));
      assert [s[0]] + s[1..] == s;
    }
  }

  /** Different strings are quoted differently. */
  lemma QuoteInjective(s: string, t: string)
    requires Quote(s) == Quote(t)
    ensures s == t
  {
    var qs := Quote(s);
    assert EscapeBody(s) == qs[1..|qs| - 1];
    assert EscapeBody(t) == qs[1..|qs| - 1];
    QuoteRoundTrip(s);
    QuoteRoundTrip(t);
  }

  /* ---------------------------------------------------------------------- */
  /* Encoding                                                                */
  /* ---------------------------------------------------------------------- */

  /** json.Marshal: an object's members are written in ascending key order,
      separated by ','; the first refused value aborts the encoding. */
  function Encode(v: Value): (r: Result<string>)
    ensures r.Ok? <==> Encodable(v)
    ensures r.Err? ==> UnsupportedPrefix <= r.error
    ensures !r.Panic?
    decreases v, 2, 0
  {
    match v
    case Null => Ok("null")
    case Bool(b) => Ok(if b then "true" else "false")
    case Number(literal) => Ok(literal)
    case Str(s) => Ok(Quote(s))
    case Array(items) => EncodeArray(v, items)
    case Object(m) => EncodeObject(v, m)
    case Unsupported(goType) => Err(UnsupportedPrefix + goType)
  }

  function EncodeArray(ghost parent: Value, items: seq<Value>): (r: Result<string>)
    requires forall x | x in items :: x < parent
    ensures r.Ok? <==> forall i :: 0 <= i < |items| ==> Encodable(items[i])
    ensures r.Err? ==> UnsupportedPrefix <= r.error
    ensures !r.Panic?
    decreases parent, 1, 0
  {
    var body := EncodeItems(parent, items);
    if body.Ok? then Ok("[" + body.value + "]") else body
  }

  function EncodeObject(ghost parent: Value, m: map<string, Value>): (r: Result<string>)
    requires forall k | k in m :: m[k] < parent
    ensures r.Ok? <==> forall k :: k in m ==> Encodable(m[k])
    ensures r.Ok? ==> |r.value| >= 2 && r.value[0] == '{' && r.value[|r.value| - 1] == '}'
    ensures r.Err? ==> UnsupportedPrefix <= r.error
    ensures !r.Panic?
    decreases parent, 1, 0
  {
    var keys := SortedKeys(m.Keys);
    var body := EncodeMembers(parent, m, keys);
    if body.Ok? then
      Ok("{" + body.value + "}")
    else
      assert exists i :: 0 <= i < |keys| && !Encodable(m[keys[i]]);
      body
  }

  const UnsupportedPrefix := "json: unsupported type: "

  function EncodeItems(ghost parent: Value, items: seq<Value>): (r: Result<string>)
    requires forall x | x in items :: x < parent
    ensures r.Ok? <==> forall i :: 0 <= i < |items| ==> Encodable(items[i])
    ensures r.Err? ==> UnsupportedPrefix <= r.error
    ensures !r.Panic?
    decreases parent, 0, |items|
  {
    if items == [] then Ok("")
    else
      assert items[0] in items;
      var head := Encode(items[0]);
      if !head.Ok? then head
      else if |items| == 1 then head
      else
        assert forall x | x in items[1..] :: x in items;
        var tail := EncodeItems(parent, items[1..]);
        if !tail.Ok? then tail else Ok(head.value + "," + tail.value)
  }

  function EncodeMembers(ghost parent: Value, m: map<string, Value>, keys: seq<string>): (r: Result<string>)
    requires forall k | k in keys :: k in m && m[k] < parent
    ensures r.Ok? <==> forall i :: 0 <= i < |keys| ==> Encodable(m[keys[i]])
    ensures r.Err? ==> UnsupportedPrefix <= r.error
    ensures !r.Panic?
    decreases parent, 0, |keys|
  {
    if keys == [] then Ok("")
    else
      assert keys[0] in keys;
      var head := Encode(m[keys[0]]);
      var member := Quote(keys[0]) + ":";
      if !head.Ok? then head
      else if |keys| == 1 then Ok(member + head.value)
      else
        assert forall k | k in keys[1..] :: k in keys;
        var tail := EncodeMembers(parent, m, keys[1..]);
        if !tail.Ok? then tail else Ok(member + head.value + "," + tail.value)
  }

  /** A Go map[string]interface{} written as a JSON object. */
  function EncodeMap(m: map<string, Value>): (r: Result<string>)
    ensures r.Ok? <==> forall k :: k in m ==> Encodable(m[k])
    ensures r.Ok? ==> |r.value| >= 2 && r.value[0] == '{' && r.value[|r.value| - 1] == '}'
  {
    Encode(Object(m))
  }

  lemma EncodeEmptyMap()
    ensures EncodeMap(map[]) == Ok("{}")
  {
    var m: map<string, Value> := map[];
    assert Encode(Object(m)) == EncodeObject(Object(m), m);
    assert m.Keys == {};
    assert SortedKeys(m.Keys) == [];
    assert EncodeMembers(Object(m), m, []) == Ok("");
    assert "{" + "" + "}" == "{}";
    assert EncodeObject(Object(m), m) == Ok("{" + "" + "}");
    assert EncodeMap(m) == Encode(Object(m));
  }

  lemma EncodeSingletonMap(k: string, v: Value)
    requires Encodable(v)
    ensures EncodeMap(map[k := v]) == Ok("{" + Quote(k) + ":" + Encode(v).value + "}")
  {
    var m := map[k := v];
    SingletonKeys(k);
    assert m.Keys == {k};
    SingletonMembers(m, k);
    var member := Quote(k) + ":" + Encode(v).value;
    assert Encode(Object(m)) == EncodeObject(Object(m), m) == Ok("{" + member + "}");
    assert "{" + member + "}" == "{" + Quote(k) + ":" + Encode(v).value + "}";
  }

  lemma SingletonKeys(k: string)
    ensures SortedKeys({k}) == [k]
  {
    var ks := SortedKeys({k});
    assert k in ks;
  }

  lemma SingletonMembers(m: map<string, Value>, k: string)
    requires k in m && Encodable(m[k])
    ensures EncodeMembers(Object(m), m, [k]) == Ok(Quote(k) + ":" + Encode(m[k]).value)
  {
    assert [k][0] == k;
  }

  /* ---------------------------------------------------------------------- */
  /* Compaction of raw JSON text (json.Marshal of a json.RawMessage)         */
  /* ---------------------------------------------------------------------- */

  /** The scanner's position relative to string literals. */
  datatype Lexical = Outside | InString | AfterBackslash

  function NextLexical(st: Lexical, c: char): Lexical
  {
    match st
    case Outside => if c == '"' then InString else Outside
    case InString => if c == '\\' then AfterBackslash else if c == '"' then Outside else InString
    case AfterBackslash => InString
  }

  predicate IsJsonSpace(c: char)
  {
    c == ' ' || c == '\t' || c == '\n' || c == '\r'
  }

  /** What compaction writes for one character read in state `st`. */
  function CompactChar(st: Lexical, c: char): string
  {
    if HtmlSensitive(c) then EscapeChar(c)
    else if st == Outside && IsJsonSpace(c) then ""
    else [c]
  }

  function CompactFrom(t: string, st: Lexical): string
  {
    if t == [] then "" else CompactChar(st, t[0]) + CompactFrom(t[1..], NextLexical(st, t[0]))
  }

  function StateAfter(t: string, st: Lexical): Lexical
  {
    if t == [] then st else StateAfter(t[1..], NextLexical(st, t[0]))
  }

  /** Raw JSON with the whitespace between tokens dropped and HTML
      characters escaped, as json.Marshal re-emits a json.RawMessage. */
  function Compact(raw: string): string
  {
    CompactFrom(raw, Outside)
  }

  lemma {:induction false} CompactFromAppend(a: string, b: string, st: Lexical)
    ensures CompactFrom(a + b, st) == CompactFrom(a, st) + CompactFrom(b, StateAfter(a, st))
  {
    if a != [] {
      assert (a + b)[0] == a[0];
      assert (a + b)[1..] == a[1..] + b;
      CompactFromAppend(a[1..], b, NextLexical(st, a[0]));
    } else {
      assert a + b == b;
    }
  }

  /** Text without quotes, backslashes, whitespace or HTML characters passes
      through compaction unchanged, inside or outside a string literal. */
  lemma {:induction false} CompactPlain(t: string, st: Lexical)
    requires st != AfterBackslash
    requires forall i :: 0 <= i < |t| ==> !HtmlSensitive(t[i]) && !IsJsonSpace(t[i]) && t[i] != '"' && t[i] != '\\'
    ensures CompactFrom(t, st) == t && StateAfter(t, st) == st
  {
    if t != [] {
      CompactPlain(t[1..], st);
    }
  }

  /** An HTML-sensitive character is written as `\u` and four hexadecimal
      digits. */
  lemma HtmlEscapeShape(c: char)
    requires HtmlSensitive(c)
    ensures var w := EscapeChar(c);
            && |w| == 6 && w[0] == '\\' && w[1] == 'u'
            && forall i :: 2 <= i < 6 ==> '0' <= w[i] <= '9' || 'a' <= w[i] <= 'f'
  {
  }

  /** The two characters `\u` compact to themselves, from any state but the
      one after a backslash. */
  lemma BackslashU(st: Lexical)
    ensures CompactFrom(['\\', 'u'], st) == ['\\', 'u']
    ensures StateAfter(['\\', 'u'], st) == NextLexical(NextLexical(st, '\\'), 'u')
  {
    var a := ['\\', 'u'];
    assert a[1..] == ['u'] && ['u'][1..] == [];
  }

  /** Re-reading what one character compacted to writes it again and ends
      in the state the character itself led to. */
  lemma CompactCharStable(st: Lexical, c: char)
    ensures CompactFrom(CompactChar(st, c), st) == CompactChar(st, c)
    ensures CompactChar(st, c) != "" ==> StateAfter(CompactChar(st, c), st) == NextLexical(st, c)
  {
    var w := CompactChar(st, c);
    if HtmlSensitive(c) {
      HtmlEscapeShape(c);
      var st2 := NextLexical(NextLexical(st, '\\'), 'u');
      assert st2 == NextLexical(st, c);
      CompactPlain(w[2..], st2);
      assert w[..2] == ['\\', 'u'];
      BackslashU(st);
      CompactFromAppend(w[..2], w[2..], st);
      StateAfterAppend(w[..2], w[2..], st);
      assert w[..2] + w[2..] == w;
    }
  }

  lemma {:induction false} CompactFromIdempotent(t: string, st: Lexical)
    ensures CompactFrom(CompactFrom(t, st), st) == CompactFrom(t, st)
    ensures StateAfter(CompactFrom(t, st), st) == StateAfter(t, st)
    decreases |t|
  {
    if t != [] {
      var c := t[0];
      var w := CompactChar(st, c);
      var st' := NextLexical(st, c);
      var rest := CompactFrom(t[1..], st');
      CompactFromIdempotent(t[1..], st');
      CompactCharStable(st, c);
      CompactFromAppend(w, rest, st);
      StateAfterAppend(w, rest, st);
      if w == "" {
        assert st == Outside && IsJsonSpace(c);
        assert st' == st;
      }
    }
  }

  lemma {:induction false} StateAfterAppend(a: string, b: string, st: Lexical)
    ensures StateAfter(a + b, st) == StateAfter(b, StateAfter(a, st))
  {
    if a != [] {
      assert (a + b)[0] == a[0];
      assert (a + b)[1..] == a[1..] + b;
      StateAfterAppend(a[1..], b, NextLexical(st, a[0]));
    } else {
      assert a + b == b;
    }
  }

  /** Compacting compacted text changes nothing. */
  lemma CompactIdempotent(raw: string)
    ensures Compact(Compact(raw)) == Compact(raw)
  {
    CompactFromIdempotent(raw, Outside);
  }
}

=== FILE: jsonrun.dfy ===
/**
 * json.go: runWithJSON of the retrying client variant, which encodes the
 * query and variables as one JSON document and copies the caller's
 * headers with Request.CopyHeaders. The request is built up to the point
 * where it is handed to the retrying transport.
 */
module JsonRun {
  import opened Common
  import opened Json
  import opened Http
  import opened Wire
  import opened Graphql
  import opened Requests

  /** runWithJSON up to the transport: the `{query, variables}` document
      as the body, the JSON content type and Accept first, then every
      header of the request appended in the order Go's map iteration
      visits them (`order`). */
  function RunWithJSON(c: Client, req: Request, order: seq<string>): (r: Result<Outgoing>)
    requires IterationOrder(order, req.header.Keys)
    ensures r.Ok? <==> VariablesEncodable(req.vars)
    ensures r.Err? ==> Wrap("encode body", UnsupportedPrefix) <= r.error
    ensures !r.Panic?
    ensures r.Ok? ==> r.value.methodName == "POST" && r.value.url == c.endpoint && r.value.close == c.closeReq
    ensures r.Ok? ==> r.value.body.Text? && QueryBody(req.q, req.vars) == Ok(r.value.body.text)
    ensures r.Ok? ==> Get(r.value.header, "Content-Type") == JsonContentType && Get(r.value.header, "Accept") == JsonContentType
    ensures r.Ok? ==> forall k :: Values(r.value.header, k) == Values(JsonDefaults(), k) + Gathered(req.header, order, k)
    ensures r.Ok? && CanonicalKeys(req.header) ==>
              forall k :: Values(r.value.header, k) == Values(JsonDefaults(), k) + Values(req.header, k)
  {
    ContentTypeCanonical();
    AcceptCanonical();
    var body := QueryBody(req.q, req.vars);
    if body.Ok? then
      Ok(Outgoing("POST", c.endpoint, CopyHeaders(req, JsonDefaults(), order), Text(body.value), c.closeReq))
    else Err(Wrap("encode body", body.error))
  }

  /** Both clients build the same JSON request for the same visiting
      order of the caller's headers. */
  lemma SameAsGraphqlClient(c: Client, req: Request, order: seq<string>)
    requires IterationOrder(order, req.header.Keys)
    ensures RunWithJSON(c, req, order) == JsonRequest(c, req, order)
  {
  }
}

=== FILE: multipart.dfy ===
/**
 * multipart.go: runWithPostFields of the retrying client variant, which
 * lays the form out as the GraphQL multipart request specification does:
 * numbered file parts, then an `operations` document and a `map` field.
 * The request is built up to the point where it is handed to the retrying
 * transport.
 */
module Multipart {
  import opened Common
  import opened Json
  import opened Http
  import opened Wire
  import opened Graphql
  import opened Requests

  /** The decimal part name of the attachment at 0-based position `i`. */
  function PartName(i: nat): string
  {
    NatToString(i + 1)
  }

  function PartNames(n: nat): (r: seq<string>)
    ensures |r| == n && forall i :: 0 <= i < n ==> r[i] == PartName(i)
  {
    seq(n, i requires 0 <= i < n => PartName(i))
  }

  /** What the call leaves behind when it gets as far as the transport:
      the request it hands over, and the caller's own header map, which
      the call writes the form content type into. */
  datatype Built = Built(sent: Outgoing, callerHeader: Header)

  /** The parts of the form: the numbered file parts, then `operations`
      and `map` in the order `operationsFirst` picks. */
  function PostParts(req: Request, operations: string, operationsFirst: bool): (r: Result<seq<Part>>)
    ensures r.Ok? <==> forall i :: 0 <= i < |req.files| ==> req.files[i].reader.failure.None?
    ensures !r.Panic?
    ensures r.Err? ==>
              exists i | 0 <= i < |req.files| :: req.files[i].reader.failure.Some?
                && r.error == Wrap("preparing file", req.files[i].reader.failure.value)
                && forall j :: 0 <= j < i ==> req.files[j].reader.failure.None?
    ensures r.Ok? ==> |r.value| == |req.files| + 2
    ensures r.Ok? ==> forall i :: 0 <= i < |req.files| ==>
              r.value[i] == FormFile(PartName(i), req.files[i].name, req.files[i].reader.data)
    ensures r.Ok? ==>
              var fields := [FormField("operations", operations), FormField("map", FileMap(req.files))];
              r.value[|req.files|..] == if operationsFirst then fields else [fields[1], fields[0]]
  {
    var ops := FormField("operations", operations);
    var fileMap := FormField("map", FileMap(req.files));
    FilesThenFields(PartNames(|req.files|), FileNames(req.files), Readers(req.files),
                    if operationsFirst then [ops, fileMap] else [fileMap, ops])
  }

  /** The request that carries the form `parts`: the content type is set
      on the caller's header, and the outgoing header holds the form
      defaults followed by every value of the caller's header, copied in
      the order `order` Go's map iteration visits the caller's keys in. */
  function PostForm(c: Client, req: Request, boundary: string, order: seq<string>, parts: seq<Part>): (b: Built)
    requires IterationOrder(order, req.header.Keys + {"Content-Type"})
    ensures b.sent.methodName == "POST" && b.sent.url == c.endpoint && b.sent.close == c.closeReq
    ensures b.sent.body == Form(parts)
    ensures b.callerHeader.Keys == req.header.Keys + {"Content-Type"}
    ensures Values(b.callerHeader, "Content-Type") == [FormDataContentType(boundary)]
    ensures forall k :: k != "Content-Type" ==> Values(b.callerHeader, k) == Values(req.header, k)
    ensures forall k :: Values(b.sent.header, k) == Values(FormDefaults(boundary), k) + Gathered(b.callerHeader, order, k)
    ensures CanonicalKeys(req.header) ==>
              forall k :: Values(b.sent.header, k) == Values(FormDefaults(boundary), k) + Values(b.callerHeader, k)
  {
    ContentTypeCanonical();
    var caller := Set(req.header, "Content-Type", FormDataContentType(boundary));
    AddSetKeepCanonicalKeys(req.header, "Content-Type", FormDataContentType(boundary));
    Built(Outgoing("POST", c.endpoint, WithCallerHeader(FormDefaults(boundary), caller, order), Form(parts), c.closeReq), caller)
  }

  /** runWithPostFields up to the transport. The operations document comes
      first and its error is returned as it is; then one file part per
      attachment named by its 1-based position, the first failing reader
      stopping the body; then the `operations` and `map` fields, in the
      order Go's map iteration picks (`operationsFirst`). The content type
      is set on the caller's header, and the outgoing request starts from
      the form defaults before the caller's header is copied onto it, its
      keys visited in the order `order`. */
  function RunWithPostFields(c: Client, req: Request, boundary: string, operationsFirst: bool, order: seq<string>): (r: Result<Built>)
    requires IterationOrder(order, req.header.Keys + {"Content-Type"})
    ensures r.Panic? <==> OperationName(req.q).Panic?
    ensures OperationsJSON(req).Err? ==> r == Err(OperationsJSON(req).error)
    ensures r.Ok? <==> OperationsJSON(req).Ok? && forall i :: 0 <= i < |req.files| ==> req.files[i].reader.failure.None?
    ensures r.Err? && OperationsJSON(req).Ok? ==>
              exists i | 0 <= i < |req.files| :: req.files[i].reader.failure.Some?
                && r.error == Wrap("preparing file", req.files[i].reader.failure.value)
                && forall j :: 0 <= j < i ==> req.files[j].reader.failure.None?
    ensures r.Ok? ==> r.value.sent.methodName == "POST" && r.value.sent.url == c.endpoint && r.value.sent.close == c.closeReq
    ensures r.Ok? ==> r.value.sent.body.Form? && |r.value.sent.body.parts| == |req.files| + 2
    ensures r.Ok? ==> forall i :: 0 <= i < |req.files| ==>
              r.value.sent.body.parts[i] == FormFile(PartName(i), req.files[i].name, req.files[i].reader.data)
    ensures r.Ok? ==>
              var fields := [FormField("operations", OperationsJSON(req).value), FormField("map", FileMap(req.files))];
              r.value.sent.body.parts[|req.files|..] == if operationsFirst then fields else [fields[1], fields[0]]
    ensures r.Ok? ==> Values(r.value.callerHeader, "Content-Type") == [FormDataContentType(boundary)]
    ensures r.Ok? ==> forall k :: k != "Content-Type" ==> Values(r.value.callerHeader, k) == Values(req.header, k)
    ensures r.Ok? ==> r.value.callerHeader.Keys == req.header.Keys + {"Content-Type"}
    ensures r.Ok? ==> forall k :: Values(r.value.sent.header, k) == Values(FormDefaults(boundary), k) + Gathered(r.value.callerHeader, order, k)
    ensures r.Ok? && CanonicalKeys(req.header) ==>
              forall k :: Values(r.value.sent.header, k) == Values(FormDefaults(boundary), k) + Values(r.value.callerHeader, k)
  {
    match OperationsJSON(req)
    case Panic(p) => Panic(p)
    case Err(e) => Err(e)
    case Ok(operations) =>
      match PostParts(req, operations, operationsFirst)
      case Ok(parts) => Ok(PostForm(c, req, boundary, order, parts))
      case Err(e) => Err(e)
      case Panic(p) => Panic(p)
  }

  /** Because the content type is written into the caller's header and
      that header is then copied onto the request, the outgoing request
      carries the form content type twice, whatever content type a caller
      header filled through Add and Set had. */
  lemma ContentTypeTwice(c: Client, req: Request, boundary: string, operationsFirst: bool, order: seq<string>)
    requires IterationOrder(order, req.header.Keys + {"Content-Type"})
    requires CanonicalKeys(req.header)
    requires RunWithPostFields(c, req, boundary, operationsFirst, order).Ok?
    ensures Values(RunWithPostFields(c, req, boundary, operationsFirst, order).value.sent.header, "Content-Type")
            == [FormDataContentType(boundary), FormDataContentType(boundary)]
  {
    var b := RunWithPostFields(c, req, boundary, operationsFirst, order).value;
    assert Values(b.sent.header, "Content-Type") == Values(FormDefaults(boundary), "Content-Type") + Values(b.callerHeader, "Content-Type");
  }

  /** The caller's Accept values follow the JSON default. */
  lemma AcceptAfterDefault(c: Client, req: Request, boundary: string, operationsFirst: bool, order: seq<string>)
    requires IterationOrder(order, req.header.Keys + {"Content-Type"})
    requires CanonicalKeys(req.header)
    requires RunWithPostFields(c, req, boundary, operationsFirst, order).Ok?
    ensures Values(RunWithPostFields(c, req, boundary, operationsFirst, order).value.sent.header, "Accept")
            == [JsonContentType] + Values(req.header, "Accept")
  {
    var b := RunWithPostFields(c, req, boundary, operationsFirst, order).value;
    assert Values(b.sent.header, "Accept") == Values(FormDefaults(boundary), "Accept") + Values(b.callerHeader, "Accept");
  }

  lemma {:induction false} ConcatContains(ss: seq<string>, i: nat)
    requires i < |ss|
    ensures OccursAt(Concat(ss), ss[i], |Concat(ss[..i])|)
    decreases i
  {
    if i == 0 {
      assert ss[..0] == [];
      assert Concat(ss)[..|ss[0]|] == ss[0];
    } else {
      ConcatContains(ss[1..], i - 1);
      assert ss[1..][i - 1] == ss[i];
      assert ss[..i][1..] == ss[1..][..i - 1];
      var k := |Concat(ss[1..][..i - 1])|;
      assert Concat(ss[..i]) == ss[0] + Concat(ss[1..][..i - 1]);
      assert Concat(ss)[|ss[0]| + k..|ss[0]| + k + |ss[i]|] == Concat(ss[1..])[k..k + |ss[i]|];
    }
  }

  /** The `map` field points at the file parts: for every attachment it
      holds an entry keyed by that attachment's part name and listing its
      field. */
  lemma MapNamesEveryPart(files: seq<File>, i: nat)
    requires i < |files|
    ensures Contains(FileMap(files), "{\"" + PartName(i) + "\": [\"" + files[i].field + "\"]}")
  {
    FileMapIsConcat(files);
    ConcatContains(FileMapEntries(files), i);
  }

  /** The file of multipart_test.go arrives as part "1" under its own file
      name, before the two fields. */
  lemma OneFileExample(c: Client, q: string, boundary: string, field: string, name: string, data: seq<byte>)
    requires OperationName(q).Ok?
    ensures RunWithPostFields(c, AttachFile(NewRequest(q), field, name, Stream(data, None)), boundary, true, ["Content-Type"]).Ok?
    ensures RunWithPostFields(c, AttachFile(NewRequest(q), field, name, Stream(data, None)), boundary, true, ["Content-Type"]).value.sent.body.parts[0]
            == FormFile("1", name, data)
  {
    assert OperationsJSON(NewRequest(q)).Ok? by {
      assert EncodeVariables(None) == Ok("null");
    }
    assert PartName(0) == "1";
  }
}

=== FILE: requests.dfy ===
/**
 * request.go: the Request variant the spec-style multipart transport works
 * with. Its fields, NewRequest, Var and File are the same as graphql.go's
 * and are taken from module Graphql; what request.go adds is the operation
 * name read off the query, the `operations` document, the `map` field and
 * header copying.
 */
module Requests {
  import opened Common
  import opened Json
  import opened Http
  import opened Wire
  import opened Graphql

  /* ---------------------------------------------------------------------- */
  /* Header copying                                                          */
  /* ---------------------------------------------------------------------- */

  /** Request.CopyHeaders: every value of every header key of the request
      is added to `target` with Header.Add, the keys visited in the order
      `order` Go's map iteration picks. Each canonical name ends up with the
      target's values followed by what the request's keys of that canonical
      form hold, and nothing already in `target` is removed. */
  function CopyHeaders(req: Request, target: Header, order: seq<string>): (r: Header)
    requires IterationOrder(order, req.header.Keys)
    ensures forall k :: Values(r, k) == Values(target, k) + Gathered(req.header, order, k)
    ensures CanonicalKeys(req.header) ==> forall k :: Values(r, k) == Values(target, k) + Values(req.header, k)
    ensures forall k :: k in target ==> k in r && Values(target, k) <= Values(r, k)
  {
    WithCallerHeader(target, req.header, order)
  }

  /* ---------------------------------------------------------------------- */
  /* The operation name                                                      */
  /* ---------------------------------------------------------------------- */

  /** `\s` in Go's regular expressions: space, tab, newline, form feed and
      carriage return. */
  predicate IsSpace(c: char)
  {
    c == ' ' || c == '\t' || c == '\n' || c as int == 12 || c == '\r'
  }

  /** One way the pattern `(mutation|query)\s*(.*?)\(` matches `s` from
      position `i`: the keyword is s[i..j], the blanks s[j..m], the second
      group s[m..p] (`.` does not match a newline) and s[p] is the
      parenthesis. */
  predicate SplitAt(s: string, i: int, j: int, m: int, p: int)
  {
    0 <= i <= j <= m <= p < |s|
    && (s[i..j] == "mutation" || s[i..j] == "query")
    && (forall t :: j <= t < m ==> IsSpace(s[t]))
    && (forall t :: m <= t < p ==> s[t] != '\n')
    && s[p] == '('
  }

  ghost predicate MatchesAt(s: string, i: int)
  {
    exists j, m, p :: SplitAt(s, i, j, m, p)
  }

  /** The match Go's leftmost-first regular expressions report: the
      leftmost start, and among the ways to match there, the most blanks
      (`\s*` is greedy) and then the nearest parenthesis (`.*?` is lazy). */
  ghost predicate Chosen(s: string, i: int, j: int, m: int, p: int)
  {
    SplitAt(s, i, j, m, p)
    && (forall i' :: 0 <= i' < i ==> !MatchesAt(s, i'))
    && forall j', m', p' :: SplitAt(s, i, j', m', p') ==> m' < m || (m' == m && p <= p')
  }

  /** Where the keyword starting at `i` ends, if one starts there. */
  function KeywordEnd(s: string, i: nat): (r: Option<nat>)
    requires i <= |s|
    ensures r.Some? ==> i <= r.value <= |s| && (s[i..r.value] == "mutation" || s[i..r.value] == "query")
    ensures r.None? ==> forall j :: i <= j <= |s| ==> s[i..j] != "mutation" && s[i..j] != "query"
  {
    if "mutation" <= s[i..] then Some(i + 8)
    else if "query" <= s[i..] then Some(i + 5)
    else
      assert forall j :: i <= j <= |s| ==> s[i..j] != "mutation" && s[i..j] != "query" by {
        forall j | i <= j <= |s|
          ensures s[i..j] != "mutation" && s[i..j] != "query"
        {
          assert s[i..j] <= s[i..];
        }
      }
      None
  }

  /** The end of the run of blanks starting at `k`. */
  function SpaceEnd(s: string, k: nat): (r: nat)
    requires k <= |s|
    ensures k <= r <= |s|
    ensures forall t :: k <= t < r ==> IsSpace(s[t])
    ensures r == |s| || !IsSpace(s[r])
    decreases |s| - k
  {
    if k < |s| && IsSpace(s[k]) then SpaceEnd(s, k + 1) else k
  }

  /** The first '(' from `k` on, unless a newline or the end comes first. */
  function ParenAt(s: string, k: nat): (r: Option<nat>)
    requires k <= |s|
    ensures r.Some? ==> k <= r.value < |s| && s[r.value] == '('
    ensures r.Some? ==> forall t :: k <= t < r.value ==> s[t] != '(' && s[t] != '\n'
    ensures r.None? ==> forall p :: k <= p < |s| && s[p] == '(' ==> exists t :: k <= t < p && s[t] == '\n'
    decreases |s| - k
  {
    if k == |s| then None
    else if s[k] == '(' then Some(k)
    else if s[k] == '\n' then None
    else ParenAt(s, k + 1)
  }

  /** The second group when the pattern matches from `i`, by the priority
      rules of Chosen. */
  function MatchAt(s: string, i: nat): Option<string>
    requires i <= |s|
  {
    match KeywordEnd(s, i)
    case None => None
    case Some(j) =>
      var m := SpaceEnd(s, j);
      match ParenAt(s, m)
      case None => None
      case Some(p) => Some(s[m..p])
  }

  /** The keywords cannot both start at one position. */
  lemma KeywordUnique(s: string, i: int, j: int, j': int)
    requires 0 <= i <= j <= |s| && 0 <= i <= j' <= |s|
    requires s[i..j] == "mutation" || s[i..j] == "query"
    requires s[i..j'] == "mutation" || s[i..j'] == "query"
    ensures j == j'
  {
    assert s[i..j][0] == s[i] == s[i..j'][0];
  }

  /** MatchAt finds a match exactly when the pattern matches from `i`, and
      then the one with the most blanks and the nearest parenthesis. */
  lemma MatchAtSound(s: string, i: nat)
    requires i <= |s|
    ensures MatchAt(s, i).Some? <==> MatchesAt(s, i)
    ensures MatchAt(s, i).Some? ==>
              exists j, m, p :: SplitAt(s, i, j, m, p) && MatchAt(s, i).value == s[m..p]
                && forall j', m', p' :: SplitAt(s, i, j', m', p') ==> m' < m || (m' == m && p <= p')
  {
    match KeywordEnd(s, i)
    case None =>
      forall j, m, p | SplitAt(s, i, j, m, p)
        ensures false
      {
      }
    case Some(j) =>
      var m := SpaceEnd(s, j);
      forall j', m', p' | SplitAt(s, i, j', m', p')
        ensures m' <= m && m <= p' && ParenAt(s, m).Some? && (m' == m ==> ParenAt(s, m).value <= p')
      {
        KeywordUnique(s, i, j, j');
      }
      match ParenAt(s, m)
      case None =>
      case Some(p) =>
        assert SplitAt(s, i, j, m, p);
  }

  /** The leftmost position from `i` on where the pattern matches, and what
      the second group holds there. */
  function Search(s: string, i: nat): (r: Option<string>)
    requires i <= |s|
    ensures r.Some? ==> exists x :: i <= x <= |s| && MatchAt(s, x) == r
                          && forall y :: i <= y < x ==> MatchAt(s, y).None?
    ensures r.None? ==> forall x :: i <= x <= |s| ==> MatchAt(s, x).None?
    decreases |s| - i
  {
    if MatchAt(s, i).Some? then MatchAt(s, i)
    else if i == |s| then None
    else Search(s, i + 1)
  }

  /** What indexing the missing submatch slice makes the runtime report. */
  const NoOperation := "runtime error: index out of range [2] with length 0"

  /** Request.OperationName: the second group of the leftmost match of
      `(mutation|query)\s*(.*?)\(` in the query; a query the pattern does
      not match makes the call panic. */
  function OperationName(q: string): (r: Result<string>)
    ensures !r.Err?
  {
    match Search(q, 0)
    case Some(name) => Ok(name)
    case None => Panic(NoOperation)
  }

  /** The name is what the leftmost-first match of the pattern captures. */
  lemma OperationNameIsChosenMatch(q: string)
    requires OperationName(q).Ok?
    ensures exists i, j, m, p :: Chosen(q, i, j, m, p) && OperationName(q).value == q[m..p]
  {
    var x :| 0 <= x <= |q| && MatchAt(q, x) == Search(q, 0) && forall y :: 0 <= y < x ==> MatchAt(q, y).None?;
    MatchAtSound(q, x);
    var j, m, p :| SplitAt(q, x, j, m, p) && MatchAt(q, x).value == q[m..p]
                   && forall j', m', p' :: SplitAt(q, x, j', m', p') ==> m' < m || (m' == m && p <= p');
    forall y | 0 <= y < x
      ensures !MatchesAt(q, y)
    {
      MatchAtSound(q, y);
    }
    assert Chosen(q, x, j, m, p);
  }

  /** The call panics exactly when the pattern matches nowhere in the query. */
  lemma OperationNamePanicsIffNoMatch(q: string)
    ensures OperationName(q).Panic? <==> forall i :: 0 <= i <= |q| ==> !MatchesAt(q, i)
  {
    if OperationName(q).Panic? {
      forall i | 0 <= i <= |q|
        ensures !MatchesAt(q, i)
      {
        MatchAtSound(q, i);
      }
    } else {
      var x :| 0 <= x <= |q| && MatchAt(q, x) == Search(q, 0);
      MatchAtSound(q, x);
    }
  }

  /** The mutation of multipart_test.go is named `test`; `query {}` has no
      parenthesis, so asking for its name panics. */
  lemma OperationNameExamples()
    ensures OperationName("mutation test()") == Ok("test")
    ensures OperationName("query {}").Panic?
  {
    var s := "mutation test()";
    assert KeywordEnd(s, 0) == Some(8);
    assert SpaceEnd(s, 9) == 9;
    assert SpaceEnd(s, 8) == 9;
    assert ParenAt(s, 13) == Some(13);
    assert ParenAt(s, 9) == Some(13);
    assert s[9..13] == "test";
    var t := "query {}";
    assert SpaceEnd(t, 6) == 6;
    assert SpaceEnd(t, 5) == 6;
    assert ParenAt(t, 6) == None;
    forall x | 0 <= x <= |t|
      ensures MatchAt(t, x).None?
    {
      if x > 0 {
        assert t[x..] == t[x..];
      }
    }
  }

  /* ---------------------------------------------------------------------- */
  /* The operations document                                                 */
  /* ---------------------------------------------------------------------- */

  const NameOpen := "{\"operationName\":\""
  const QueryKey := ",\"query\":"

  /** Request.OperationsJSON: json.Marshal of the struct with fields
      operationName, variables and query, in that order and without a
      trailing newline. The name is taken before marshalling, so a query
      without a name panics before variables are looked at; a variable
      json cannot encode is the marshalling error. */
  function OperationsJSON(req: Request): (r: Result<string>)
    ensures r.Panic? <==> OperationName(req.q).Panic?
    ensures r.Err? <==> OperationName(req.q).Ok? && !VariablesEncodable(req.vars)
    ensures r.Err? ==> UnsupportedPrefix <= r.error
    ensures r.Ok? ==> NameOpen <= r.value && r.value[|r.value| - 1] == '}'
  {
    match OperationName(req.q)
    case Panic(p) => Panic(p)
    case Ok(name) =>
      match EncodeVariables(req.vars)
      case Ok(v) => Ok(OperationsOf(name, v, req.q))
      case Err(e) => Err(e)
  }

  function OperationsOf(name: string, variables: string, q: string): string
  {
    NameOpen + EscapeBody(name) + "\"" + AfterName(variables, q)
  }

  function AfterName(variables: string, q: string): string
  {
    VariablesKey + variables + QueryKey + Quote(q) + "}"
  }

  /** An operations document read back: the name, the raw variables JSON
      and the query. */
  datatype Operations = Operations(operationName: string, variables: string, query: string)

  /** Every quote in the text is preceded by a backslash. */
  ghost predicate QuotesEscaped(e: string)
  {
    (e != [] ==> e[0] != '"')
    && forall x, y :: 0 <= y < x < |e| && y == x - 1 && e[x] == '"' ==> e[y] == '\\'
  }

  lemma {:induction false} EscapeBodyQuotesEscaped(s: string)
    ensures QuotesEscaped(EscapeBody(s))
  {
    if s != [] {
      EscapeBodyQuotesEscaped(s[1..]);
      var a := EscapeChar(s[0]);
      var b := EscapeBody(s[1..]);
      assert QuotesEscaped(a) by {
        if s[0] == '"' {
          assert a == "\\\"";
        } else {
          assert forall x :: 0 <= x < |a| ==> a[x] != '"';
        }
      }
      forall x, y | 0 <= y < x < |a + b| && y == x - 1 && (a + b)[x] == '"'
        ensures (a + b)[y] == '\\'
      {
        if x > |a| {
          assert b[x - |a|] == '"';
          assert (a + b)[y] == b[y - |a|];
        }
      }
    }
  }

  /** The last quote not preceded by a backslash: where a literal opens,
      read from its end. */
  function LastOpenQuote(t: string): (r: Option<nat>)
    ensures r.Some? ==> r.value < |t| && t[r.value] == '"'
    decreases |t|
  {
    if t == [] then None
    else
      var x := |t| - 1;
      if t[x] == '"' && (x == 0 || t[x - 1] != '\\') then Some(x)
      else LastOpenQuote(t[..x])
  }

  lemma {:induction false} LastOpenQuoteBefore(p: string, e: string)
    requires QuotesEscaped(e)
    requires p == [] || p[|p| - 1] != '\\'
    ensures LastOpenQuote(p + "\"" + e) == Some(|p|)
    decreases |e|
  {
    if e == [] {
      assert p + "\"" + e == p + "\"";
    } else {
      QuotesEscapedPrefix(e);
      LastOpenQuoteBefore(p, e[..|e| - 1]);
      DropEscapedLast(p + "\"", e);
    }
  }

  lemma QuotesEscapedPrefix(e: string)
    requires QuotesEscaped(e) && e != []
    ensures QuotesEscaped(e[..|e| - 1])
  {
    var e' := e[..|e| - 1];
    forall x, y | 0 <= y < x < |e'| && y == x - 1 && e'[x] == '"'
      ensures e'[y] == '\\'
    {
      assert e[x] == '"';
    }
  }

  /** The last character of escaped text never opens a literal. */
  lemma DropEscapedLast(w: string, e: string)
    requires QuotesEscaped(e) && e != []
    ensures LastOpenQuote(w + e) == LastOpenQuote(w + e[..|e| - 1])
  {
    var t := w + e;
    var x := |t| - 1;
    var c := e[|e| - 1];
    assert t[x] == c;
    assert t[..x] == w + e[..|e| - 1];
    assert |e| == 1 ==> c == e[0];
    if c == '"' {
      var y := |e| - 2;
      assert e[y] == '\\';
      assert t[x - 1] == e[y];
    }
  }

  /** Reading an operations document: the name literal from the front,
      then what follows it. */
  function ReadOperations(t: string): Option<Operations>
  {
    if !(NameOpen <= t) then None
    else
      var rest := t[|NameOpen|..];
      match LiteralEnd(rest)
      case None => None
      case Some(n) =>
        match (Unescape(rest[..n]), ReadAfterName(rest[n + 1..]))
        case (Some(name), Some(Operations(_, variables, q))) => Some(Operations(name, variables, q))
        case _ => None
  }

  /** What follows the name: the query literal read from the back and the
      variables between the two keys. */
  function ReadAfterName(after: string): Option<Operations>
  {
    if !(VariablesKey <= after && |after| >= |VariablesKey| + 2 && after[|after| - 2..] == "\"}") then None
    else
      var middle := after[|VariablesKey|..|after| - 2];
      match LastOpenQuote(middle)
      case None => None
      case Some(x) =>
        if !(x >= |QueryKey| && middle[x - |QueryKey|..x] == QueryKey) then None
        else
          match Unescape(middle[x + 1..])
          case Some(q) => Some(Operations("", middle[..x - |QueryKey|], q))
          case None => None
  }

  lemma ReadAfterNameOf(variables: string, q: string)
    ensures ReadAfterName(AfterName(variables, q)) == Some(Operations("", variables, q))
  {
    AfterNameShape(variables, q);
    MiddleReadsBack(variables, q);
  }

  /** The text after the name: the variables key, the middle part, and the
      closing quote and brace. */
  lemma AfterNameShape(variables: string, q: string)
    ensures var after := AfterName(variables, q);
            var middle := variables + QueryKey + "\"" + EscapeBody(q);
            && VariablesKey <= after && |after| >= |VariablesKey| + 2 && after[|after| - 2..] == "\"}"
            && after[|VariablesKey|..|after| - 2] == middle
  {
    var middle := variables + QueryKey + "\"" + EscapeBody(q);
    Regroup(VariablesKey, variables, QueryKey, "\"", EscapeBody(q), "\"", "}");
    assert "\"" + "}" == "\"}";
    SplitAround(VariablesKey, middle, "\"}");
  }

  lemma Regroup(a: string, b: string, c: string, d: string, e: string, f: string, g: string)
    ensures a + b + c + (d + e + f) + g == a + (b + c + d + e) + (f + g)
  {
  }

  /** A text made of a key, a middle and a two-character end gives the
      middle back. */
  lemma SplitAround(key: string, middle: string, end: string)
    requires |end| == 2
    ensures var t := key + middle + end;
            && key <= t && |t| >= |key| + 2 && t[|t| - 2..] == end && t[|key|..|t| - 2] == middle
  {
    var t := key + middle + end;
    assert t[..|key|] == key;
  }

  /** The middle part splits at the query literal's opening quote into the
      variables, the query key and the escaped query. */
  lemma MiddleReadsBack(variables: string, q: string)
    ensures var p := variables + QueryKey;
            var middle := p + "\"" + EscapeBody(q);
            && LastOpenQuote(middle) == Some(|p|)
            && |p| >= |QueryKey| && middle[|p| - |QueryKey|..|p|] == QueryKey
            && middle[..|p| - |QueryKey|] == variables
            && Unescape(middle[|p| + 1..]) == Some(q)
  {
    var eq := EscapeBody(q);
    var p := variables + QueryKey;
    var middle := p + "\"" + eq;
    assert LastOpenQuote(middle) == Some(|p|) by {
      EscapeBodyQuotesEscaped(q);
      assert p[|p| - 1] == ':';
      LastOpenQuoteBefore(p, eq);
    }
    assert middle[..|p|] == p;
    assert middle[|p| + 1..] == eq;
    QuoteRoundTrip(q);
  }

  lemma ReadOperationsOf(name: string, variables: string, q: string)
    ensures ReadOperations(OperationsOf(name, variables, q)) == Some(Operations(name, variables, q))
  {
    var en := EscapeBody(name);
    var tail := AfterName(variables, q);
    SplitAtSeparator(NameOpen, en, '"', tail);
    LiteralEndEscapeBody(name, tail);
    ReadAfterNameOf(variables, q);
    QuoteRoundTrip(name);
  }

  /** The operations document loses nothing: its name, variables and query
      read back from it. */
  lemma OperationsJSONReadsBack(req: Request)
    requires OperationsJSON(req).Ok?
    ensures ReadOperations(OperationsJSON(req).value)
            == Some(Operations(OperationName(req.q).value, EncodeVariables(req.vars).value, req.q))
  {
    ReadOperationsOf(OperationName(req.q).value, EncodeVariables(req.vars).value, req.q);
  }

  /** Without variables the document says `"variables":null`, as in
      multipart_test.go. */
  lemma OperationsWithoutVariables(q: string)
    requires OperationName(q).Ok?
    ensures OperationsJSON(NewRequest(q)).Ok?
    ensures ReadOperations(OperationsJSON(NewRequest(q)).value) == Some(Operations(OperationName(q).value, "null", q))
  {
    assert EncodeVariables(None) == Ok("null");
    OperationsJSONReadsBack(NewRequest(q));
  }

  /* ---------------------------------------------------------------------- */
  /* The map field                                                           */
  /* ---------------------------------------------------------------------- */

  /** The text FileMap writes for the attachment at 0-based position `i`. */
  function FileMapEntry(i: nat, field: string): string
  {
    "{\"" + NatToString(i + 1) + "\": [\"" + field + "\"]}"
  }

  function FileMapEntries(files: seq<File>): (r: seq<string>)
    ensures |r| == |files| && forall i :: 0 <= i < |files| ==> r[i] == FileMapEntry(i, files[i].field)
  {
    seq(|files|, i requires 0 <= i < |files| => FileMapEntry(i, files[i].field))
  }

  /** Request.FileMap: the loop appending one `{"i": ["field"]}` object per
      attachment, with 1-based i. */
  function FileMap(files: seq<File>): (m: string)
    ensures files == [] ==> m == ""
    decreases |files|
  {
    if files == [] then ""
    else
      var n := |files| - 1;
      FileMap(files[..n]) + FileMapEntry(n, files[n].field)
  }

  /** The text is the entries of all attachments in attachment order, the
      entry of each depending only on its position and field. */
  lemma {:induction false} FileMapIsConcat(files: seq<File>)
    ensures FileMap(files) == Concat(FileMapEntries(files))
    decreases |files|
  {
    if files != [] {
      var n := |files| - 1;
      FileMapIsConcat(files[..n]);
      assert FileMapEntries(files) == FileMapEntries(files[..n]) + [FileMapEntry(n, files[n].field)];
      ConcatAppend(FileMapEntries(files[..n]), FileMapEntry(n, files[n].field));
    }
  }

  /** Each further attachment adds its entry at the end and leaves the
      earlier text as it was. */
  lemma FileMapGrows(files: seq<File>, f: File)
    ensures FileMap(files + [f]) == FileMap(files) + FileMapEntry(|files|, f.field)
  {
    var fs := files + [f];
    assert fs[..|files|] == files;
    assert fs[|files|] == f;
    var x := FileMap(files);
    var e := FileMapEntry(|files|, f.field);
    assert FileMap(fs) == x + e;
  }

  /** With two attachments or more the field is not one JSON object but
      objects written back to back. */
  lemma {:induction false} FileMapBackToBack(files: seq<File>)
    requires |files| >= 2
    ensures "{\"1\": [\"" + files[0].field + "\"]}{\"2\": [\"" + files[1].field + "\"]}" <= FileMap(files)
    decreases |files|
  {
    var n := |files| - 1;
    var a := FileMapEntry(0, files[0].field);
    var b := FileMapEntry(1, files[1].field);
    assert NatToString(1) == "1" && NatToString(2) == "2";
    assert a == "{\"1\": [\"" + files[0].field + "\"]}";
    assert b == "{\"2\": [\"" + files[1].field + "\"]}";
    if n == 1 {
      assert files[..1] == [files[0]];
      assert [files[0]][..0] == [];
      assert FileMap([files[0]]) == a;
      assert FileMap(files) == a + b;
    } else {
      FileMapBackToBack(files[..n]);
      assert files[..n][0] == files[0] && files[..n][1] == files[1];
      assert FileMap(files) == FileMap(files[..n]) + FileMapEntry(n, files[n].field);
    }
  }
}

=== FILE: subscriptions.dfy ===
/**
 * The websocket subscription client of graphql.go: the handshake, the
 * registry of subscriptions keyed by decimal ids, the worker that
 * dispatches incoming frames to their subscription sinks and closes every
 * remaining sink when the stream ends, and Unsubscribe and Close.
 *
 * The worker goroutine is modelled as a sequence of steps over an explicit
 * state, one step per frame read; a sink (a Go channel) is the list of
 * payloads delivered to it and a closed flag.
 */
module Subscriptions {
  import opened Common
  import opened Json
  import opened Http
  import opened Wire
  import Graphql

  /* ---------------------------------------------------------------------- */
  /* Frames                                                                  */
  /* ---------------------------------------------------------------------- */

  const ConnectionInit := "connection_init"
  const StartType := "start"
  const StopType := "stop"
  const ConnectionAck := "connection_ack"
  const ConnectionTerminate := "connection_terminate"
  const ConnectionError := "connection_error"
  const DataType := "data"
  const ErrorType := "error"
  const CompleteType := "GQL_COMPLETE"
  const KeepAlive := "ka"

  /** subscriptionMessage: an optional raw JSON payload, an optional id and
      the frame type. A missing field (or JSON null) is a nil pointer. */
  datatype Frame = Frame(payload: Option<string>, id: Option<string>, kind: string)

  /** One websocket read: a decoded frame, io.EOF, io.ErrUnexpectedEOF, or
      another error with its text. */
  datatype Read = Got(frame: Frame) | EndOfStream | UnexpectedEnd | Failed(message: string)

  function ReadErrorText(r: Read): string
    requires !r.Got?
  {
    match r
    case EndOfStream => "EOF"
    case UnexpectedEnd => "unexpected EOF"
    case Failed(m) => m
  }

  /** The read errors the worker treats as the end of the stream. */
  predicate EndsStream(r: Read)
  {
    r.EndOfStream? || r.UnexpectedEnd? || (r.Failed? && HasSuffix(r.message, "unexpected EOF"))
  }

  /* ---------------------------------------------------------------------- */
  /* State                                                                   */
  /* ---------------------------------------------------------------------- */

  /** A SubscriptionPayload: either the Data or the Error pointer is set. */
  datatype Delivery = DataPayload(data: Option<string>) | ErrorPayload(error: Option<string>)

  /** A Subscription channel: what was sent on it, and whether it is closed. */
  datatype Sink = Sink(delivered: seq<Delivery>, closed: bool)

  /** Where the worker is: reading, returned after the stream ended, died on
      a run-time panic (its deferred teardown still ran), or stopped the
      process with log.Fatalf (no deferred code runs). */
  datatype Phase = Running | Ended | Crashed(reason: string) | Exited(message: string)

  /** A connected SubscriptionClient. Sink `h` is the h-th one Subscribe
      made; `subs` is the sync.Map from id to sink; `closes` lists the sinks
      in the order they were closed; `written` the frames sent so far. */
  datatype State = State(
    sinks: seq<Sink>,
    subs: map<string, nat>,
    nextId: nat,
    closes: seq<nat>,
    written: seq<Frame>,
    phase: Phase)

  /** A SubscriptionClient value: the zero value has no websocket. */
  datatype SubscriptionClient = Unconnected | Connected(state: State)

  /** Every registered id leads to a sink that exists. */
  predicate WellFormed(s: State)
  {
    forall id :: id in s.subs ==> s.subs[id] < |s.sinks|
  }

  /** Sink `h` is registered: its id is in the registry. */
  predicate Registered(s: State, h: nat)
  {
    NatToString(h) in s.subs
  }

  /** What every reachable state keeps: one sink per id handed out, each
      registered id is the decimal text of its sink, a sink is closed exactly
      when it appears in `closes`, which names each sink at most once, an
      open sink is registered, and while the worker runs every registered
      sink is open. */
  ghost predicate Inv(s: State)
  {
    WellFormed(s) && Numbered(s) && ClosesTracked(s) && ClosedOnce(s) && OpenRegistered(s)
    && (s.phase.Running? ==> RegisteredOpen(s))
  }

  /** One sink per id handed out; each registered id is its sink's number. */
  ghost predicate Numbered(s: State)
  {
    |s.sinks| == s.nextId
    && forall id :: id in s.subs ==> s.subs[id] < s.nextId && id == NatToString(s.subs[id])
  }

  /** A sink is closed exactly when `closes` names it. */
  ghost predicate ClosesTracked(s: State)
  {
    (forall i :: 0 <= i < |s.closes| ==> s.closes[i] < |s.sinks|)
    && forall h :: 0 <= h < |s.sinks| ==> (s.sinks[h].closed <==> h in s.closes)
  }

  /** No sink was closed twice. */
  ghost predicate ClosedOnce(s: State)
  {
    Distinct(s.closes)
  }

  ghost predicate OpenRegistered(s: State)
  {
    forall h :: 0 <= h < |s.sinks| && !s.sinks[h].closed ==> Registered(s, h)
  }

  ghost predicate RegisteredOpen(s: State)
  {
    forall h :: 0 <= h < |s.sinks| && Registered(s, h) ==> !s.sinks[h].closed
  }

  /** Under the invariant the id registered for sink `h` maps back to `h`. */
  lemma RegisteredMapsBack(s: State, h: nat)
    requires Inv(s) && Registered(s, h)
    ensures s.subs[NatToString(h)] == h
  {
    NatToStringInjective(s.subs[NatToString(h)], h);
  }

  function InitialState(): (s: State)
    ensures Inv(s) && s.phase.Running? && s.sinks == [] && s.written == []
  {
    State([], map[], 0, [], [], Running)
  }

  /* ---------------------------------------------------------------------- */
  /* Handshake                                                               */
  /* ---------------------------------------------------------------------- */

  /** What SubscriptionClient does: the URL it dials, the caller's header
      after it was changed in place (None for a nil header), whether it
      closed the connection, and the client or the error it returns. */
  datatype Handshake = Handshake(url: string, header: Option<Header>, connClosed: bool, result: Result<SubscriptionClient>)

  /** The runtime panic of an assignment into a nil map. */
  const NilMapAssignment := "assignment to entry in nil map"

  const DidNotAcknowledge := "server-did-not-acknowledge"

  /** The header name the client sets, "Sec-WebSocket-Protocol", spelled
      word by word. */
  const ProtocolHeader := "Sec-" + "WebSocket-" + "Protocol"

  /** The name Header.Set stores ProtocolHeader under: its canonical form,
      "Sec-Websocket-Protocol", with a lower-case `s` in the middle word. */
  const ProtocolKey := "Sec-" + "Websocket-" + "Protocol"

  lemma ProtocolKeyCanonical()
    ensures Canonical(ProtocolHeader) == ProtocolKey
    ensures ProtocolKey != ProtocolHeader
  {
    WordFolds("Sec-", "Sec-");
    WordFolds("WebSocket-", "Websocket-");
    WordFolds("Protocol", "Protocol");
    CanonicalWords("Sec-", "WebSocket-", "Protocol");
    assert ProtocolKey[7] == 's' && ProtocolHeader[7] == 'S';
  }

  /** How each word of the header name folds. */
  lemma WordFolds(word: string, folded: string)
    requires word in {"Sec-", "WebSocket-", "Protocol"}
    requires folded == (if word == "Sec-" then "Sec-" else if word == "Protocol" then "Protocol" else "Websocket-")
    ensures IsToken(word) && FoldCase(word) == folded
  {
  }

  /** SubscriptionClient: `header` is the caller's header (None for nil),
      `dialError` the dialer's failure, if any, and `first` the first read
      from the connection. A nil header panics at the first Set, before
      anything is dialed. Only an acknowledgement yields a client; a
      connection_error fails with its payload as compact JSON; a read error
      is returned as it is (the connection is left open). */
  function Connect(endpoint: string, header: Option<Header>, dialError: Option<string>, first: Read): (h: Handshake)
    ensures h.url == ReplaceFirst(endpoint, "http", "ws")
    ensures header.None? ==> h.header.None? && !h.connClosed && h.result == Panic(NilMapAssignment)
    ensures header.Some? ==>
              && h.header.Some?
              && Values(h.header.value, ProtocolKey) == ["graphql-ws"]
              && Values(h.header.value, "Content-Type") == ["application/json"]
              && forall k :: k != ProtocolKey && k != "Content-Type" ==> Values(h.header.value, k) == Values(header.value, k)
    ensures h.result.Ok? <==> header.Some? && dialError.None? && first.Got? && first.frame.kind == ConnectionAck
    ensures h.result.Ok? ==> h.result.value == Connected(InitialState()) && !h.connClosed
    ensures header.Some? && dialError.Some? ==> h.result == Err(dialError.value)
    ensures header.Some? && dialError.None? && !first.Got? ==> h.result == Err(ReadErrorText(first)) && !h.connClosed
    ensures header.Some? && dialError.None? && first.Got? && first.frame.kind == ConnectionError ==>
              h.connClosed && (first.frame.payload.None? ==> h.result.Panic?)
              && (first.frame.payload.Some? ==> h.result == Err(Compact(first.frame.payload.value)))
    ensures header.Some? && dialError.None? && first.Got? && first.frame.kind != ConnectionAck && first.frame.kind != ConnectionError ==>
              h.connClosed && h.result == Err(DidNotAcknowledge)
  {
    ProtocolKeyCanonical();
    ContentTypeCanonical();
    var url := ReplaceFirst(endpoint, "http", "ws");
    if header.None? then Handshake(url, None, false, Panic(NilMapAssignment))
    else
      var header' := Set(Set(header.value, ProtocolHeader, "graphql-ws"), "Content-Type", "application/json");
      if dialError.Some? then Handshake(url, Some(header'), false, Err(dialError.value))
      else if !first.Got? then Handshake(url, Some(header'), false, Err(ReadErrorText(first)))
      else if first.frame.kind == ConnectionAck then Handshake(url, Some(header'), false, Ok(Connected(InitialState())))
      else if first.frame.kind == ConnectionError then
        if first.frame.payload.None? then Handshake(url, Some(header'), true, Panic(NilDereference))
        else Handshake(url, Some(header'), true, Err(Compact(first.frame.payload.value)))
      else Handshake(url, Some(header'), true, Err(DidNotAcknowledge))
  }

  /** Only the scheme's "http" becomes "ws": http://h dials ws://h and
      https://h dials wss://h. */
  lemma DialUrlScheme(rest: string)
    ensures ReplaceFirst("http" + rest, "http", "ws") == "ws" + rest
  {
    var s := "http" + rest;
    assert s[..4] == "http";
    assert IndexOf(s, "http") == Some(0);
    assert s[4..] == rest;
  }

  /* ---------------------------------------------------------------------- */
  /* Subscribe                                                               */
  /* ---------------------------------------------------------------------- */

  datatype Subscribed = Subscribed(state: State, result: Result<nat>)

  /** Subscribe: the start payload is the query body; the id is the counter's
      decimal text and the counter moves on; the new sink is registered
      before the start frame is written, and stays registered when the write
      fails. `writeError` is the websocket write's failure, if any. */
  function Subscribe(s: State, req: Graphql.Request, writeError: Option<string>): (r: Subscribed)
    ensures QueryBody(req.q, req.vars).Err? ==> r == Subscribed(s, Err(Wrap("encode body", QueryBody(req.q, req.vars).error)))
    ensures QueryBody(req.q, req.vars).Ok? ==>
              && r.state.nextId == s.nextId + 1
              && r.state.sinks == s.sinks + [Sink([], false)]
              && r.state.subs == s.subs[NatToString(s.nextId) := s.nextId]
              && r.state.closes == s.closes && r.state.phase == s.phase
    ensures QueryBody(req.q, req.vars).Ok? && writeError.None? ==>
              r.result == Ok(s.nextId)
              && r.state.written == s.written + [Frame(Some(QueryBody(req.q, req.vars).value), Some(NatToString(s.nextId)), StartType)]
    ensures QueryBody(req.q, req.vars).Ok? && writeError.Some? ==>
              r.result == Err(writeError.value) && r.state.written == s.written
    ensures !r.result.Panic?
  {
    var body := QueryBody(req.q, req.vars);
    if !body.Ok? then Subscribed(s, Err(Wrap("encode body", body.error)))
    else
      var id := NatToString(s.nextId);
      var registered := s.(sinks := s.sinks + [Sink([], false)],
                           subs := s.subs[id := s.nextId],
                           nextId := s.nextId + 1);
      if writeError.Some? then Subscribed(registered, Err(writeError.value))
      else Subscribed(registered.(written := s.written + [Frame(Some(body.value), Some(id), StartType)]), Ok(s.nextId))
  }

  /** Subscribe keeps the invariant, and the id it hands out was not in use. */
  lemma SubscribeKeepsInv(s: State, req: Graphql.Request, writeError: Option<string>)
    requires Inv(s)
    ensures Inv(Subscribe(s, req, writeError).state)
    ensures QueryBody(req.q, req.vars).Ok? ==> NatToString(s.nextId) !in s.subs
  {
    var r := Subscribe(s, req, writeError).state;
    var id := NatToString(s.nextId);
    if id in s.subs {
      NatToStringInjective(s.subs[id], s.nextId);
    }
    if QueryBody(req.q, req.vars).Ok? {
      forall h | 0 <= h < |r.sinks| && Registered(r, h)
        ensures s.phase.Running? ==> !r.sinks[h].closed
      {
        if h < s.nextId && s.phase.Running? {
          if NatToString(h) == id {
            NatToStringInjective(h, s.nextId);
          }
        }
      }
      forall h | 0 <= h < |r.sinks| && !r.sinks[h].closed
        ensures Registered(r, h)
      {
      }
    }
  }

  /** Ids are handed out as "0", "1", "2", ...: the n-th successful
      Subscribe on a fresh client registers id NatToString(n), and two
      subscriptions never share an id. */
  lemma IdsNeverRepeat(s: State, req1: Graphql.Request, req2: Graphql.Request, w1: Option<string>, w2: Option<string>)
    requires QueryBody(req1.q, req1.vars).Ok? && QueryBody(req2.q, req2.vars).Ok?
    ensures var s1 := Subscribe(s, req1, w1).state;
            var s2 := Subscribe(s1, req2, w2).state;
            s2.subs.Keys == s.subs.Keys + {NatToString(s.nextId), NatToString(s.nextId + 1)}
            && NatToString(s.nextId) != NatToString(s.nextId + 1)
  {
    if NatToString(s.nextId) == NatToString(s.nextId + 1) {
      NatToStringInjective(s.nextId, s.nextId + 1);
    }
  }

  /* ---------------------------------------------------------------------- */
  /* The worker                                                              */
  /* ---------------------------------------------------------------------- */

  const NilConversion := "interface conversion: interface is nil, not graphql.Subscription"
  const SendOnClosed := "send on closed channel"
  const CloseOfClosed := "close of closed channel"
  const FatalPrefix := "Error reading from subscription websocket : "

  function CloseSink(s: State, h: nat): (r: State)
    requires h < |s.sinks|
    ensures r.sinks == s.sinks[h := Sink(s.sinks[h].delivered, true)] && r.closes == s.closes + [h]
    ensures r.subs == s.subs && r.nextId == s.nextId && r.written == s.written && r.phase == s.phase
  {
    s.(sinks := s.sinks[h := s.sinks[h].(closed := true)], closes := s.closes + [h])
  }

  /** The deferred Range over the registry: every registered sink is closed
      (the registry itself is left as it is). */
  function CloseRegistered(s: State, ids: seq<string>): (r: State)
    requires forall i :: 0 <= i < |ids| ==> ids[i] in s.subs && s.subs[ids[i]] < |s.sinks|
    ensures r.subs == s.subs && r.nextId == s.nextId && r.written == s.written && r.phase == s.phase
    ensures |r.sinks| == |s.sinks|
    decreases |ids|
  {
    if ids == [] then s
    else CloseRegistered(CloseSink(s, s.subs[ids[0]]), ids[1..])
  }

  /** The worker returns: its deferred Range closes every registered sink.
      Go's Range order is unspecified; ascending id order stands for it. */
  function Teardown(s: State, phase: Phase): (r: State)
    requires WellFormed(s)
    ensures r.phase == phase && r.subs == s.subs && r.written == s.written && r.nextId == s.nextId
    ensures |r.sinks| == |s.sinks|
  {
    var ids := SortedKeys(s.subs.Keys);
    CloseRegistered(s, ids).(phase := phase)
  }

  /** Handle one frame whose type is data, error or complete: a nil or
      unregistered id panics and the deferred Range closes what is
      registered; otherwise the payload is sent on, or the complete frame
      closes, the sink registered under the id. */
  function Dispatch(s: State, f: Frame): (r: State)
    requires WellFormed(s)
    requires f.kind == DataType || f.kind == ErrorType || f.kind == CompleteType
    ensures WellFormed(r) && r.nextId == s.nextId && r.written == s.written
    ensures |r.sinks| == |s.sinks| && r.subs.Keys <= s.subs.Keys
  {
    if f.id.None? then Teardown(s, Crashed(NilDereference))
    else if f.id.value !in s.subs then Teardown(s, Crashed(NilConversion))
    else
      var h := s.subs[f.id.value];
      if f.kind == CompleteType then
        if s.sinks[h].closed then Teardown(s, Crashed(CloseOfClosed))
        else CloseSink(s, h).(subs := s.subs - {f.id.value})
      else
        var d := if f.kind == DataType then DataPayload(f.payload) else ErrorPayload(f.payload);
        if s.sinks[h].closed then Teardown(s, Crashed(SendOnClosed))
        else s.(sinks := s.sinks[h := s.sinks[h].(delivered := s.sinks[h].delivered + [d])])
  }

  /** One iteration of the worker's loop; a worker that has stopped reads
      nothing more. */
  function Step(s: State, r: Read): (t: State)
    requires WellFormed(s)
    ensures WellFormed(t) && t.nextId == s.nextId && t.written == s.written
    ensures |t.sinks| == |s.sinks| && t.subs.Keys <= s.subs.Keys
    ensures !s.phase.Running? ==> t == s
  {
    if !s.phase.Running? then s
    else match r
      case Got(f) =>
        if f.kind == DataType || f.kind == ErrorType || f.kind == CompleteType then Dispatch(s, f)
        else s
      case EndOfStream => Teardown(s, Ended)
      case UnexpectedEnd => Teardown(s, Ended)
      case Failed(m) =>
        if HasSuffix(m, "unexpected EOF") then Teardown(s, Ended)
        else s.(phase := Exited(FatalPrefix + m))
  }

  /* ---------------------------------------------------------------------- */
  /* What a step does                                                        */
  /* ---------------------------------------------------------------------- */

  /** The sinks a list of registered ids leads to. */
  function Handles(subs: map<string, nat>, ids: seq<string>): (r: seq<nat>)
    requires forall i :: 0 <= i < |ids| ==> ids[i] in subs
    ensures |r| == |ids| && forall i :: 0 <= i < |ids| ==> r[i] == subs[ids[i]]
  {
    seq(|ids|, i requires 0 <= i < |ids| => subs[ids[i]])
  }

  /** Closing registered sinks one by one: the sinks named are closed,
      the others keep their flag, and nothing is delivered. */
  lemma {:induction false} CloseRegisteredFlags(s: State, ids: seq<string>)
    requires WellFormed(s)
    requires forall i :: 0 <= i < |ids| ==> ids[i] in s.subs
    ensures |CloseRegistered(s, ids).sinks| == |s.sinks|
    ensures forall h :: 0 <= h < |s.sinks| ==>
              CloseRegistered(s, ids).sinks[h].delivered == s.sinks[h].delivered
              && (CloseRegistered(s, ids).sinks[h].closed <==> s.sinks[h].closed || h in Handles(s.subs, ids))
    decreases |ids|
  {
    if ids != [] {
      var s1 := CloseSink(s, s.subs[ids[0]]);
      CloseRegisteredFlags(s1, ids[1..]);
      assert Handles(s.subs, ids) == [s.subs[ids[0]]] + Handles(s1.subs, ids[1..]);
    }
  }

  lemma HandlesCons(subs: map<string, nat>, ids: seq<string>)
    requires ids != [] && forall i :: 0 <= i < |ids| ==> ids[i] in subs
    ensures Handles(subs, ids) == [subs[ids[0]]] + Handles(subs, ids[1..])
  {
  }

  /** ... and they are logged in `closes` in the order they were closed. */
  lemma {:induction false} CloseRegisteredLog(s: State, ids: seq<string>)
    requires WellFormed(s)
    requires forall i :: 0 <= i < |ids| ==> ids[i] in s.subs
    ensures CloseRegistered(s, ids).closes == s.closes + Handles(s.subs, ids)
    decreases |ids|
  {
    if ids != [] {
      var h := s.subs[ids[0]];
      var s1 := CloseSink(s, h);
      var rest := ids[1..];
      assert forall i :: 0 <= i < |rest| ==> rest[i] == ids[i + 1];
      CloseRegisteredLog(s1, rest);
      HandlesCons(s.subs, ids);
      AppendAssoc(s.closes, [h], Handles(s.subs, rest));
    }
  }

  /** Registered ids lead to distinct sinks. */
  lemma HandlesDistinct(s: State, ids: seq<string>)
    requires Inv(s)
    requires forall i :: 0 <= i < |ids| ==> ids[i] in s.subs
    requires forall i, j :: 0 <= i < j < |ids| ==> ids[i] != ids[j]
    ensures Distinct(Handles(s.subs, ids))
  {
  }

  /** Ending the worker while it runs closes every sink. */
  lemma TeardownClosesAll(s: State, phase: Phase)
    requires Inv(s)
    ensures forall h :: 0 <= h < |s.sinks| ==> Teardown(s, phase).sinks[h].closed
    ensures forall h :: 0 <= h < |s.sinks| ==> Teardown(s, phase).sinks[h].delivered == s.sinks[h].delivered
    ensures |Teardown(s, phase).sinks| == |s.sinks|
  {
    var ids := SortedKeys(s.subs.Keys);
    var hs := Handles(s.subs, ids);
    CloseRegisteredFlags(s, ids);
    forall h | 0 <= h < |s.sinks| && !s.sinks[h].closed
      ensures h in hs
    {
      RegisteredMapsBack(s, h);
      var i :| 0 <= i < |ids| && ids[i] == NatToString(h);
      assert hs[i] == h;
    }
  }

  predicate Distinct(xs: seq<nat>)
  {
    forall i, j :: 0 <= i < j < |xs| ==> xs[i] != xs[j]
  }

  lemma AppendDistinct(a: seq<nat>, b: seq<nat>)
    requires Distinct(a) && Distinct(b)
    requires forall i, j :: 0 <= i < |a| && 0 <= j < |b| ==> a[i] != b[j]
    ensures Distinct(a + b)
  {
    forall i, j | 0 <= i < j < |a + b|
      ensures (a + b)[i] != (a + b)[j]
    {
      if i >= |a| {
        assert (a + b)[i] == b[i - |a|];
      }
      if j >= |a| {
        assert (a + b)[j] == b[j - |a|];
      }
    }
  }

  /** The sinks teardown closes are distinct and none was closed before. */
  lemma TeardownHandlesFresh(s: State)
    requires Inv(s) && s.phase.Running?
    ensures Distinct(Handles(s.subs, SortedKeys(s.subs.Keys)))
    ensures forall i, j :: 0 <= i < |s.closes| && 0 <= j < |s.subs| ==>
              s.closes[i] != Handles(s.subs, SortedKeys(s.subs.Keys))[j]
  {
    var ids := SortedKeys(s.subs.Keys);
    var hs := Handles(s.subs, ids);
    forall i, j | 0 <= i < j < |ids|
      ensures ids[i] != ids[j]
    {
      LessIrreflexive(ids[i]);
    }
    HandlesDistinct(s, ids);
    forall i, j | 0 <= i < |s.closes| && 0 <= j < |hs|
      ensures s.closes[i] != hs[j]
    {
      var h := hs[j];
      assert ids[j] == NatToString(h);
      assert Registered(s, h);
    }
  }

  /** ... and closes none of them twice. */
  lemma TeardownClosesOnce(s: State, phase: Phase)
    requires Inv(s) && s.phase.Running?
    ensures ClosedOnce(Teardown(s, phase))
    ensures Teardown(s, phase).closes == s.closes + Handles(s.subs, SortedKeys(s.subs.Keys))
  {
    var ids := SortedKeys(s.subs.Keys);
    CloseRegisteredLog(s, ids);
    TeardownHandlesFresh(s);
    assert Distinct(s.closes);
    AppendDistinct(s.closes, Handles(s.subs, ids));
  }

  /** The worker ending while it runs keeps the invariant. */
  lemma TeardownKeepsInv(s: State, phase: Phase)
    requires Inv(s) && s.phase.Running? && !phase.Running?
    ensures Inv(Teardown(s, phase))
  {
    var r := Teardown(s, phase);
    TeardownClosesAll(s, phase);
    TeardownClosesOnce(s, phase);
    var hs := Handles(s.subs, SortedKeys(s.subs.Keys));
    CloseRegisteredFlags(s, SortedKeys(s.subs.Keys));
    assert ClosesTracked(r) by {
      forall h | 0 <= h < |r.sinks|
        ensures r.sinks[h].closed <==> h in r.closes
      {
        if s.sinks[h].closed {
          assert h in s.closes;
        }
        assert r.sinks[h].closed <==> s.sinks[h].closed || h in hs;
      }
    }
  }

  /** The sink a registered id leads to is open, and closing it and
      forgetting the id keeps the invariant. */
  lemma CompleteKeepsInv(s: State, id: string)
    requires Inv(s) && s.phase.Running? && id in s.subs
    ensures !s.sinks[s.subs[id]].closed
    ensures Inv(CloseSink(s, s.subs[id]).(subs := s.subs - {id}))
  {
    var h := s.subs[id];
    var r := CloseSink(s, h).(subs := s.subs - {id});
    assert id == NatToString(h);
    assert Registered(s, h);
    assert h !in s.closes;
    AppendDistinct(s.closes, [h]);
    forall h' | 0 <= h' < |r.sinks| && h' != h
      ensures Registered(r, h') <==> Registered(s, h')
    {
      if NatToString(h') == id {
        NatToStringInjective(h', h);
      }
    }
    assert OpenRegistered(r);
    assert RegisteredOpen(r);
  }

  /** A data or error frame for a registered id keeps the invariant. */
  lemma DeliverKeepsInv(s: State, h: nat, d: Delivery)
    requires Inv(s) && h < |s.sinks|
    ensures Inv(s.(sinks := s.sinks[h := s.sinks[h].(delivered := s.sinks[h].delivered + [d])]))
  {
  }

  /** Every step of the worker keeps the invariant. */
  lemma StepKeepsInv(s: State, r: Read)
    requires Inv(s)
    ensures Inv(Step(s, r))
  {
    if s.phase.Running? {
      match r
      case Got(f) =>
        if f.kind == DataType || f.kind == ErrorType || f.kind == CompleteType {
          if f.id.None? || f.id.value !in s.subs {
            TeardownKeepsInv(s, Crashed(if f.id.None? then NilDereference else NilConversion));
          } else {
            var h := s.subs[f.id.value];
            assert Registered(s, h) by {
              assert f.id.value == NatToString(h);
            }
            if f.kind == CompleteType {
              CompleteKeepsInv(s, f.id.value);
            } else {
              DeliverKeepsInv(s, h, if f.kind == DataType then DataPayload(f.payload) else ErrorPayload(f.payload));
            }
          }
        }
      case _ =>
        if EndsStream(r) {
          TeardownKeepsInv(s, Ended);
        }
    }
  }

  /** The worker's loop over a sequence of reads; it stops reading once it
      is no longer running. */
  function Work(s: State, incoming: seq<Read>): (t: State)
    requires WellFormed(s)
    ensures WellFormed(t) && t.nextId == s.nextId && t.written == s.written
    decreases |incoming|
  {
    if incoming == [] then s else Work(Step(s, incoming[0]), incoming[1..])
  }

  lemma {:induction false} WorkKeepsInv(s: State, incoming: seq<Read>)
    requires Inv(s)
    ensures Inv(Work(s, incoming))
    decreases |incoming|
  {
    if incoming != [] {
      StepKeepsInv(s, incoming[0]);
      WorkKeepsInv(Step(s, incoming[0]), incoming[1..]);
    }
  }

  /** When the stream ends every sink ever made is closed, and the worker
      stops. */
  lemma EndClosesEverySink(s: State, r: Read)
    requires Inv(s) && s.phase.Running? && EndsStream(r)
    ensures Step(s, r).phase == Ended
    ensures forall h :: 0 <= h < |s.sinks| ==> Step(s, r).sinks[h].closed
  {
    TeardownClosesAll(s, Ended);
  }

  /** Data and error frames reach the sink registered under their id, in
      arrival order; no other sink and nothing else changes. */
  lemma DeliveredInOrder(s: State, f: Frame)
    requires Inv(s) && s.phase.Running?
    requires f.kind == DataType || f.kind == ErrorType
    requires f.id.Some? && f.id.value in s.subs
    ensures var t := Step(s, Got(f));
            var h := s.subs[f.id.value];
            && t.sinks[h].delivered == s.sinks[h].delivered
                 + [if f.kind == DataType then DataPayload(f.payload) else ErrorPayload(f.payload)]
            && !t.sinks[h].closed
            && (forall g :: 0 <= g < |s.sinks| && g != h ==> t.sinks[g] == s.sinks[g])
            && t.subs == s.subs && t.closes == s.closes && t.phase == Running
  {
    var h := s.subs[f.id.value];
    assert Registered(s, h) by {
      assert f.id.value == NatToString(h);
    }
  }

  /** Frames of other types, including keep-alives, change nothing. */
  lemma OtherFramesIgnored(s: State, f: Frame)
    requires WellFormed(s)
    requires f.kind != DataType && f.kind != ErrorType && f.kind != CompleteType
    ensures Step(s, Got(f)) == s
  {
  }

  /** While the invariant holds the worker never sends on or closes a closed
      sink: a frame for a registered id keeps it running. */
  lemma RegisteredFramesNeverCrash(s: State, f: Frame)
    requires Inv(s) && s.phase.Running?
    requires f.id.Some? && f.id.value in s.subs
    ensures Step(s, Got(f)).phase == Running
  {
    var h := s.subs[f.id.value];
    assert Registered(s, h) by {
      assert f.id.value == NatToString(h);
    }
  }

  /** A complete frame for a registered id closes exactly that sink and
      forgets exactly that id; the worker keeps running. */
  lemma CompleteClosesOwnSink(s: State, f: Frame)
    requires Inv(s) && s.phase.Running?
    requires f.kind == CompleteType && f.id.Some? && f.id.value in s.subs
    ensures var t := Step(s, Got(f));
            var h := s.subs[f.id.value];
            && !s.sinks[h].closed && t.sinks[h].closed
            && t.sinks[h].delivered == s.sinks[h].delivered
            && (forall g :: 0 <= g < |s.sinks| && g != h ==> t.sinks[g] == s.sinks[g])
            && t.subs == s.subs - {f.id.value} && t.closes == s.closes + [h] && t.phase == Running
  {
    CompleteKeepsInv(s, f.id.value);
  }

  /** A data, error or complete frame with a nil id, or with an id nothing is
      registered under, panics (a nil dereference, or the type assertion on
      the nil Load returns); the deferred Range then closes every sink. */
  lemma UnregisteredFrameCrashes(s: State, f: Frame)
    requires Inv(s) && s.phase.Running?
    requires f.kind == DataType || f.kind == ErrorType || f.kind == CompleteType
    requires f.id.None? || f.id.value !in s.subs
    ensures var t := Step(s, Got(f));
            && t.phase == Crashed(if f.id.None? then NilDereference else NilConversion)
            && (forall h :: 0 <= h < |s.sinks| ==> t.sinks[h].closed && t.sinks[h].delivered == s.sinks[h].delivered)
            && t.subs == s.subs
  {
    TeardownClosesAll(s, Crashed(if f.id.None? then NilDereference else NilConversion));
  }

  /** A read error ends the worker normally exactly when its text ends in
      "unexpected EOF"; any other error exits through log.Fatalf with its
      text, and no sink is closed. */
  lemma OtherErrorExits(s: State, m: string)
    requires WellFormed(s) && s.phase.Running?
    ensures Step(s, Failed(m)).phase == Ended <==> HasSuffix(m, "unexpected EOF")
    ensures !HasSuffix(m, "unexpected EOF") ==>
              Step(s, Failed(m)) == s.(phase := Exited(FatalPrefix + m))
  {
  }

  /** How gorilla/websocket reports a close frame from the peer, and a
      connection the peer drops without one. */
  const NormalClosure := "websocket: " + "close 1000 " + "(normal)"
  const AbnormalClosure := "websocket: " + "close 1006 " + "(abnormal closure): " + "unexpected EOF"

  /** A close frame from the peer exits through log.Fatalf; only a dropped
      connection ends the worker normally. */
  lemma CloseFrameExits(s: State)
    requires WellFormed(s) && s.phase.Running?
    ensures Step(s, Failed(NormalClosure)).phase == Exited(FatalPrefix + NormalClosure)
    ensures Step(s, Failed(AbnormalClosure)).phase == Ended
  {
    assert NormalClosure[|NormalClosure| - 1] == ')';
    assert AbnormalClosure[|AbnormalClosure| - 14..] == "unexpected EOF";
  }

  /* ---------------------------------------------------------------------- */
  /* Unsubscribe and Close                                                   */
  /* ---------------------------------------------------------------------- */

  /** Unsubscribe: a stop frame for an id registered for the sink, if there
      is one; the registry is left as it is. `writeError` is the websocket
      write's failure, if any: the error is dropped, and, as in Subscribe,
      `written` records only the frames written successfully. */
  function Unsubscribe(s: State, h: nat, writeError: Option<string>): (r: State)
    ensures r.sinks == s.sinks && r.subs == s.subs && r.nextId == s.nextId
    ensures r.closes == s.closes && r.phase == s.phase
    ensures r.written == s.written <==> writeError.Some? || forall id :: id in s.subs ==> s.subs[id] != h
    ensures r.written != s.written ==>
              exists id :: id in s.subs && s.subs[id] == h && r.written == s.written + [Frame(None, Some(id), StopType)]
  {
    var matching := set id | id in s.subs && s.subs[id] == h;
    if matching == {} then
      assert forall id :: id in s.subs ==> s.subs[id] != h by {
        forall id | id in s.subs
          ensures s.subs[id] != h
        {
          assert s.subs[id] == h ==> id in matching;
        }
      }
      s
    else
      var id := SortedKeys(matching)[0];
      assert id in matching;
      if writeError.Some? then s
      else s.(written := s.written + [Frame(None, Some(id), StopType)])
  }

  /** Under the invariant the stop frame carries the sink's own id. */
  lemma UnsubscribeStopsOwnId(s: State, h: nat, writeError: Option<string>)
    requires Inv(s)
    ensures Registered(s, h) && h < |s.sinks| && writeError.None? ==>
              Unsubscribe(s, h, writeError).written == s.written + [Frame(None, Some(NatToString(h)), StopType)]
    ensures !Registered(s, h) ==> Unsubscribe(s, h, writeError) == s
  {
    if Registered(s, h) {
      RegisteredMapsBack(s, h);
    } else {
      forall id | id in s.subs
        ensures s.subs[id] != h
      {
      }
    }
  }

  /** What Close leads to: the client and the error returned, a wait on the
      worker that has not finished when the incoming run out, or the process
      ending because the worker panicked or called log.Fatalf. */
  datatype CloseOutcome = Closed(client: SubscriptionClient, err: Option<string>) | Waiting(state: State) | ProcessDied(state: State)

  /** Close: nothing to do without a websocket; otherwise a terminate frame,
      a wait until the worker has returned (it reads `pending`), then the
      connection is closed. `writeError` and `closeError` are the failures
      of the write and of closing the connection, if any. */
  function Close(c: SubscriptionClient, writeError: Option<string>, pending: seq<Read>, closeError: Option<string>): (o: CloseOutcome)
    requires c.Connected? ==> WellFormed(c.state)
    ensures c.Unconnected? ==> o == Closed(Unconnected, None)
    ensures c.Connected? && writeError.Some? ==> o == Closed(c, writeError)
    ensures o.Closed? && o.client.Connected? && writeError.None? ==>
              o.err == closeError && o.client.state.phase == Ended
              && o.client.state == Work(c.state.(written := c.state.written + [Frame(None, None, ConnectionTerminate)]), pending)
    ensures o.Waiting? ==> o.state.phase.Running?
    ensures o.ProcessDied? ==> o.state.phase.Crashed? || o.state.phase.Exited?
  {
    match c
    case Unconnected => Closed(Unconnected, None)
    case Connected(s) =>
      if writeError.Some? then Closed(c, writeError)
      else
        var t := Work(s.(written := s.written + [Frame(None, None, ConnectionTerminate)]), pending);
        match t.phase
        case Running => Waiting(t)
        case Ended => Closed(Connected(t), closeError)
        case Crashed(_) => ProcessDied(t)
        case Exited(_) => ProcessDied(t)
  }

  /** Closing a running client whose stream then ends returns the close
      error (nil when closing succeeds), after a terminate frame, with every
      sink closed once. */
  lemma CloseAfterStreamEnds(s: State, closeError: Option<string>)
    requires Inv(s) && s.phase.Running?
    ensures var o := Close(Connected(s), None, [EndOfStream], closeError);
            && o.Closed? && o.err == closeError
            && o.client.state.written == s.written + [Frame(None, None, ConnectionTerminate)]
            && Inv(o.client.state)
            && forall h :: 0 <= h < |s.sinks| ==> o.client.state.sinks[h].closed
  {
    var s1 := s.(written := s.written + [Frame(None, None, ConnectionTerminate)]);
    assert Inv(s1);
    EndClosesEverySink(s1, EndOfStream);
    StepKeepsInv(s1, EndOfStream);
    assert Work(s1, [EndOfStream]) == Work(Step(s1, EndOfStream), []);
  }

  /** The exchange of graphql_subscription_test.go on a fresh client: the
      first subscription gets id "0" and a start frame; a stray
      acknowledgement is ignored; a data frame reaches the sink; Unsubscribe
      writes a stop frame for "0"; the complete frame closes the sink and
      forgets the id; Close writes a terminate frame and, once the server
      hangs up, returns nil. */
  lemma SubscriptionTestExchange(req: Graphql.Request, data: string)
    requires VariablesEncodable(req.vars)
    ensures var sub := Subscribe(InitialState(), req, None);
            var s1 := Step(sub.state, Got(Frame(None, None, ConnectionAck)));
            var s2 := Step(s1, Got(Frame(Some(data), Some("0"), DataType)));
            var s3 := Unsubscribe(s2, 0, None);
            var s4 := Step(s3, Got(Frame(None, Some("0"), CompleteType)));
            var o := Close(Connected(s4), None, [EndOfStream], None);
            && sub.result == Ok(0)
            && sub.state.written == [Frame(Some(QueryBody(req.q, req.vars).value), Some("0"), StartType)]
            && s1 == sub.state
            && s2.sinks[0].delivered == [DataPayload(Some(data))]
            && s3.written == sub.state.written + [Frame(None, Some("0"), StopType)]
            && s4.sinks[0].closed && "0" !in s4.subs && s4.closes == [0]
            && o.Closed? && o.err == None
            && o.client.state.written == s3.written + [Frame(None, None, ConnectionTerminate)]
  {
    var sub := Subscribe(InitialState(), req, None);
    assert NatToString(0) == "0";
    SubscribeKeepsInv(InitialState(), req, None);
    var s1 := Step(sub.state, Got(Frame(None, None, ConnectionAck)));
    var s2 := Step(s1, Got(Frame(Some(data), Some("0"), DataType)));
    DeliveredInOrder(s1, Frame(Some(data), Some("0"), DataType));
    StepKeepsInv(s1, Got(Frame(Some(data), Some("0"), DataType)));
    var s3 := Unsubscribe(s2, 0, None);
    UnsubscribeStopsOwnId(s2, 0, None);
    var s4 := Step(s3, Got(Frame(None, Some("0"), CompleteType)));
    assert Inv(s3);
    StepKeepsInv(s3, Got(Frame(None, Some("0"), CompleteType)));
    CloseAfterStreamEnds(s4, None);
  }
}

=== FILE: wire.dfy ===
/**
 * The `{"query": …, "variables": …}` request body that graphql.go and
 * json.go post and that graphql.go's Subscribe sends as a `start` payload,
 * together with a reading of it that recovers what was encoded.
 */
module Wire {
  import opened Common
  import opened Json

  /** Every variable value can be written by encoding/json; a nil map can. */
  predicate VariablesEncodable(vars: Option<map<string, Value>>)
  {
    vars.None? || forall k :: k in vars.value ==> Encodable(vars.value[k])
  }

  /** A map[string]interface{} struct field as encoding/json writes it: a nil
      map is `null`, any other map an object. */
  function EncodeVariables(vars: Option<map<string, Value>>): (r: Result<string>)
    ensures r.Ok? <==> VariablesEncodable(vars)
    ensures r.Ok? ==> (r.value == "null" <==> vars.None?)
    ensures r.Err? ==> UnsupportedPrefix <= r.error
    ensures !r.Panic?
  {
    match vars
    case None => Ok("null")
    case Some(m) => EncodeMap(m)
  }

  /** What json.Encoder.Encode writes for
      `struct { Query string "json:query"; Variables map[string]interface{} "json:variables" }`:
      the two fields in declaration order, then a newline. */
  function QueryBody(q: string, vars: Option<map<string, Value>>): (r: Result<string>)
    ensures r.Ok? <==> VariablesEncodable(vars)
    ensures r.Err? ==> UnsupportedPrefix <= r.error
    ensures !r.Panic?
  {
    var v := EncodeVariables(vars);
    if v.Ok? then Ok(QueryBodyOf(q, v.value)) else Err(v.error)
  }

  /** Reading a body back yields the query and the variables' JSON text. */
  lemma QueryBodyReadsBack(q: string, vars: Option<map<string, Value>>)
    requires VariablesEncodable(vars)
    ensures ReadQueryBody(QueryBody(q, vars).value) == Some(QueryRequest(q, EncodeVariables(vars).value))
  {
    ReadQueryBodyOf(q, EncodeVariables(vars).value);
  }

  /** Different queries, or differently encoded variables, give different bodies. */
  lemma QueryBodyInjective(q1: string, vars1: Option<map<string, Value>>, q2: string, vars2: Option<map<string, Value>>)
    requires VariablesEncodable(vars1) && VariablesEncodable(vars2)
    requires QueryBody(q1, vars1) == QueryBody(q2, vars2)
    ensures q1 == q2 && EncodeVariables(vars1) == EncodeVariables(vars2)
  {
    QueryBodyReadsBack(q1, vars1);
    QueryBodyReadsBack(q2, vars2);
  }

  function QueryBodyOf(q: string, variables: string): string
  {
    QueryOpen + EscapeBody(q) + "\"" + QueryTail(variables)
  }

  /** What follows the query literal: the variables and the encoder's
      closing brace and newline. */
  function QueryTail(variables: string): string
  {
    VariablesKey + variables + "}\n"
  }

  const QueryOpen := "{\"query\":\""
  const VariablesKey := ",\"variables\":"

  /* ---------------------------------------------------------------------- */
  /* Reading a body back                                                     */
  /* ---------------------------------------------------------------------- */

  /** A query body read back: the query text and the raw variables JSON. */
  datatype QueryRequest = QueryRequest(query: string, variables: string)

  /** Where the string literal whose body starts `t` is closed: the first
      quote not consumed by a backslash escape. */
  function LiteralEnd(t: string): (r: Option<nat>)
    ensures r.Some? ==> r.value < |t| && t[r.value] == '"'
    decreases |t|
  {
    if t == [] then None
    else if t[0] == '"' then Some(0)
    else if t[0] == '\\' then
      if |t| < 2 then None
      else match LiteralEnd(t[2..])
        case None => None
        case Some(n) => Some(n + 2)
    else match LiteralEnd(t[1..])
      case None => None
      case Some(n) => Some(n + 1)
  }

  function ReadQueryBody(t: string): Option<QueryRequest>
  {
    if !(QueryOpen <= t) then None
    else
      var rest := t[|QueryOpen|..];
      match LiteralEnd(rest)
      case None => None
      case Some(n) =>
        match Unescape(rest[..n])
        case None => None
        case Some(q) =>
          var after := rest[n + 1..];
          if VariablesKey <= after && |after| >= |VariablesKey| + 2 && after[|after| - 2..] == "}\n"
          then Some(QueryRequest(q, after[|VariablesKey|..|after| - 2]))
          else None
  }

  function Shift(r: Option<nat>, n: nat): Option<nat>
  {
    match r
    case None => None
    case Some(i) => Some(i + n)
  }

  /** Characters that neither close a literal nor start an escape are skipped. */
  lemma {:induction false} LiteralEndPlainPrefix(p: string, t: string)
    requires forall i :: 0 <= i < |p| ==> p[i] != '"' && p[i] != '\\'
    ensures LiteralEnd(p + t) == Shift(LiteralEnd(t), |p|)
  {
    if p != [] {
      LiteralEndPlainPrefix(p[1..], t);
      assert (p + t)[0] == p[0];
      assert (p + t)[1..] == p[1..] + t;
    } else {
      assert p + t == t;
    }
  }

  /** No escaped character hides a closing quote. */
  lemma LiteralEndEscapeChar(c: char, t: string)
    ensures LiteralEnd(EscapeChar(c) + t) == Shift(LiteralEnd(t), |EscapeChar(c)|)
  {
    var e := EscapeChar(c);
    var w := e + t;
    if c == '"' || c == '\\' || c == '\n' || c == '\r' || c == '\t' {
      assert w[2..] == t;
    } else if HtmlSensitive(c) || c < ' ' {
      assert |e| == 6 && e[0] == '\\';
      var p := e[2..];
      assert forall i :: 0 <= i < |p| ==> p[i] != '"' && p[i] != '\\';
      LiteralEndPlainPrefix(p, t);
      assert w[2..] == p + t;
    } else {
      assert w[1..] == t;
    }
  }

  lemma {:induction false} LiteralEndEscapeBody(s: string, t: string)
    ensures LiteralEnd(EscapeBody(s) + "\"" + t) == Some(|EscapeBody(s)|)
  {
    LiteralEndBeforeQuote(s, "\"" + t);
    assert EscapeBody(s) + "\"" + t == EscapeBody(s) + ("\"" + t);
  }

  /** The escaped text followed by anything that opens with a quote. */
  lemma {:induction false} LiteralEndBeforeQuote(s: string, u: string)
    requires u != [] && u[0] == '"'
    ensures LiteralEnd(EscapeBody(s) + u) == Some(|EscapeBody(s)|)
  {
    if s != [] {
      LiteralEndBeforeQuote(s[1..], u);
      LiteralEndEscapeStep(s, u);
    } else {
      assert EscapeBody(s) + u == u;
    }
  }

  /** One escaped character in front keeps the closing quote in view. */
  lemma LiteralEndEscapeStep(s: string, u: string)
    requires s != []
    requires LiteralEnd(EscapeBody(s[1..]) + u) == Some(|EscapeBody(s[1..])|)
    ensures LiteralEnd(EscapeBody(s) + u) == Some(|EscapeBody(s)|)
  {
    LiteralEndEscapeChar(s[0], EscapeBody(s[1..]) + u);
    EscapeBodyCons(s, u);
    EscapeBodyLength(s);
  }

  lemma ReadQueryBodyOf(q: string, variables: string)
    ensures ReadQueryBody(QueryBodyOf(q, variables)) == Some(QueryRequest(q, variables))
  {
    var tail := QueryTail(variables);
    SplitAtSeparator(QueryOpen, EscapeBody(q), '"', tail);
    LiteralEndEscapeBody(q, tail);
    QuoteRoundTrip(q);
    TailReadsBack(variables);
  }

  /** The text after the query literal gives the variables back. */
  lemma TailReadsBack(variables: string)
    ensures var after := QueryTail(variables);
            && VariablesKey <= after && |after| >= |VariablesKey| + 2 && after[|after| - 2..] == "}\n"
            && after[|VariablesKey|..|after| - 2] == variables
  {
    var after := QueryTail(variables);
    assert after[..|VariablesKey|] == VariablesKey;
  }

  /** Characters encoding/json writes as they are inside a string literal. */
  predicate Plain(s: string)
  {
    forall i :: 0 <= i < |s| ==> ' ' <= s[i] && s[i] != '"' && s[i] != '\\' && !HtmlSensitive(s[i])
  }

  lemma {:induction false} EscapePlain(s: string)
    requires Plain(s)
    ensures EscapeBody(s) == s
  {
    if s != [] {
      EscapePlain(s[1..]);
      assert [s[0]] + s[1..] == s;
    }
  }

  /** The body posted for a query without variables (`query {}` in the
      client's tests): the query verbatim and `null`. */
  lemma QueryBodyWithoutVariables(q: string)
    requires Plain(q)
    ensures QueryBody(q, None) == Ok("{\"query\":\"" + q + "\",\"variables\":null}\n")
  {
    QueryBodyOfPlain(q, "null");
    var a := "{\"query\":\"" + q;
    assert "{\"query\":\"" + q + "\",\"variables\":" + "null" + "}\n"
           == a + ("\",\"variables\":" + "null" + "}\n");
    assert "\",\"variables\":" + "null" + "}\n" == "\",\"variables\":null}\n";
  }

  lemma QueryBodyOfPlain(q: string, variables: string)
    requires Plain(q)
    ensures QueryBodyOf(q, variables) == "{\"query\":\"" + q + "\",\"variables\":" + variables + "}\n"
  {
    EscapePlain(q);
    assert "\"" + VariablesKey == "\",\"variables\":";
  }

  /** The body posted for a query with one string variable (username =
      "matryer" in the client's tests). */
  lemma QueryBodyWithOneVariable(q: string, name: string, value: string)
    requires Plain(q) && Plain(name) && Plain(value)
    ensures QueryBody(q, Some(map[name := Str(value)]))
            == Ok("{\"query\":\"" + q + "\",\"variables\":{\"" + name + "\":\"" + value + "\"}}\n")
  {
    var v := "{\"" + name + "\":\"" + value + "\"}";
    OneStringVariable(name, value);
    QueryBodyOfPlain(q, v);
    var a := "{\"query\":\"" + q;
    assert a + "\",\"variables\":" + v + "}\n"
           == a + "\",\"variables\":{\"" + name + "\":\"" + value + "\"}}\n";
  }

  lemma OneStringVariable(name: string, value: string)
    requires Plain(name) && Plain(value)
    ensures EncodeVariables(Some(map[name := Str(value)])) == Ok("{\"" + name + "\":\"" + value + "\"}")
  {
    OneStringMember(name, value);
    assert "{" + ("\"" + name + "\"") + ":" + ("\"" + value + "\"") + "}" == "{\"" + name + "\":\"" + value + "\"}";
  }

  lemma OneStringMember(name: string, value: string)
    requires Plain(name) && Plain(value)
    ensures EncodeMap(map[name := Str(value)]) == Ok("{" + ("\"" + name + "\"") + ":" + ("\"" + value + "\"") + "}")
  {
    EscapePlain(name);
    EscapePlain(value);
    EncodeSingletonMap(name, Str(value));
  }
}
